=== FILE: README.md ===
# TeleLLMgram core, modelled in Dafny

TeleLLMgram turns exported Telegram channel and group archives into message
tables. It then answers free-text analysis requests about them by cutting the
messages into prompts of about 200,000 characters, asking an LLM about each
prompt, and asking it once more to merge the partial answers. This project
models that core in Dafny and proves what it does.

The core has four parts.

- **Media parsing** (`parse_all_media.py`):
  - chat-type detection;
  - reaction and hashtag rendering;
  - text preprocessing;
  - the channel and group converters;
  - the loop that writes one table and one `metadata.csv` row per export, and raises on an unknown chat type.
- **Text utilities** (`text_utils.py`):
  - Arabic-to-Persian letter normalisation;
  - padding around short parenthesised abbreviations and around numbers;
  - newline collapsing;
  - empty-line removal;
  - the first digit of a text;
  - the Persian-letter count.
- **Pipeline utilities** (`pipeline_utils.py`):
  - the list of group files;
  - the first-seen member map of every group;
  - the media, group and channel counts.
- **Pipelines** (`social_pipelines.py`):
  - the date filter with its lenient `parse_date`;
  - the lookup of a media table by id;
  - the five analyses: single media, topic, time window, trend and individual;
  - each analysis's chunk loop, LLM loop and final reduce prompt.

## Modules

| Module | File | Contents |
|---|---|---|
| `Common` | `common.dfy` | `Option` and `Result`; `str.split` and `str.join` with their round trips; order-preserving filters with their index maps; `str(int)`; `random.sample` as a choice of distinct positions. |
| `Tables` | `tables.dfy` | A message table as read back from CSV, with `None` for a `NaN` cell. A `metadata.csv` row. `get_media_table_from_code`. |
| `Dates` | `dates.dfy` | The Gregorian calendar. `strptime` on `%d/%m/%Y`, `%d/%m/%y` and `%Y-%m-%dT%H:%M:%S`. `strftime('%d/%m/%y')`. pandas' Timestamp range. The `dateutil` two-digit-year pivot. `parse_date`. |
| `DateFilter` | `date_filter.dfy` | `filter_dataframe_by_date`. |
| `TextUtils` | `text_utils.dfy` | Every helper of that file except the hash and the hard-coded date. |
| `Relevance` | `relevance.dfy` | `score_text` and `_retrive_information_from_table`: lower-casing, `split()`, the capped overlap, and the descending top-n. |
| `Prompts` | `prompts.dfy` | The shared shapes of the pipelines' loops: the chunk loop that seals a chunk at the character limit, numbered enumerations, the enumeration that stops past the limit, and one LLM call per prompt. |
| `Pipelines` | `pipelines.dfy` | The analysis classes with their constructors, prompts and `run` methods. |
| `MediaParsing` | `media_parsing.dfy` | `parse_all_media.py`. |
| `PipelineUtils` | `pipeline_utils.dfy` | `pipeline_utils.py`. |

## How the source's shapes are kept

- **Loops are methods.** Every loop in the source that builds a value step by step is a `method` with a `while` loop. Examples: the chunk loops, the prompt enumerations, the LLM loops, the converters, `extract_users_from_groups` and the group-file scan. Each method is proved equal to a recursive specification function. The source's promises are then proved about that function.
- **`TopicOriented` is a class.** Its `run` overwrites `self.keywords` when no keywords were given, so it is a `class` with a `modifies` clause.
- **The other analyses are datatypes.** Their objects never change after construction. The prompt pieces their `__init__` and `run` compute are functions of the datatype.
- **The constructors are functions of the metadata.** They take the metadata rows and a `readTable` function (standing for `pd.read_csv`), and they return `Err` with the message of the exception the source would raise.

### Quirks of the source, modelled as written

- **Group header.** In `SpecificMediaAnalysis.run` (lines 90 and 102 of `social_pipelines.py`) the conditional expression binds looser than `+`. For a channel the header is intro + channel format. For a group the intro is thrown away and the header starts with the group format. `GroupHeaderLosesIntro` proves this, and `ChannelHeaderKeepsIntro` proves the channel case.
- **`self.media_content` in the final prompt.** That final prompt renders the filtered DataFrame, not the media type. The model passes that rendering in as `tableRepr`.
- **Worst match first.** The topic prompt walks `data[len(data)-1:0:-1]`. This reverses the ranked list and leaves out element 0, the best match. `BestMatchLeftOut` proves this.
- **Two sealing rules.**
  - Single-media chunks are sealed at `len >= 200_000`.
  - Time-window chunks are sealed at `len > 200_000`.
  - In both loops the open chunk left at the end is never sent. A media whose eligible lines stay under the limit sends no chunk at all, and the final prompt is built from zero partial answers (`SmallMediaSendsNothing`, `ChunksSmallInput`).
- **Duplicate ids.** A media id that appears twice in the metadata reads the first row's file (`LookupFirst`).
- **Swapped names.** `extract_users_from_groups` stores `sender_id` under `sender_name`; the variable names in the source are swapped. The first row of each name wins (`FirstSendersFirst`).
- **Missing sender columns.** A table without `sender_name` fails only when it has at least one row.
- **Unreachable Persian-number branch.** Python's `\d` also matches Persian digits. So the Persian alternative of `add_whitespace_around_numbers` can never match first (`PersianAlternativeUnreachable`). A Persian decimal such as `۱٫۵` is split around its separator (`PersianDecimalIsSplit`).
- **Keywords with spaces.** A keyword containing whitespace, or one the LLM returns with a leading space after the comma, can never match a word (`KeywordWithSpaceNeverMatches`).
- **Date fallback.** `parse_date` tries the day-first fallback only when both strict formats fail. That fallback uses `dateutil`'s two-digit-year pivot, which depends on the current year. So `1/2/0` is 29 February 2000 while the current year is from 1950 up to 2050. From 2051 up to 2350 it is `NaT`, because the pivot then gives 2100, 2200 or 2300, none of them a leap year. `FallbackLeapDayMissing` shows the years 2026 and 2051.
- **Unchecked chat types.** The channel and group converters do not check the chat type; only the caller does.

### Behaviour of the code worth knowing

- **Chunk size.** A chunk is sealed only once it has reached 200,000 characters, so every chunk sent is at least that long (`StrictChunkPastLimit`, `ChunkBounds`).
- **Final chunk.** The open chunk left when the loop ends is never sent.
- **Empty input.** When no message qualifies, the LLM is still called, with a reduce prompt that holds no partial answers.
- **Reduce stage.** The final prompt is built once, from all partial answers together.
- **Tie order.** The ranking uses pandas' default sort, which is not stable. The model promises only that the result is sorted by score, is a sub-multiset of the candidates, and keeps every candidate that scores above the last one kept.
- **Topic analysis.** It builds one prompt per media, cut off after the line that takes it past 200,000 characters.
- **Individual analysis.** It sends one prompt with up to 1000 sampled messages.
- **Date range.** A start date after the end date is accepted and selects nothing.
- **Basic statistics.** `get_basic_stat_info` computes the media, group and channel counts and returns nothing. The model returns the three counts so that they can be stated.

## Model

| member | source | states |
|---|---|---|
| Common.JoinSplit | telellmgram/pipelines/social_pipelines.py:209 | Joining the pieces of `s.split(c)` with `c` gives back `s`. |
| Common.SplitJoin | telellmgram/pipelines/social_pipelines.py:209 | Splitting the join of a non-empty list of pieces, none containing `c`, gives back the pieces. |
| Common.FilterPositions | telellmgram/pipelines/social_pipelines.py:306 | A boolean-mask selection is exactly the matching elements, at increasing source positions, and none is missed. |
| Common.Sample | telellmgram/pipelines/social_pipelines.py:109 | `random.sample(population, k)` returns `k` elements at distinct positions, so it is a sub-multiset of the population. |
| Tables.Lookup | telellmgram/pipelines/social_pipelines.py:52-54 | The metadata row for a code is absent exactly when no row has that id; otherwise it is a row with that id. |
| Tables.LookupFirst | telellmgram/utils/pipeline_utils.py:22-24 | With duplicate ids, the row used is the first one carrying the id. |
| Tables.MediaTable | telellmgram/pipelines/social_pipelines.py:52-54 | Fails with the `IndexError` message exactly when the code is missing; otherwise it is the table read from the first matching row's messages file. |
| Dates.LastDay | telellmgram/pipelines/social_pipelines.py:37 | `calendar.monthrange(y, m)[1]` lies in 28..31 and is 29 exactly for February of a leap year. |
| Dates.LastDayPeriodic | telellmgram/pipelines/social_pipelines.py:37 | A month's last day repeats every 400 years. |
| Dates.LastDayCentury | telellmgram/pipelines/social_pipelines.py:37-38 | A month's last day in year `y` equals its last day in year `2000 + y`. |
| Dates.DmyFields | telellmgram/pipelines/social_pipelines.py:30-32 | A strict `%d/%m/%Y` or `%d/%m/%y` parse yields a real calendar date. A two-digit year maps into 1969..2068. A year of the wrong width is refused. |
| Dates.PandasDmy | telellmgram/pipelines/social_pipelines.py:32 | `pd.to_datetime(s, format=...)` succeeds exactly when `strptime` succeeds and the date lies in the Timestamp range. |
| Dates.TwoDigitYearsInRange | telellmgram/pipelines/social_pipelines.py:32 | Every date with a two-digit year lies in the Timestamp range. |
| Dates.ConvertYear | telellmgram/pipelines/social_pipelines.py:38 | The day-first fallback takes a year under 100 to the year with the same last two digits within 50 years of the current year; other years are unchanged. |
| Dates.LastDayOfMonthDate | telellmgram/pipelines/social_pipelines.py:35-38 | The last-day fallback yields a valid date in the Timestamp range or nothing. |
| Dates.ParseDate | telellmgram/pipelines/social_pipelines.py:29-40 | `parse_date` yields a valid in-range date or `NaT`. |
| Dates.ParseDateNeedsThreeFields | telellmgram/pipelines/social_pipelines.py:36 | Text without exactly three `/`-separated fields is `NaT`. |
| Dates.ParseDateTwoDigitYear | telellmgram/pipelines/social_pipelines.py:30-38 | With a two-digit year the result is the strict `%d/%m/%y` date when valid, else the last day of that month. |
| Dates.ParseDateFourDigitYear | telellmgram/pipelines/social_pipelines.py:30-38 | With a four-digit year the result is the strict `%d/%m/%Y` date when valid and in range, else the last day of that month. |
| Dates.FallbackDayExists | telellmgram/pipelines/social_pipelines.py:37-38 | The last day computed on the literal year exists in the pivoted year whenever the current year is in 2000..2050. |
| Dates.FallbackLeapDayMissing | telellmgram/pipelines/social_pipelines.py:35-38 | `1/2/0` becomes 29 February 2000 in 2026 and `NaT` in 2051. |
| Dates.NoThirtyFirstOfFebruary | telellmgram/pipelines/social_pipelines.py:30-32 | Example of `Dates.DmyFields`: `31/02/23` fails both strict formats. |
| Dates.ParseDateExample | telellmgram/pipelines/social_pipelines.py:35-38 | Example of `Dates.ParseDate`: `31/02/23` falls back to 28 February 2023. |
| Dates.DefaultBoundsParse | telellmgram/pipelines/social_pipelines.py:68-71 | Example of `Dates.ParseDateTwoDigitYear`: the default bounds `01/01/00` and `01/01/30` are 1 January 2000 and 1 January 2030. |
| Dates.FormatDmyRoundTrip | telellmgram/pipelines/social_pipelines.py:48 | `strftime('%d/%m/%y')` read back with `%d/%m/%y` gives the same date, for years 1969..2068. |
| Dates.FormatHmsRoundTrip | telellmgram/media/parse_all_media.py:112 | `strftime('%H:%M:%S')` read back with `%H:%M:%S` gives the same hour, minute and second. |
| Dates.FormatStampRoundTrip | telellmgram/media/parse_all_media.py:112-113 | A row's time and date columns read back as the timestamp they were written from, the date for years 1969..2068. |
| Dates.ParseIsoTimestamp | telellmgram/media/parse_all_media.py:104 | A parsed `%Y-%m-%dT%H:%M:%S` timestamp is a real date with a valid time of day. |
| Dates.IsoSplit | telellmgram/media/parse_all_media.py:104 | The timestamp parse reads its six fields from their places around `-`, `T` and `:`. |
| Dates.ParseIsoExample | telellmgram/media/parse_all_media.py:104 | Example of `Dates.ParseIsoTimestamp`: `2023-05-01T12:34:56` parses to that date and time. |
| DateFilter.RowDate | telellmgram/pipelines/social_pipelines.py:28 | A row date that survives `errors="coerce"` is a real date in 1969..2068. |
| DateFilter.Rewritten | telellmgram/pipelines/social_pipelines.py:48 | Rewriting a kept row's date as `dd/mm/yy` keeps the date it denotes. |
| DateFilter.RewrittenFixed | telellmgram/pipelines/social_pipelines.py:48 | Rewriting twice is rewriting once. |
| DateFilter.KeepInRange | telellmgram/pipelines/social_pipelines.py:47 | Every kept row has a date within both bounds. |
| DateFilter.KeptRows | telellmgram/pipelines/social_pipelines.py:47-48 | The result is exactly the in-range rows, in table order, each with its date rewritten. |
| DateFilter.FilterByDate | telellmgram/pipelines/social_pipelines.py:41-46 | It fails with `Invalid start_date: …` when the start does not parse, else with `Invalid end_date: …` when the end does not parse. It succeeds exactly when both parse. |
| DateFilter.KeepInRangeIdempotent | telellmgram/pipelines/social_pipelines.py:47-48 | Keeping the in-range rows of already kept rows changes nothing. |
| DateFilter.FilterByDateIdempotent | telellmgram/pipelines/social_pipelines.py:26-49 | Filtering a filtered table by the same bounds gives the same table. |
| DateFilter.UnreadableDateDropped | telellmgram/pipelines/social_pipelines.py:28-47 | A row whose date does not parse is never kept. |
| TextUtils.KeyIndexFindsKeys | telellmgram/utils/text_utils.py:6-17 | The table lookup finds a character exactly when it is a key of the normalisation table. |
| TextUtils.ValuesAreNotKeys | telellmgram/utils/text_utils.py:6-17 | No replacement in the table is itself a key. |
| TextUtils.NormalizeChars | telellmgram/utils/text_utils.py:24-27 | After normalisation no key character remains and the text is no longer. |
| TextUtils.TableFoldIsPerChar | telellmgram/utils/text_utils.py:24-27 | Replacing each key in table order over the whole text equals mapping every character on its own. |
| TextUtils.NormalizePersianSentence | telellmgram/utils/text_utils.py:24-27 | The replace loop computes the per-character normalisation. |
| TextUtils.NormalizeIdempotent | telellmgram/utils/text_utils.py:24-27 | Normalising twice is normalising once. |
| TextUtils.NormalizeLength | telellmgram/utils/text_utils.py:15 | Normalisation shortens the text by exactly its number of hamzas. |
| TextUtils.RemoveExtraNewlines | telellmgram/utils/text_utils.py:30-32 | The result has no two adjacent newlines, keeps the first character, and is no longer. |
| TextUtils.RemoveExtraNewlinesIdempotent | telellmgram/utils/text_utils.py:30-32 | Collapsing newline runs twice is collapsing once. |
| TextUtils.RemoveExtraNewlinesKeepsText | telellmgram/utils/text_utils.py:30-32 | Everything but newlines is kept in order, and a newline remains exactly when there was one. |
| TextUtils.RemoveExtraNewlinesPositions | telellmgram/utils/text_utils.py:30-32 | The result is exactly the input's characters at every position except a newline followed by another newline, in order. So each newline run leaves exactly one newline and every other character stays. |
| TextUtils.PadAbbrevKeepsText | telellmgram/utils/text_utils.py:19-22 | Padding abbreviations only inserts spaces. |
| TextUtils.PadAbbrevPieces | telellmgram/utils/text_utils.py:19-22 | Scanning left to right cuts the text into pieces. At each piece's start the pattern matches exactly that piece, or, for a one-character piece, does not match. The output is the pieces in order, each match with one space on each side, so it is longer by two characters per match. |
| TextUtils.PadAbbrevNoParen | telellmgram/utils/text_utils.py:19-22 | Text without `(` is unchanged. |
| TextUtils.PadAbbrevExample | telellmgram/utils/text_utils.py:19-22 | Example of `TextUtils.PadAbbrevPieces`: `a(s)b` becomes `a (s) b`. |
| TextUtils.NumberMatchLen | telellmgram/utils/text_utils.py:43-45 | A number match starts exactly where a decimal digit stands. |
| TextUtils.PersianAlternativeUnreachable | telellmgram/utils/text_utils.py:43-45 | Wherever the Persian-number alternative could match, the first alternative already matches. |
| TextUtils.PadNumbersKeepsText | telellmgram/utils/text_utils.py:40-46 | Padding numbers only inserts spaces. |
| TextUtils.PadNumbersPieces | telellmgram/utils/text_utils.py:40-46 | Scanning left to right cuts the text into pieces. At each piece's start `\d+\.\d+\|\d+` matches exactly that piece, or, for a one-character piece, does not match. The padded text is the pieces in order, each match with one space on each side, so it is longer by two characters per match. |
| TextUtils.StripKeepsText | telellmgram/utils/text_utils.py:47 | `strip()` only removes whitespace. |
| TextUtils.AddWhitespaceAroundNumbers | telellmgram/utils/text_utils.py:40-47 | The result carries no leading or trailing whitespace and keeps every non-space character in order. It strips the padded text that `TextUtils.PadNumbersPieces` describes piece by piece. |
| TextUtils.PersianDecimalIsSplit | telellmgram/utils/text_utils.py:43-47 | A Persian decimal `d٫e` comes out as `d ٫ e`. |
| TextUtils.PreprocessKeyFree | telellmgram/utils/text_utils.py:50-54 | No normalisation key survives padding and stripping. |
| TextUtils.PreprocessPersianSentence | telellmgram/utils/text_utils.py:50-54 | Preprocessing is normalise, pad abbreviations, then pad numbers and strip. The result is stripped and holds no key character. |
| TextUtils.FirstDigitIndex | telellmgram/utils/text_utils.py:57-61 | It finds the position of the first digit, or the end when there is none. |
| TextUtils.FindFirstDigit | telellmgram/utils/text_utils.py:57-61 | It returns nothing exactly when the text has no digit, and otherwise the first digit. |
| TextUtils.SplitLines | telellmgram/utils/text_utils.py:65 | No line of `splitlines()` contains a line boundary. |
| TextUtils.SplitLinesJoin | telellmgram/utils/text_utils.py:65-67 | `splitlines()` of non-empty lines joined with `\n` gives back the lines. |
| TextUtils.NonBlankLinesPositions | telellmgram/utils/text_utils.py:66 | The kept lines are exactly the input's non-blank lines, at increasing positions, with none missed. |
| TextUtils.RemoveEmptyLinesShape | telellmgram/utils/text_utils.py:64-68 | The result's lines are the input's non-blank lines. It neither starts nor ends with a line break, and removing empty lines twice is removing them once. |
| TextUtils.PersianLetterCount | telellmgram/utils/text_utils.py:85-93 | The count of Persian letters is at most the length. |
| TextUtils.PersianLetterCountAppend | telellmgram/utils/text_utils.py:85-93 | The count over a concatenation is the sum of the counts. |
| TextUtils.CountPersianLetters | telellmgram/utils/text_utils.py:85-93 | The counting loop computes the letter count. |
| Relevance.LowerMeaning | telellmgram/pipelines/social_pipelines.py:215-219 | Lower-casing leaves no ASCII capital: each capital becomes its small letter, every other character stays, and lower-casing again changes nothing. |
| Relevance.WordsMeaning | telellmgram/pipelines/social_pipelines.py:219 | Every `split()` word is non-empty and space-free, and the words concatenate to the text without its whitespace. Where the cuts fall is stated by `Relevance.WordsOfJoin`. |
| Relevance.WordsOfJoin | telellmgram/pipelines/social_pipelines.py:219 | Non-empty, space-free words joined by any non-empty run of whitespace split back into exactly those words: `split()` cuts at every whitespace run and nowhere else. |
| Relevance.BlankHasNoWords | telellmgram/pipelines/social_pipelines.py:217-219 | A text that strips to nothing has no words. |
| Relevance.Score | telellmgram/pipelines/social_pipelines.py:216-221 | A score is at most 5, and 0 for a missing text. |
| Relevance.ScoreMeaning | telellmgram/pipelines/social_pipelines.py:215-221 | The score is the keyword and word overlap capped at 5. It is positive exactly when some lower-cased word is a keyword. |
| Relevance.KeywordWithSpaceNeverMatches | telellmgram/pipelines/social_pipelines.py:215-220 | A keyword that is not a single word never matches. |
| Relevance.CandidatesPositions | telellmgram/pipelines/social_pipelines.py:224-225 | The candidates are exactly the texts of the rows scoring above zero, in row order, with none missed. |
| Relevance.HeadOfRanking | telellmgram/pipelines/social_pipelines.py:225 | The head of a descending ranking keeps every copy of every text scoring above its last element. |
| Relevance.TopN | telellmgram/pipelines/social_pipelines.py:225 | The `head(n)` of a descending sort has `min(n, |pool|)` elements. It is sorted, is a sub-multiset of the pool, is the whole pool when the pool fits, and misses nothing scoring above its last element. |
| Relevance.Retrieve | telellmgram/pipelines/social_pipelines.py:214-226 | Retrieval returns the top texts by score among those scoring above zero, with the properties of `TopN`. |
| MediaParsing.DetectChatTypeMeaning | telellmgram/media/parse_all_media.py:25-37 | The type is `channel` exactly when it mentions a channel. It is `group` exactly when it mentions a group and no channel. Otherwise it is `unknown`. |
| MediaParsing.ReactionsRoundTrip | telellmgram/media/parse_all_media.py:70-74 | Splitting the rendered reactions at `,` and `:` gives back each emoji reaction's emoji and count, in order. |
| MediaParsing.NoEmojiNoText | telellmgram/media/parse_all_media.py:70-74 | No reactions, or none of type `emoji`, render as the empty text. |
| MediaParsing.ExtractHashtags | telellmgram/media/parse_all_media.py:64-67 | Every extracted tag is `#` followed by one or more word characters. That none is missed is stated by `MediaParsing.HashtagPositions`. |
| MediaParsing.HashtagPositions | telellmgram/media/parse_all_media.py:64-67 | The tags occur in the text at increasing, non-overlapping positions, each running as far as the word characters do. Every `#` followed by a word character starts one of them, so no match is missed. |
| MediaParsing.HashtagsJoinSplit | telellmgram/media/parse_all_media.py:167 | The comma-joined `hashtags` column splits back into the tags. |
| MediaParsing.Preprocessed | telellmgram/media/parse_all_media.py:48-53 | Preprocessed text has no two adjacent newlines. |
| MediaParsing.RemoveEach | telellmgram/media/parse_all_media.py:50-51 | The replace loop removes every occurrence of each token in turn and never lengthens the text. |
| MediaParsing.PreprocessText | telellmgram/media/parse_all_media.py:48-53 | `preprocess_text` is preprocessing, token removal, `clean_text` and newline collapsing, and contains no `\n\n`. |
| MediaParsing.TrimChannelText | telellmgram/media/parse_all_media.py:102-103 | A channel text ending in a newline loses its last two characters; any other text is kept. |
| MediaParsing.ChannelCleanedOnce | telellmgram/media/parse_all_media.py:111 | The channel converter's second newline collapse changes nothing. |
| MediaParsing.ChannelRowOf | telellmgram/media/parse_all_media.py:96-117 | A channel message fails exactly when its timestamp does not parse. Otherwise the row keeps its id and trimmed text. Its time reads back as the timestamp's hour, minute and second, and its date as the timestamp's date for years 1969..2068. The cleaned text is the preprocessed text with its own links and hashtags removed, with no `\n\n`. The reactions, links and hashtags columns are the rendered reactions and the comma-joined links and hashtags of the text. |
| MediaParsing.GroupRowOf | telellmgram/media/parse_all_media.py:145-169 | A group message fails exactly when its timestamp does not parse. Otherwise the row keeps its id, text, sender, sender id and reply id. Its date, time, cleaned text, reactions, links and hashtags are as for a channel row. |
| MediaParsing.RowsOnePerMessage | telellmgram/media/parse_all_media.py:93-119 | A conversion succeeds exactly when every entry of type `message` converts. Its rows are then those conversions, one per message, in order. |
| MediaParsing.ConvertChannelMessage | telellmgram/media/parse_all_media.py:98-117 | The per-message channel step computes the channel row. |
| MediaParsing.ConvertGroupMessage | telellmgram/media/parse_all_media.py:148-169 | The per-message group step computes the group row. |
| MediaParsing.ChannelToRows | telellmgram/media/parse_all_media.py:77-119 | The channel converter's loop computes the row list. |
| MediaParsing.GroupToRows | telellmgram/media/parse_all_media.py:122-171 | The group converter's loop computes the row list. |
| MediaParsing.ParseMedia | telellmgram/media/parse_all_media.py:185-191 | An export of unknown chat type raises the `ValueError`. |
| MediaParsing.ConvertExport | telellmgram/media/parse_all_media.py:185-191 | The chat-type dispatch computes the parsed table. |
| MediaParsing.PathJoinLastSegment | telellmgram/media/parse_all_media.py:193 | The last path segment of the output file is its own name. |
| MediaParsing.MetaFileMarksGroups | telellmgram/media/parse_all_media.py:193-199 | An output file name contains `g` exactly when the media is a group. |
| MediaParsing.Metas | telellmgram/media/parse_all_media.py:195-200 | There is one metadata row per export. |
| MediaParsing.ParseAll | telellmgram/media/parse_all_media.py:174-203 | Parsing all media succeeds exactly when every export converts. |
| MediaParsing.CollectAll | telellmgram/media/parse_all_media.py:177-200 | The export loop stops at the first failing export with its error. Otherwise it yields every table and one metadata row per export, in order. |
| MediaParsing.ParseAllMedia | telellmgram/media/parse_all_media.py:174-203 | The loop computes the metadata and tables of all exports. |
| MediaParsing.ConvertAllTables | telellmgram/media/parse_all_media.py:177-194 | All conversions succeed exactly when each does, and the tables are then in export order. |
| MediaParsing.ParseAllMeta | telellmgram/media/parse_all_media.py:185-202 | Any unknown chat type fails the run. On success, row `i` holds the export's id and name, `channel` or `group` as detected, the file `{i+1}{c|g}.csv`, and the export's table. |
| PipelineUtils.SelectGroupFiles | telellmgram/utils/pipeline_utils.py:14-19 | The scan over `metadata.csv` collects the group files. |
| PipelineUtils.GroupFilesExactly | telellmgram/utils/pipeline_utils.py:14-19 | The group files are exactly the metadata rows whose file name contains `g`, as `(id, file)` pairs in table order. |
| PipelineUtils.ParsedGroupFiles | telellmgram/utils/pipeline_utils.py:18-19 | For metadata written by the media parser, the group files are exactly the rows of type `group`. |
| PipelineUtils.FirstSendersKeys | telellmgram/utils/pipeline_utils.py:32-36 | Every sender name of the table is a key, and every key is some row's sender name. |
| PipelineUtils.FirstSendersFirst | telellmgram/utils/pipeline_utils.py:35-36 | A name is mapped to the sender id of its first row. |
| PipelineUtils.FirstSendersKeep | telellmgram/utils/pipeline_utils.py:32-36 | Later rows never change an entry made by earlier rows. |
| PipelineUtils.TableMembers | telellmgram/utils/pipeline_utils.py:30-36 | Reading a table's members fails with `KeyError('sender_name')` exactly when the table has rows but no sender columns. Otherwise the members are the first-seen map. |
| PipelineUtils.AddGroup | telellmgram/utils/pipeline_utils.py:30-36 | The row loop replaces the group's entry with the table's members or fails as `TableMembers` does; other groups are untouched. |
| PipelineUtils.ExtractUsersFromGroups | telellmgram/utils/pipeline_utils.py:27-36 | The loop over the group files computes the member map of every group. |
| PipelineUtils.GroupMembersOk | telellmgram/utils/pipeline_utils.py:29-36 | Extraction succeeds exactly when every group file's code is known and its table has sender columns or no rows. |
| PipelineUtils.GroupMembersEntries | telellmgram/utils/pipeline_utils.py:27-36 | On success the keys are exactly the files' codes, and each code maps to the first-seen members of the table read for that code. |
| PipelineUtils.GroupFilesFound | telellmgram/utils/pipeline_utils.py:14-31 | Every group file's code is found by the lookup. |
| PipelineUtils.BasicStatInfo | telellmgram/utils/pipeline_utils.py:42-45 | The counts are the number of media, the rows of type `group`, and the rest; groups plus channels is the media count. |
| PipelineUtils.ParsedStatInfo | telellmgram/utils/pipeline_utils.py:42-45 | For metadata written by the media parser, the channel count is the number of rows of type `channel`. |
| Prompts.BuildChunks | telellmgram/pipelines/social_pipelines.py:88-103 | The chunk loop computes the chunk specification: the sealed groups of lines, each between header and closing text. |
| Prompts.PackConserves | telellmgram/pipelines/social_pipelines.py:92-103 | The sealed chunks followed by the open chunk hold every eligible line once, in table order. |
| Prompts.PackSealsAtLastLine | telellmgram/pipelines/social_pipelines.py:98-103 | A chunk is sealed by its last line and by no earlier line, and the open chunk is not sealed. |
| Prompts.ChunksSmallInput | telellmgram/pipelines/social_pipelines.py:99-104 | When header plus all lines stay under the limit, no chunk is produced. |
| Prompts.ChunkBounds | telellmgram/pipelines/social_pipelines.py:98-100 | Every chunk is header, lines and closing text. It reached the limit, and without its last line it was under the limit. |
| Prompts.StrictChunkPastLimit | telellmgram/pipelines/social_pipelines.py:254-256 | Under the strict rule every chunk starts with the header and is longer than the limit plus the closing text. |
| Prompts.EnumeratePrefix | telellmgram/pipelines/social_pipelines.py:178-179 | Enumerating a prefix of the items gives a prefix of the full enumeration. |
| Prompts.EnumerateEntry | telellmgram/pipelines/social_pipelines.py:126-127 | Item `i` appears as entry number `i+1`, right after the entries before it. |
| Prompts.AppendNumbered | telellmgram/pipelines/social_pipelines.py:126-127 | The numbering loop appends the enumeration of the items. |
| Prompts.StopAtMeaning | telellmgram/pipelines/social_pipelines.py:178-181 | The loop stops after the first entry that takes the prompt past the limit, or after the last item. |
| Prompts.AppendNumberedUntil | telellmgram/pipelines/social_pipelines.py:178-181 | The numbering loop with `break` appends the entries up to that stopping point. |
| Prompts.CallEach | telellmgram/pipelines/social_pipelines.py:185-189 | The LLM loop collects `call_llm(p)` for each prompt, in order. |
| Prompts.AskAndNumber | telellmgram/pipelines/social_pipelines.py:185-198 | The LLM loop followed by the numbering loop gives the enumeration of the responses. |
| Pipelines.FilteredTable | telellmgram/pipelines/social_pipelines.py:26-49 | The date filter keeps the table's kind and replaces its rows by the filtered rows, or fails with the filter's error. |
| Pipelines.MediaInRange | telellmgram/pipelines/social_pipelines.py:64-72 | A media table in range fails with the `IndexError` for an unknown code and otherwise succeeds exactly when both bounds parse. It is then the filtered table of the first matching row's file. |
| Pipelines.MediaInRangeRows | telellmgram/pipelines/social_pipelines.py:72 | Every row of a table in range lies within both bounds. |
| Pipelines.NewSpecificMediaAnalysis | telellmgram/pipelines/social_pipelines.py:62-72 | The constructor reads the type and the filtered table of the media, with default bounds 2000 and 2030, or fails as the lookup or filter does. |
| Pipelines.SpecificLineIsOneLine | telellmgram/pipelines/social_pipelines.py:94-98 | A row gets a line exactly when its text exists and has at least 20 Persian letters. The line starts `Message : `, ends in one newline, and holds no other newline. |
| Pipelines.ChannelHeaderKeepsIntro | telellmgram/pipelines/social_pipelines.py:89-91 | A channel's header starts with the intro and the channel format. |
| Pipelines.GroupHeaderLosesIntro | telellmgram/pipelines/social_pipelines.py:89-91 | Any other header starts with the group format and does not start with the intro. |
| Pipelines.SpecificLinesConserved | telellmgram/pipelines/social_pipelines.py:92-103 | The chunks and the open chunk hold every eligible line of the media once, in order. |
| Pipelines.SmallMediaSendsNothing | telellmgram/pipelines/social_pipelines.py:92-104 | A media whose lines fit under the limit produces no chunk. |
| Pipelines.SelectChunks | telellmgram/pipelines/social_pipelines.py:108-110 | More than five chunks are sampled down to five of them; otherwise all are kept. |
| Pipelines.SpecificMediaAnalysis.Run | telellmgram/pipelines/social_pipelines.py:84-133 | The answer is the LLM's reply to the final prompt built from the responses to a selection of the media's chunks. |
| Pipelines.BuildKeywords | telellmgram/pipelines/social_pipelines.py:205-211 | The LLM's keyword reply always splits into at least one keyword. Which keywords is stated by `Pipelines.BuildKeywordsRoundTrip`. |
| Pipelines.BuildKeywordsRoundTrip | telellmgram/pipelines/social_pipelines.py:205-211 | A reply that is keywords joined by commas gives back those keywords. |
| Pipelines.WorstFirst | telellmgram/pipelines/social_pipelines.py:178 | `data[len(data)-1:0:-1]` is the data reversed without its first element. |
| Pipelines.BestMatchLeftOut | telellmgram/pipelines/social_pipelines.py:178 | The best-ranked text is never sent, and the worst-ranked one comes first. |
| Pipelines.TopicTaken | telellmgram/pipelines/social_pipelines.py:178-181 | Bound only; the stopping rule itself is `Prompts.StopAtMeaning`. The number of texts a media prompt takes never exceeds the reversed list. |
| Pipelines.MediaEntry | telellmgram/pipelines/social_pipelines.py:155-156 | A media's entry is its name and filtered table, or the lookup or filter error. |
| Pipelines.TopicContentsOk | telellmgram/pipelines/social_pipelines.py:154-156 | Building the contents succeeds exactly when every code's entry does. |
| Pipelines.TopicContentsMeaning | telellmgram/pipelines/social_pipelines.py:154-156 | The dictionary's keys are the codes, each holding its entry, and its iteration order is the codes' first-insertion order. |
| Pipelines.BuildContents | telellmgram/pipelines/social_pipelines.py:154-156 | The constructor's loop computes the contents dictionary and its key order. |
| Pipelines.NewTopicOriented | telellmgram/pipelines/social_pipelines.py:144-156 | The constructor stores the prompt, codes and keywords, and the contents built with default bounds, or fails as the first failing entry does. |
| Pipelines.TopicOriented.constructor | telellmgram/pipelines/social_pipelines.py:144-156 | The object holds the given fields. |
| Pipelines.TopicOriented.EnsureKeywords | telellmgram/pipelines/social_pipelines.py:162-164 | Missing keywords are replaced by the LLM's; given keywords and every other field stay. |
| Pipelines.RetrieveAll | telellmgram/pipelines/social_pipelines.py:168-171 | Each media in dictionary order yields its name and a retrieval of at most 200 texts. |
| Pipelines.MediaPrompts | telellmgram/pipelines/social_pipelines.py:174-182 | Length only: there is one prompt per retrieved media. The loop that builds them is `Pipelines.BuildMediaPrompts`. |
| Pipelines.BuildMediaPrompt | telellmgram/pipelines/social_pipelines.py:176-182 | The prompt loop computes the media prompt. |
| Pipelines.BuildMediaPrompts | telellmgram/pipelines/social_pipelines.py:174-182 | The outer loop computes every media prompt. |
| Pipelines.AnalyseTopic | telellmgram/pipelines/social_pipelines.py:166-201 | The answer is the LLM's reply to the topic reduce prompt over the responses to each media's prompt. |
| Pipelines.TopicOriented.Run | telellmgram/pipelines/social_pipelines.py:159-201 | `run` fills in missing keywords, retrieves from every media, and answers the topic reduce prompt; nothing else in the object changes. |
| Pipelines.NewTimeBasedOriented | telellmgram/pipelines/social_pipelines.py:230-234 | The constructor holds the media's table filtered to the given bounds, or fails as the lookup or filter does. |
| Pipelines.TimeLineNumbered | telellmgram/pipelines/social_pipelines.py:248-254 | A row gets a line exactly when its text exists and has at least 10 Persian letters. The line starts with the row's 1-based table position and `)`. |
| Pipelines.TimeChunksPastLimit | telellmgram/pipelines/social_pipelines.py:245-257 | Every time-window chunk starts with the header and exceeds the limit plus the closing text. |
| Pipelines.TimeBasedOriented.Run | telellmgram/pipelines/social_pipelines.py:236-279 | The answer is the LLM's reply to the final prompt over the responses to every chunk. |
| Pipelines.NewTrendDetection | telellmgram/pipelines/social_pipelines.py:283-284 | The trend analysis is a time-window analysis of the fixed Persian request with the trend flag set. |
| Pipelines.TrendDetection.Run | telellmgram/pipelines/social_pipelines.py:285-287 | The trend run is the inner time-window run. |
| Pipelines.TrendModeOnlyChangesDirective | telellmgram/pipelines/social_pipelines.py:272-277 | The trend flag changes only the closing directive of the final prompt. |
| Pipelines.ExtractUserMessages | telellmgram/pipelines/social_pipelines.py:304-307 | Selecting by `sender_id` fails with `KeyError` exactly when the table has no sender columns. |
| Pipelines.UserMessagesExactly | telellmgram/pipelines/social_pipelines.py:304-307 | The selected texts are exactly those of the user's rows, in table order. |
| Pipelines.SampleMessages | telellmgram/pipelines/social_pipelines.py:316 | The sample has `min(1000, n)` of the user's messages. |
| Pipelines.SmallSampleIsAll | telellmgram/pipelines/social_pipelines.py:316 | With at most 1000 messages the sample is a reordering of all of them. |
| Pipelines.AskAboutPerson | telellmgram/pipelines/social_pipelines.py:313-322 | The answer is the LLM's reply to the numbered person prompt. |
| Pipelines.IndividualPersonAnalysis.Run | telellmgram/pipelines/social_pipelines.py:309-323 | `run` fails as the lookup does, or with `KeyError` for a table without sender columns. Otherwise it answers the prompt over a sample of the user's messages. |

## Left out

- **File and console effects.** Reading and writing CSV, JSON and pickle files, the log files, `print`, `tqdm` and `time.sleep` are not modelled. Reading a table is the parameter `readTable`; the metadata is a sequence of rows; `users.pkl` is the returned map.
- **Opaque calls.** `call_llm`, `clean_text` and `extract_links` are function parameters. The LLM wrapper is `llm_utils.py`. `clean_text`'s character class and the link pattern are not modelled.
- **Randomness.** `random.sample` is a nondeterministic choice of distinct positions. Which elements it picks is not modelled.
- **Date parsing outside the formats.** `dateutil` is modelled only for the `day/month/year` text that `parse_date`'s fallback builds. The current year it depends on is the parameter `currentYear`.
- **Helpers not part of this model.** The following are not part of this model: `get_media_name_from_code`, `get_current_date`, `generate_unique_key`, `StatisticalInformation`, `media_db.py`, and the GUI pages. The duplicate `preprocess_text_for_export` is left out because it is the same function as `preprocess_text`.
- **Pandas details.**
  - A missing `sender_name` is one `None` key. pandas would make every `NaN` a distinct key.
  - Table rendering for `{self.media_content}` is the parameter `tableRepr`.
  - Column types are left out.
- **Unicode.** Character classes cover only what the Persian and English text of the archives needs:
  - `lower()` changes only ASCII capitals.
  - `\w` is ASCII letters, digits and `_`, plus the Arabic and Persian letters and digits.
  - `\d` is the ASCII, Arabic-Indic and Persian digits.
  - `isdigit()` adds the Latin-1 superscripts.
  - Other scripts are not modelled.
- Relevance.TopN: does not state the order among texts of equal score, because pandas' default sort is not stable.
- Pipelines.SpecificMediaAnalysis.Run: the chunks sent when there are more than five are any five of them, because `random.sample` is not modelled.
- Pipelines.TopicOriented.Run: the retrieved texts are stated through `IsRetrieval` rather than one fixed list, because ties may fall in any order.
- MediaParsing.BadTimestamp: only the failure and `strptime`'s format-mismatch message are modelled. `strptime` raises other messages for text left after the seconds, a day past the month's end, and a second of 60 or 61, and quotes the input with `repr`; the model uses the format-mismatch message with plain quotes for every failure.
- PipelineUtils.BasicStatInfo: `get_basic_stat_info` discards the counts and returns `None`; the model returns them.
- MediaParsing.ConvertExport: models the chat-type branch for one export. The export loop reaches the same branch through `ParseMediaFn`, so that loop's proof does not depend on this method.

=== FILE: common.dfy ===
/**
 * Shared vocabulary: optional and fallible values, Python's `str.join`,
 * `str.split` on one character, and `str(int)`.
 */
module Common {

  datatype Option<+T> = None | Some(value: T)

  datatype Result<+T, +E> = Ok(value: T) | Err(error: E)

  /** `''.join(parts)` */
  function Concat(parts: seq<string>): (r: string)
    ensures parts == [] ==> r == []
  {
    if parts == [] then [] else parts[0] + Concat(parts[1..])
  }

  lemma {:induction false} ConcatAppend(a: seq<string>, b: seq<string>)
    ensures Concat(a + b) == Concat(a) + Concat(b)
  {
    if a == [] {
      assert a + b == b;
    } else {
      assert (a + b)[1..] == a[1..] + b;
      ConcatAppend(a[1..], b);
    }
  }

  /** `sep.join(parts)` */
  function Join(parts: seq<string>, sep: string): string
  {
    if parts == [] then []
    else if |parts| == 1 then parts[0]
    else parts[0] + sep + Join(parts[1..], sep)
  }

  /** `s.split(c)` for a one-character separator: never empty. */
  function Split(s: string, c: char): (r: seq<string>)
    ensures |r| >= 1
  {
    if s == [] then [[]]
    else
      var rest := Split(s[1..], c);
      if s[0] == c then [[]] + rest
      else [[s[0]] + rest[0]] + rest[1..]
  }

  /** Splitting on `c` and joining with `c` gives the string back. */
  lemma {:induction false} JoinSplit(s: string, c: char)
    ensures Join(Split(s, c), [c]) == s
  {
    if s != [] {
      var rest := Split(s[1..], c);
      JoinSplit(s[1..], c);
      var r := Split(s, c);
      if s[0] == c {
        assert r == [[]] + rest;
        assert r[1..] == rest;
        assert Join(r, [c]) == [] + [c] + Join(rest, [c]);
        assert [c] + s[1..] == s;
      } else {
        assert r == [[s[0]] + rest[0]] + rest[1..];
        if |rest| == 1 {
          assert Join(r, [c]) == [s[0]] + rest[0];
        } else {
          assert r[1..] == rest[1..];
          assert Join(r, [c]) == [s[0]] + rest[0] + [c] + Join(rest[1..], [c]);
          assert Join(rest, [c]) == rest[0] + [c] + Join(rest[1..], [c]);
        }
        assert [s[0]] + s[1..] == s;
      }
    }
  }

  /** Joining separator-free pieces with `c` and splitting on `c` gives the pieces back. */
  lemma {:induction false} SplitJoin(parts: seq<string>, c: char)
    requires |parts| >= 1
    requires forall k :: 0 <= k < |parts| ==> c !in parts[k]
    ensures Split(Join(parts, [c]), c) == parts
  {
    if |parts| == 1 {
      SplitNoSeparator(parts[0], c);
    } else {
      SplitJoin(parts[1..], c);
      SplitPrefix(parts[0], Join(parts[1..], [c]), c);
      assert Join(parts, [c]) == parts[0] + ([c] + Join(parts[1..], [c]));
      assert [parts[0]] + parts[1..] == parts;
    }
  }

  lemma {:induction false} SplitNoSeparator(s: string, c: char)
    requires c !in s
    ensures Split(s, c) == [s]
  {
    if s != [] {
      SplitNoSeparator(s[1..], c);
      assert [s[0]] + s[1..] == s;
    }
  }

  /** A separator-free word followed by the separator splits off as the first piece. */
  lemma {:induction false} SplitPrefix(w: string, t: string, c: char)
    requires c !in w
    ensures Split(w + [c] + t, c) == [w] + Split(t, c)
  {
    if w == [] {
      assert w + [c] + t == [c] + t;
      assert ([c] + t)[1..] == t;
    } else {
      SplitPrefix(w[1..], t, c);
      assert (w + [c] + t)[1..] == w[1..] + [c] + t;
      assert [w[0]] + w[1..] == w;
    }
  }

  /** A separator-free last piece splits off as the last piece. */
  lemma {:induction false} SplitSuffix(a: string, b: string, c: char)
    requires c !in b
    ensures Split(a + [c] + b, c) == Split(a, c) + [b]
  {
    if a == [] {
      assert a + [c] + b == [c] + b;
      assert ([c] + b)[1..] == b;
      SplitNoSeparator(b, c);
    } else {
      SplitSuffix(a[1..], b, c);
      assert (a + [c] + b)[1..] == a[1..] + [c] + b;
    }
  }

  /** Three separator-free fields joined by `c` split back into those fields. */
  lemma SplitThree(a: string, b: string, d: string, c: char)
    requires c !in a && c !in b && c !in d
    ensures Split(a + [c] + b + [c] + d, c) == [a, b, d]
  {
    SplitNoSeparator(d, c);
    SplitPrefix(b, d, c);
    SplitPrefix(a, b + [c] + d, c);
    assert a + [c] + b + [c] + d == a + [c] + (b + [c] + d);
  }

  /** `[x for x in s if p(x)]` */
  function Filter<T>(s: seq<T>, p: T -> bool): (r: seq<T>)
    ensures |r| <= |s|
    ensures forall j :: 0 <= j < |r| ==> p(r[j])
  {
    if s == [] then [] else (if p(s[0]) then [s[0]] else []) + Filter(s[1..], p)
  }

  lemma {:induction false} FilterAppend<T>(a: seq<T>, b: seq<T>, p: T -> bool)
    ensures Filter(a + b, p) == Filter(a, p) + Filter(b, p)
  {
    if a == [] {
      assert a + b == b;
    } else {
      assert (a + b)[1..] == a[1..] + b;
      FilterAppend(a[1..], b, p);
    }
  }

  /** Filters that agree on every element keep the same elements. */
  lemma {:induction false} FilterSame<T>(s: seq<T>, p: T -> bool, q: T -> bool)
    requires forall i :: 0 <= i < |s| ==> p(s[i]) == q(s[i])
    ensures Filter(s, p) == Filter(s, q)
  {
    if s != [] {
      assert forall i :: 0 <= i < |s[1..]| ==> s[1..][i] == s[i + 1];
      FilterSame(s[1..], p, q);
    }
  }

  /** Every position moved one place to the right. */
  function Shifted(xs: seq<nat>): (r: seq<nat>)
    ensures |r| == |xs| && forall i :: 0 <= i < |xs| ==> r[i] == xs[i] + 1
  {
    seq(|xs|, i requires 0 <= i < |xs| => xs[i] + 1)
  }

  /** The positions of `s` whose element passes `p`, built like `Filter`. */
  function Positions<T>(s: seq<T>, p: T -> bool): (r: seq<nat>)
    ensures |r| == |Filter(s, p)|
  {
    if s == [] then [] else (if p(s[0]) then [0] else []) + Shifted(Positions(s[1..], p))
  }

  /** Each position holds the element the filter keeps at the same index. */
  lemma {:induction false} PositionsIndex<T>(s: seq<T>, p: T -> bool)
    ensures forall j :: 0 <= j < |Positions(s, p)| ==>
      Positions(s, p)[j] < |s| && Filter(s, p)[j] == s[Positions(s, p)[j]]
  {
    if s != [] {
      PositionsIndex(s[1..], p);
      var rest, tail := Positions(s[1..], p), Filter(s[1..], p);
      var idx, f := Positions(s, p), Filter(s, p);
      var d := if p(s[0]) then 1 else 0;
      assert idx == (if p(s[0]) then [0] else []) + Shifted(rest);
      assert f == (if p(s[0]) then [s[0]] else []) + tail;
      forall j | d <= j < |idx|
        ensures idx[j] < |s| && f[j] == s[idx[j]]
      {
        assert idx[j] == rest[j - d] + 1;
        assert f[j] == tail[j - d];
        assert s[1..][rest[j - d]] == s[rest[j - d] + 1];
      }
    }
  }

  /** Strictly increasing. */
  predicate Increasing(xs: seq<nat>)
  {
    forall j, k :: 0 <= j < k < |xs| ==> xs[j] < xs[k]
  }

  /** Shifting keeps a list increasing, and so does putting 0 in front of the shifted list. */
  lemma ShiftedIncreasing(xs: seq<nat>)
    requires Increasing(xs)
    ensures Increasing(Shifted(xs)) && Increasing([0] + Shifted(xs))
  {
    var ys := Shifted(xs);
    var zs := [0] + ys;
    forall j, k | 0 <= j < k < |zs|
      ensures zs[j] < zs[k]
    {
      assert zs[k] == xs[k - 1] + 1;
      if j > 0 {
        assert zs[j] == xs[j - 1] + 1;
      }
    }
  }

  /** The positions increase. */
  lemma {:induction false} PositionsIncreasing<T>(s: seq<T>, p: T -> bool)
    ensures Increasing(Positions(s, p))
  {
    if s != [] {
      PositionsIncreasing(s[1..], p);
      ShiftedIncreasing(Positions(s[1..], p));
    }
  }

  /** Every position whose element passes `p` is listed. */
  lemma {:induction false} PositionsComplete<T>(s: seq<T>, p: T -> bool)
    ensures forall i :: 0 <= i < |s| && p(s[i]) ==> i in Positions(s, p)
  {
    if s != [] {
      PositionsComplete(s[1..], p);
      var rest := Positions(s[1..], p);
      var idx := Positions(s, p);
      var d := if p(s[0]) then 1 else 0;
      assert idx == (if p(s[0]) then [0] else []) + Shifted(rest);
      forall i | 0 <= i < |s| && p(s[i])
        ensures i in idx
      {
        if i == 0 {
          assert idx[0] == 0;
        } else {
          assert s[1..][i - 1] == s[i];
          var m :| 0 <= m < |rest| && rest[m] == i - 1;
          assert idx[m + d] == i;
        }
      }
    }
  }

  /**
   * What the filter keeps, by position: `idx` lists, in increasing order,
   * exactly the positions whose element satisfies `p`.
   */
  lemma FilterPositions<T>(s: seq<T>, p: T -> bool) returns (idx: seq<nat>)
    ensures |idx| == |Filter(s, p)|
    ensures forall j :: 0 <= j < |idx| ==> idx[j] < |s| && Filter(s, p)[j] == s[idx[j]]
    ensures forall j, k :: 0 <= j < k < |idx| ==> idx[j] < idx[k]
    ensures forall i :: 0 <= i < |s| && p(s[i]) ==> i in idx
  {
    idx := Positions(s, p);
    PositionsIndex(s, p);
    PositionsIncreasing(s, p);
    PositionsComplete(s, p);
  }

  /** The filter keeps only elements of its input. */
  lemma FilterMembers<T>(s: seq<T>, p: T -> bool)
    ensures forall j :: 0 <= j < |Filter(s, p)| ==> Filter(s, p)[j] in s
  {
    PositionsIndex(s, p);
  }

  /** A filter every element passes keeps the sequence whole. */
  lemma {:induction false} FilterAll<T>(s: seq<T>, p: T -> bool)
    requires forall j :: 0 <= j < |s| ==> p(s[j])
    ensures Filter(s, p) == s
  {
    if s != [] {
      FilterAll(s[1..], p);
      assert [s[0]] + s[1..] == s;
    }
  }

  /** Filtering twice with the same test is filtering once. */
  lemma {:induction false} FilterIdempotent<T>(s: seq<T>, p: T -> bool)
    ensures Filter(Filter(s, p), p) == Filter(s, p)
  {
    if s != [] {
      var tail := Filter(s[1..], p);
      FilterIdempotent(s[1..], p);
      if p(s[0]) {
        assert Filter(s, p) == [s[0]] + tail;
        assert ([s[0]] + tail)[1..] == tail;
      } else {
        assert Filter(s, p) == tail;
      }
    }
  }

  predicate IsAsciiDigit(c: char) { '0' <= c <= '9' }

  function DigitChar(d: nat): (c: char)
    requires d < 10
    ensures IsAsciiDigit(c) && c as int - '0' as int == d
  {
    ('0' as int + d) as char
  }

  /** `str(n)` for a natural number: decimal digits, no leading zero. */
  function NatToString(n: nat): (r: string)
    ensures |r| >= 1
    ensures forall k :: 0 <= k < |r| ==> IsAsciiDigit(r[k])
    ensures |r| > 1 ==> r[0] != '0'
    decreases n
  {
    if n < 10 then [DigitChar(n)] else NatToString(n / 10) + [DigitChar(n % 10)]
  }

  /** `str(i)` for any integer. */
  function IntToString(i: int): (r: string)
    ensures |r| >= 1
    ensures forall k :: 0 <= k < |r| ==> IsAsciiDigit(r[k]) || (k == 0 && r[k] == '-')
  {
    if i < 0 then "-" + NatToString(-i) else NatToString(i)
  }

  /** Reads back a string of ASCII digits (most significant first). */
  function DigitsValue(s: string): nat
    requires forall k :: 0 <= k < |s| ==> IsAsciiDigit(s[k])
  {
    if s == [] then 0
    else
      assert IsAsciiDigit(s[|s| - 1]);
      DigitsValue(s[..|s| - 1]) * 10 + (s[|s| - 1] as int - '0' as int)
  }

  /** `str` is injective on naturals: reading the digits back gives the number. */
  lemma {:induction false} NatToStringValue(n: nat)
    ensures DigitsValue(NatToString(n)) == n
    decreases n
  {
    if n >= 10 {
      NatToStringValue(n / 10);
      var r := NatToString(n);
      assert r[..|r| - 1] == NatToString(n / 10);
    }
  }

  /** Python's `sub in s`. */
  predicate ContainsAt(s: string, sub: string, i: nat)
  {
    i + |sub| <= |s| && s[i..i + |sub|] == sub
  }

  predicate Contains(s: string, sub: string)
  {
    exists i: nat | i <= |s| :: ContainsAt(s, sub, i)
  }

  function Reverse<T>(s: seq<T>): (r: seq<T>)
    ensures |r| == |s|
    ensures forall k :: 0 <= k < |s| ==> r[k] == s[|s| - 1 - k]
  {
    if s == [] then [] else Reverse(s[1..]) + [s[0]]
  }

  /** Indices into a sequence of length `n`, pairwise distinct: what `random.sample` picks. */
  predicate IsSampleOf(idx: seq<nat>, n: nat, k: nat)
  {
    && |idx| == k
    && (forall j :: 0 <= j < |idx| ==> idx[j] < n)
    && (forall i, j :: 0 <= i < j < |idx| ==> idx[i] != idx[j])
  }

  /**
   * `random.sample(population, k)`: `k` elements at distinct positions, in the
   * order they were drawn. The draw is a nondeterministic choice; `k` larger
   * than the population raises in the source and is excluded here.
   */
  method Sample<T>(population: seq<T>, k: nat) returns (picked: seq<T>, idx: seq<nat>)
    requires k <= |population|
    ensures IsSampleOf(idx, |population|, k)
    ensures |picked| == k
    ensures forall j :: 0 <= j < k ==> picked[j] == population[idx[j]]
    ensures multiset(picked) <= multiset(population)
  {
    var first := seq(k, j => j);
    assert IsSampleOf(first, |population|, k);
    idx :| IsSampleOf(idx, |population|, k);
    assert IsSampleOf(idx, |population|, k);
    picked := [];
    while |picked| < k
      invariant |picked| <= k
      invariant forall j :: 0 <= j < |picked| ==> picked[j] == population[idx[j]]
    {
      picked := picked + [population[idx[|picked|]]];
    }
    PickedSubMultiset(population, idx, picked);
  }

  lemma {:induction false} PickedSubMultiset<T>(population: seq<T>, idx: seq<nat>, picked: seq<T>)
    requires IsSampleOf(idx, |population|, |idx|)
    requires |picked| == |idx|
    requires forall j :: 0 <= j < |idx| ==> picked[j] == population[idx[j]]
    ensures multiset(picked) <= multiset(population)
  {
    var positions := set j | 0 <= j < |idx| :: idx[j];
    forall x | x in multiset(picked)
      ensures multiset(picked)[x] <= multiset(population)[x]
    {
      var mine := set j | 0 <= j < |idx| && picked[j] == x;
      var theirs := set p | 0 <= p < |population| && population[p] == x;
      CountAsSet(picked, x);
      CountAsSet(population, x);
      var image := set j | j in mine :: idx[j];
      assert image <= theirs;
      InjectiveImageSize(mine, idx);
      SubsetSize(image, theirs);
    }
  }

  lemma {:induction false} CountAsSet<T>(s: seq<T>, x: T)
    ensures multiset(s)[x] == |set p | 0 <= p < |s| && s[p] == x|
  {
    if s != [] {
      var n := |s| - 1;
      CountAsSet(s[..n], x);
      assert s == s[..n] + [s[n]];
      var before := set p | 0 <= p < n && s[..n][p] == x;
      var all := set p | 0 <= p < |s| && s[p] == x;
      if s[n] == x {
        assert all == before + {n};
      } else {
        assert all == before;
      }
    }
  }

  lemma {:induction false} InjectiveImageSize(dom: set<nat>, idx: seq<nat>)
    requires forall j :: j in dom ==> j < |idx|
    requires forall i, j :: 0 <= i < j < |idx| ==> idx[i] != idx[j]
    ensures |set j | j in dom :: idx[j]| == |dom|
    decreases |dom|
  {
    if dom != {} {
      var j :| j in dom;
      var rest := dom - {j};
      InjectiveImageSize(rest, idx);
      var img := set i | i in dom :: idx[i];
      var imgRest := set i | i in rest :: idx[i];
      assert img == imgRest + {idx[j]};
      assert idx[j] !in imgRest;
    }
  }

  lemma SubsetSize<T>(a: set<T>, b: set<T>)
    requires a <= b
    ensures |a| <= |b|
  {
    assert b == a + (b - a);
  }
  /** `s.replace(tok, "")`: occurrences removed left to right, without overlap. */
  function RemoveAll(s: string, tok: string): (r: string)
    ensures |r| <= |s|
    decreases |s|
  {
    if tok == [] || |s| < |tok| then s
    else if s[..|tok|] == tok then RemoveAll(s[|tok|..], tok)
    else [s[0]] + RemoveAll(s[1..], tok)
  }

  /** A token that does not occur leaves the text as it is. */
  lemma {:induction false} RemoveAllAbsent(s: string, tok: string)
    requires !Contains(s, tok)
    ensures RemoveAll(s, tok) == s
    decreases |s|
  {
    if tok != [] && |s| >= |tok| {
      assert !ContainsAt(s, tok, 0);
      assert !Contains(s[1..], tok) by {
        forall i: nat | i <= |s[1..]|
          ensures !ContainsAt(s[1..], tok, i)
        {
          assert !ContainsAt(s, tok, i + 1);
          if i + |tok| <= |s[1..]| {
            assert s[1..][i..i + |tok|] == s[i + 1..i + 1 + |tok|];
          }
        }
      }
      RemoveAllAbsent(s[1..], tok);
      assert [s[0]] + s[1..] == s;
    }
  }

  /** Removing a single character leaves none of it. */
  lemma {:induction false} RemoveAllChar(s: string, c: char)
    ensures c !in RemoveAll(s, [c])
    decreases |s|
  {
    if |s| >= 1 {
      RemoveAllChar(s[1..], c);
      if s[..1] != [c] {
        assert s[0] != c;
      }
    }
  }

  /** The kept and the dropped elements add up to the whole. */
  lemma {:induction false} FilterComplement<T>(s: seq<T>, p: T -> bool, q: T -> bool)
    requires forall x :: q(x) == !p(x)
    ensures |Filter(s, p)| + |Filter(s, q)| == |s|
  {
    if s != [] {
      FilterComplement(s[1..], p, q);
    }
  }

  /** A sub-multiset as large as the whole is the whole. */
  lemma SubMultisetFull<T>(a: multiset<T>, b: multiset<T>)
    requires a <= b && |a| == |b|
    ensures a == b
  {
    var d := b - a;
    assert b == a + d;
    assert |d| == 0;
  }

  /** Equal prefixes stay equal under the same suffix. */
  lemma SameSuffix<T>(a: seq<T>, b: seq<T>, c: seq<T>)
    requires a == b
    ensures a + c == b + c
  {
  }

  /** A prefix stays a prefix when more is appended. */
  lemma PrefixExtend<T>(a: seq<T>, b: seq<T>, c: seq<T>)
    requires a <= b
    ensures a <= b + c
  {
    assert (b + c)[..|a|] == b[..|a|];
  }

  /** The first piece of a concatenation is a prefix of it. */
  lemma PrefixOfChain<T>(x: seq<T>, a: seq<T>, b: seq<T>, c: seq<T>)
    ensures x <= x + a + b + c
  {
    PrefixExtend(x, x, a);
    PrefixExtend(x, x + a, b);
    PrefixExtend(x, x + a + b, c);
  }
}

=== FILE: date_filter.dfy ===
/**
 * `filter_dataframe_by_date`: the bounds are read leniently by `parse_date`,
 * the rows' own dates strictly as `%d/%m/%y`; the rows inside the bounds are
 * kept, in order, with their date rewritten by `strftime('%d/%m/%y')`.
 */
module DateFilter {
  import opened Common
  import opened Dates
  import opened Tables

  /** The row's `date` cell as `pd.to_datetime(..., format="%d/%m/%y", errors="coerce")` reads it. */
  function RowDate(row: Row): (r: Option<Date>)
    ensures r.Some? ==> IsValid(r.value) && 1969 <= r.value.year <= 2068
  {
    if row.date.None? then None else ParseDmy(row.date.value, false)
  }

  /** A row survives the filter: its date parses and lies in `[start, end]`. */
  predicate InRange(row: Row, start: Date, end: Date)
  {
    RowDate(row).Some? && Le(start, RowDate(row).value) && Le(RowDate(row).value, end)
  }

  /** The surviving row with its date written back as `dd/mm/yy`. */
  function Rewritten(row: Row): (r: Row)
    requires RowDate(row).Some?
    ensures RowDate(r) == RowDate(row)
  {
    var d := RowDate(row).value;
    FormatDmyRoundTrip(d);
    row.(date := Some(FormatDmy(d)))
  }

  function InRangeTest(start: Date, end: Date): Row -> bool
  {
    row => InRange(row, start, end)
  }

  /** The `strftime` applied to the surviving `date` column. */
  function RewriteAll(rows: seq<Row>): (r: seq<Row>)
    requires forall j :: 0 <= j < |rows| ==> RowDate(rows[j]).Some?
    ensures |r| == |rows| && forall j :: 0 <= j < |rows| ==> r[j] == Rewritten(rows[j])
  {
    seq(|rows|, j requires 0 <= j < |rows| => Rewritten(rows[j]))
  }

  /** The boolean mask of the filter, then the `strftime` of what it keeps. */
  function KeepInRange(rows: seq<Row>, start: Date, end: Date): (r: seq<Row>)
    ensures |r| <= |rows|
    ensures forall j :: 0 <= j < |r| ==> InRange(r[j], start, end)
  {
    RewriteAll(Filter(rows, InRangeTest(start, end)))
  }

  /**
   * The whole filter: both bounds are parsed first, and an unreadable one
   * is an error naming it, whatever the rows hold.
   */
  function FilterByDate(rows: seq<Row>, start: string, end: string, currentYear: int): (r: Result<seq<Row>, string>)
    ensures ParseDate(start, currentYear).None? ==> r == Err("Invalid start_date: " + start)
    ensures ParseDate(start, currentYear).Some? && ParseDate(end, currentYear).None? ==> r == Err("Invalid end_date: " + end)
    ensures r.Ok? <==> ParseDate(start, currentYear).Some? && ParseDate(end, currentYear).Some?
  {
    var s := ParseDate(start, currentYear);
    var e := ParseDate(end, currentYear);
    if s.None? then Err("Invalid start_date: " + start)
    else if e.None? then Err("Invalid end_date: " + end)
    else Ok(KeepInRange(rows, s.value, e.value))
  }

  /** Rewriting a row that was already rewritten changes nothing. */
  lemma RewrittenFixed(row: Row)
    requires RowDate(row).Some?
    ensures Rewritten(Rewritten(row)) == Rewritten(row)
  {
  }

  /**
   * The kept rows are exactly the in-range rows, in their original order:
   * `idx` lists the positions of the input rows that survive.
   */
  lemma KeptRows(rows: seq<Row>, start: Date, end: Date) returns (idx: seq<nat>)
    ensures |idx| == |KeepInRange(rows, start, end)|
    ensures forall j :: 0 <= j < |idx| ==>
      && idx[j] < |rows|
      && InRange(rows[idx[j]], start, end)
      && KeepInRange(rows, start, end)[j] == Rewritten(rows[idx[j]])
    ensures forall j, k :: 0 <= j < k < |idx| ==> idx[j] < idx[k]
    ensures forall i :: 0 <= i < |rows| && InRange(rows[i], start, end) ==> i in idx
  {
    idx := FilterPositions(rows, InRangeTest(start, end));
    var f := Filter(rows, InRangeTest(start, end));
    forall j | 0 <= j < |idx|
      ensures InRange(rows[idx[j]], start, end)
    {
      assert f[j] == rows[idx[j]];
      assert InRangeTest(start, end)(f[j]);
    }
    forall i | 0 <= i < |rows| && InRange(rows[i], start, end)
      ensures i in idx
    {
      assert InRangeTest(start, end)(rows[i]);
    }
  }

  /** Filtering the filtered rows again with the same bounds gives them back. */
  lemma KeepInRangeIdempotent(rows: seq<Row>, start: Date, end: Date)
    ensures KeepInRange(KeepInRange(rows, start, end), start, end) == KeepInRange(rows, start, end)
  {
    var kept := KeepInRange(rows, start, end);
    forall j | 0 <= j < |kept|
      ensures InRangeTest(start, end)(kept[j])
    {
    }
    FilterAll(kept, InRangeTest(start, end));
    forall j | 0 <= j < |kept|
      ensures Rewritten(kept[j]) == kept[j]
    {
      var f := Filter(rows, InRangeTest(start, end));
      assert InRangeTest(start, end)(f[j]);
      RewrittenFixed(f[j]);
    }
  }

  /** A second pass of `filter_dataframe_by_date` with the same bounds is the identity on its output. */
  lemma FilterByDateIdempotent(rows: seq<Row>, start: string, end: string, currentYear: int)
    requires FilterByDate(rows, start, end, currentYear).Ok?
    ensures FilterByDate(FilterByDate(rows, start, end, currentYear).value, start, end, currentYear)
         == FilterByDate(rows, start, end, currentYear)
  {
    KeepInRangeIdempotent(rows, ParseDate(start, currentYear).value, ParseDate(end, currentYear).value);
  }

  /** A row whose date cell is empty or not a `%d/%m/%y` date never survives. */
  lemma UnreadableDateDropped(rows: seq<Row>, start: string, end: string, currentYear: int, row: Row)
    requires FilterByDate(rows, start, end, currentYear).Ok?
    requires RowDate(row).None?
    ensures row !in FilterByDate(rows, start, end, currentYear).value
  {
  }
}

=== FILE: dates.dfy ===
/**
 * Calendar arithmetic and the fixed-format date and time fields the pipelines
 * read and write: the regular expressions behind `strptime`'s `%d %m %Y %y
 * %H %M %S` (a field must match one alternative whole, because no
 * alternative can swallow a separator), `calendar.monthrange`, the range of a
 * `pandas.Timestamp`, Python's `int()` on a string, `dateutil`'s two-digit
 * year window and `strftime`'s zero padding.
 */
module Dates {
  import opened Common
  import opened TextUtils

  datatype Date = Date(year: int, month: int, day: int)

  datatype DateTime = DateTime(date: Date, hour: int, minute: int, second: int)

  /** `calendar.isleap` (Python's `%` floors; for a positive divisor that is Dafny's `%`). */
  predicate IsLeap(y: int)
  {
    y % 4 == 0 && (y % 100 != 0 || y % 400 == 0)
  }

  /** `calendar.monthrange(y, m)[1]`: how many days month `m` of year `y` has. */
  function LastDay(y: int, m: int): (d: int)
    requires 1 <= m <= 12
    ensures 28 <= d <= 31
    ensures d == 29 <==> m == 2 && IsLeap(y)
  {
    if m == 2 then (if IsLeap(y) then 29 else 28)
    else if m == 4 || m == 6 || m == 9 || m == 11 then 30
    else 31
  }

  lemma LeapShift400(y: int)
    ensures IsLeap(y + 400) == IsLeap(y)
  {
    assert (y + 400) % 4 == y % 4;
    assert (y + 400) % 100 == y % 100;
    assert (y + 400) % 400 == y % 400;
  }

  /** The Gregorian calendar repeats every 400 years. */
  lemma {:induction false} LastDayPeriodic(y: int, m: int, k: nat)
    requires 1 <= m <= 12
    ensures LastDay(y + 400 * k, m) == LastDay(y, m)
  {
    if k > 0 {
      LastDayPeriodic(y, m, k - 1);
      LeapShift400(y + 400 * (k - 1));
      assert y + 400 * k == y + 400 * (k - 1) + 400;
    }
  }

  /** Year `y` and year `2000 + y` have months of the same length, as 2000 is a multiple of 400. */
  lemma LastDayCentury(y: int, m: int)
    requires 1 <= m <= 12
    ensures LastDay(y, m) == LastDay(2000 + y, m)
  {
    LastDayPeriodic(y, m, 5);
  }

  /** Chronological order of dates. */
  predicate Le(a: Date, b: Date)
  {
    a.year < b.year || (a.year == b.year && (a.month < b.month || (a.month == b.month && a.day <= b.day)))
  }

  /** A day of the calendar. */
  predicate IsValid(d: Date)
  {
    1 <= d.month <= 12 && 1 <= d.day <= LastDay(d.year, d.month)
  }

  /** The days a `pandas.Timestamp` (nanoseconds in 64 bits) can hold at midnight. */
  const TimestampMin := Date(1677, 9, 22)
  const TimestampMax := Date(2262, 4, 11)

  predicate InTimestampRange(d: Date)
  {
    Le(TimestampMin, d) && Le(d, TimestampMax)
  }

  // ------------------------------------------------------------------
  // Digits and fields
  // ------------------------------------------------------------------

  /** The value of a `\d` character (ASCII, Arabic-Indic or Persian digit). */
  function DigitValue(c: char): (v: nat)
    requires IsDecimalDigit(c)
    ensures v <= 9
  {
    if c <= '9' then c as int - '0' as int
    else if c <= '\U{0669}' then c as int - 0x0660
    else c as int - 0x06F0
  }

  predicate AllDecimal(s: string)
  {
    forall i :: 0 <= i < |s| ==> IsDecimalDigit(s[i])
  }

  predicate IsNonZeroAscii(c: char) { '1' <= c <= '9' }

  /** `%d`, `3[01]|[12]\d|0[1-9]|[1-9]| [1-9]`. */
  function DayField(f: string): (r: Option<int>)
    ensures r.Some? ==> 1 <= r.value <= 31
  {
    if |f| == 1 && IsNonZeroAscii(f[0]) then Some(DigitValue(f[0]))
    else if |f| != 2 then None
    else if f[0] == '3' && (f[1] == '0' || f[1] == '1') then Some(30 + DigitValue(f[1]))
    else if (f[0] == '1' || f[0] == '2') && IsDecimalDigit(f[1]) then Some(10 * DigitValue(f[0]) + DigitValue(f[1]))
    else if (f[0] == '0' || f[0] == ' ') && IsNonZeroAscii(f[1]) then Some(DigitValue(f[1]))
    else None
  }

  /** `%m`, `1[0-2]|0[1-9]|[1-9]`. */
  function MonthField(f: string): (r: Option<int>)
    ensures r.Some? ==> 1 <= r.value <= 12
  {
    if |f| == 1 && IsNonZeroAscii(f[0]) then Some(DigitValue(f[0]))
    else if |f| != 2 then None
    else if f[0] == '1' && '0' <= f[1] <= '2' then Some(10 + DigitValue(f[1]))
    else if f[0] == '0' && IsNonZeroAscii(f[1]) then Some(DigitValue(f[1]))
    else None
  }

  /** `%Y`, `\d\d\d\d`. */
  function Year4Field(f: string): (r: Option<int>)
    ensures r.Some? ==> 0 <= r.value <= 9999
  {
    if |f| == 4 && AllDecimal(f) then
      Some(1000 * DigitValue(f[0]) + 100 * DigitValue(f[1]) + 10 * DigitValue(f[2]) + DigitValue(f[3]))
    else None
  }

  /** `%y`, `\d\d`, with the POSIX pivot: 69-99 are 1969-1999, 00-68 are 2000-2068. */
  function Year2Field(f: string): (r: Option<int>)
    ensures r.Some? ==> 1969 <= r.value <= 2068
  {
    if |f| == 2 && AllDecimal(f) then
      var v := 10 * DigitValue(f[0]) + DigitValue(f[1]);
      Some(if v <= 68 then 2000 + v else 1900 + v)
    else None
  }

  /** `%H`, `2[0-3]|[0-1]\d|\d`. */
  function HourField(f: string): (r: Option<int>)
    ensures r.Some? ==> 0 <= r.value <= 23
  {
    if |f| == 1 && IsDecimalDigit(f[0]) then Some(DigitValue(f[0]))
    else if |f| != 2 then None
    else if f[0] == '2' && '0' <= f[1] <= '3' then Some(20 + DigitValue(f[1]))
    else if (f[0] == '0' || f[0] == '1') && IsDecimalDigit(f[1]) then Some(10 * DigitValue(f[0]) + DigitValue(f[1]))
    else None
  }

  /** `%M`, `[0-5]\d|\d`. */
  function MinuteField(f: string): (r: Option<int>)
    ensures r.Some? ==> 0 <= r.value <= 59
  {
    if |f| == 1 && IsDecimalDigit(f[0]) then Some(DigitValue(f[0]))
    else if |f| == 2 && '0' <= f[0] <= '5' && IsDecimalDigit(f[1]) then Some(10 * DigitValue(f[0]) + DigitValue(f[1]))
    else None
  }

  /** `%S`, `6[0-1]|[0-5]\d|\d` (60 and 61 match but make no `datetime`). */
  function SecondField(f: string): (r: Option<int>)
    ensures r.Some? ==> 0 <= r.value <= 61
  {
    if |f| == 1 && IsDecimalDigit(f[0]) then Some(DigitValue(f[0]))
    else if |f| != 2 then None
    else if f[0] == '6' && (f[1] == '0' || f[1] == '1') then Some(60 + DigitValue(f[1]))
    else if '0' <= f[0] <= '5' && IsDecimalDigit(f[1]) then Some(10 * DigitValue(f[0]) + DigitValue(f[1]))
    else None
  }

  // ------------------------------------------------------------------
  // strptime / pd.to_datetime with a format
  // ------------------------------------------------------------------

  /** A date a Python `datetime` can hold. */
  predicate IsDatetimeDate(d: Date)
  {
    IsValid(d) && 1 <= d.year <= 9999
  }

  /** The three fields of `%d/%m/%Y` (`fourDigitYear`) or `%d/%m/%y`, naming a real day. */
  function DmyFields(day: string, month: string, year: string, fourDigitYear: bool): (r: Option<Date>)
    ensures r.Some? ==> IsDatetimeDate(r.value)
    ensures r.Some? && !fourDigitYear ==> 1969 <= r.value.year <= 2068
    ensures fourDigitYear && |year| != 4 ==> r.None?
    ensures !fourDigitYear && |year| != 2 ==> r.None?
  {
    var d := DayField(day);
    var m := MonthField(month);
    var y := if fourDigitYear then Year4Field(year) else Year2Field(year);
    if d.None? || m.None? || y.None? then None
    else
      var date := Date(y.value, m.value, d.value);
      if IsDatetimeDate(date) then Some(date) else None
  }

  /**
   * `strptime(s, '%d/%m/%Y')` (`fourDigitYear`) or `strptime(s, '%d/%m/%y')`:
   * three `/`-separated fields, each matching its pattern whole, naming a real day.
   */
  function ParseDmy(s: string, fourDigitYear: bool): (r: Option<Date>)
    ensures r.Some? ==> IsDatetimeDate(r.value)
  {
    var p := Split(s, '/');
    if |p| != 3 then None else DmyFields(p[0], p[1], p[2], fourDigitYear)
  }

  /** `pd.to_datetime(s, format=...)`: `None` where it raises, including outside the `Timestamp` range. */
  function PandasDmy(s: string, fourDigitYear: bool): (r: Option<Date>)
    ensures r.Some? ==> IsValid(r.value) && InTimestampRange(r.value)
    ensures r.Some? <==> ParseDmy(s, fourDigitYear).Some? && InTimestampRange(ParseDmy(s, fourDigitYear).value)
  {
    var r := ParseDmy(s, fourDigitYear);
    if r.Some? && InTimestampRange(r.value) then r else None
  }

  /** Every `%y` date lies in 1969-2068, well inside the `Timestamp` range. */
  lemma TwoDigitYearsInRange(s: string)
    ensures PandasDmy(s, false) == ParseDmy(s, false)
  {
  }

  // ------------------------------------------------------------------
  // int() and dateutil
  // ------------------------------------------------------------------

  predicate DigitsOrUnderscores(b: string)
  {
    forall i :: 0 <= i < |b| ==> IsDecimalDigit(b[i]) || b[i] == '_'
  }

  /** Decimal digits with single underscores between them, as `int()` accepts. */
  predicate IsDigitGroups(b: string)
  {
    && |b| >= 1
    && IsDecimalDigit(b[0])
    && IsDecimalDigit(b[|b| - 1])
    && DigitsOrUnderscores(b)
    && forall i :: 0 <= i < |b| - 1 ==> !(b[i] == '_' && b[i + 1] == '_')
  }

  /** The value of digits and underscores, the underscores ignored. */
  function GroupsValue(b: string): nat
    requires DigitsOrUnderscores(b)
  {
    if b == [] then 0
    else if b[|b| - 1] == '_' then GroupsValue(b[..|b| - 1])
    else GroupsValue(b[..|b| - 1]) * 10 + DigitValue(b[|b| - 1])
  }

  /** Python's `int(s)` for a string: `None` where it raises `ValueError`. */
  function ParseInt(s: string): Option<int>
  {
    var t := Strip(s);
    var signed := |t| > 0 && (t[0] == '-' || t[0] == '+');
    var body := if signed then t[1..] else t;
    if !IsDigitGroups(body) then None
    else
      var v: int := GroupsValue(body);
      if signed && t[0] == '-' then Some(-v) else Some(v)
  }

  /** `str(n)` reads back with `int()`. */
  lemma ParseIntNatToString(n: nat)
    ensures ParseInt(NatToString(n)) == Some(n)
  {
    var s := NatToString(n);
    StripDigits(s);
    GroupsValueOfDigits(s);
    NatToStringValue(n);
  }

  lemma StripDigits(s: string)
    requires |s| >= 1 && forall k :: 0 <= k < |s| ==> IsAsciiDigit(s[k])
    ensures Strip(s) == s
  {
    assert RStrip(s) == s;
    assert LStrip(s) == s;
  }

  lemma {:induction false} GroupsValueOfDigits(s: string)
    requires forall k :: 0 <= k < |s| ==> IsAsciiDigit(s[k])
    ensures DigitsOrUnderscores(s)
    ensures GroupsValue(s) == DigitsValue(s)
  {
    if s != [] {
      GroupsValueOfDigits(s[..|s| - 1]);
    }
  }

  /**
   * `dateutil`'s reading of a year written with at most two digits, where
   * `currentYear` is the clock's year: the current century, moved by 100 years
   * into the window [currentYear - 50, currentYear + 50).
   */
  function ConvertYear(y: int, currentYear: int): (r: int)
    ensures 0 <= y < 100 ==> currentYear - 50 <= r < currentYear + 50 && (r - y) % 100 == 0
    ensures !(0 <= y < 100) ==> r == y
  {
    if 0 <= y < 100 then
      var c := y + currentYear - currentYear % 100;
      if c >= currentYear + 50 then c - 100 else if c < currentYear - 50 then c + 100 else c
    else y
  }

  /**
   * The fallback of `parse_date` on its three fields: all must be integers;
   * the day is not used; `calendar.monthrange` (month 1..12) gives the last
   * day of the month in the year as written, and `dateutil` then reads
   * `last/month/year` day first, with a year under 100 moved into the
   * window around `currentYear`; the day must exist in that year and the
   * date must fit a `Timestamp`. A negative year gives `None`.
   */
  function LastDayFields(day: string, month: string, year: string, currentYear: int): (r: Option<Date>)
    ensures r.Some? ==> IsValid(r.value) && InTimestampRange(r.value)
  {
    var d := ParseInt(day);
    var m := ParseInt(month);
    var y := ParseInt(year);
    if d.None? || m.None? || y.None? then None
    else if !(1 <= m.value <= 12) || y.value < 0 then None
    else
      var date := Date(ConvertYear(y.value, currentYear), m.value, LastDay(y.value, m.value));
      if IsValid(date) && InTimestampRange(date) then Some(date) else None
  }

  /** The fallback of `parse_date`: three `/`-separated integers. */
  function LastDayOfMonthDate(s: string, currentYear: int): (r: Option<Date>)
    ensures r.Some? ==> IsValid(r.value) && InTimestampRange(r.value)
  {
    var p := Split(s, '/');
    if |p| != 3 then None else LastDayFields(p[0], p[1], p[2], currentYear)
  }

  /**
   * `parse_date`: `%d/%m/%Y`, then `%d/%m/%y`, then the last day of the
   * month; `None` is `NaT`.
   */
  function ParseDate(s: string, currentYear: int): (r: Option<Date>)
    ensures r.Some? ==> IsValid(r.value) && InTimestampRange(r.value)
  {
    var long := PandasDmy(s, true);
    if long.Some? then long
    else
      var short := PandasDmy(s, false);
      if short.Some? then short else LastDayOfMonthDate(s, currentYear)
  }

  /** What a string with other than three `/`-separated fields gives: always `NaT`. */
  lemma ParseDateNeedsThreeFields(s: string, currentYear: int)
    requires |Split(s, '/')| != 3
    ensures ParseDate(s, currentYear) == None
  {
  }

  /**
   * For a year under 100 the month length is taken in the year as written
   * and the date lands in another century; in the years 2000-2050 that day
   * always exists there.
   */
  lemma FallbackDayExists(y: int, m: int, currentYear: int)
    requires 0 <= y < 100 && 1 <= m <= 12
    requires 2000 <= currentYear <= 2050
    ensures LastDay(y, m) <= LastDay(ConvertYear(y, currentYear), m)
  {
    var r := ConvertYear(y, currentYear);
    if r == y + 2000 {
      LastDayCentury(y, m);
    } else {
      assert r == y + 1900 && y >= 50;
      assert IsLeap(y) == IsLeap(y + 1900);
    }
  }

  lemma ParseDmyFields(d: string, m: string, y: string, fourDigitYear: bool)
    requires '/' !in d && '/' !in m && '/' !in y
    ensures ParseDmy(d + "/" + m + "/" + y, fourDigitYear) == DmyFields(d, m, y, fourDigitYear)
  {
    SplitThree(d, m, y, '/');
  }

  lemma LastDayOfMonthDateFields(d: string, m: string, y: string, currentYear: int)
    requires '/' !in d && '/' !in m && '/' !in y
    ensures LastDayOfMonthDate(d + "/" + m + "/" + y, currentYear) == LastDayFields(d, m, y, currentYear)
  {
    SplitThree(d, m, y, '/');
  }

  /** `parse_date` on three `/`-separated fields whose year has two digits: the `%y` reading, else the fallback. */
  lemma ParseDateTwoDigitYear(d: string, m: string, y: string, currentYear: int)
    requires '/' !in d && '/' !in m && '/' !in y && |y| == 2
    ensures var short := DmyFields(d, m, y, false);
      ParseDate(d + "/" + m + "/" + y, currentYear) == if short.Some? then short else LastDayFields(d, m, y, currentYear)
  {
    var s := d + "/" + m + "/" + y;
    ParseDmyFields(d, m, y, true);
    assert PandasDmy(s, true) == None;
    ParseDmyFields(d, m, y, false);
    TwoDigitYearsInRange(s);
    assert PandasDmy(s, false) == DmyFields(d, m, y, false);
    LastDayOfMonthDateFields(d, m, y, currentYear);
  }

  /** `parse_date` on three `/`-separated fields whose year has four digits: the `%Y` reading if it fits a `Timestamp`, else the fallback. */
  lemma ParseDateFourDigitYear(d: string, m: string, y: string, currentYear: int)
    requires '/' !in d && '/' !in m && '/' !in y && |y| == 4
    ensures var long := DmyFields(d, m, y, true);
      ParseDate(d + "/" + m + "/" + y, currentYear)
      == if long.Some? && InTimestampRange(long.value) then long else LastDayFields(d, m, y, currentYear)
  {
    ParseDmyFields(d, m, y, true);
    ParseDmyFields(d, m, y, false);
    LastDayOfMonthDateFields(d, m, y, currentYear);
  }

  /** `int()` of one or two ASCII digits. */
  lemma ParseIntShort(s: string)
    requires 1 <= |s| <= 2 && forall k :: 0 <= k < |s| ==> IsAsciiDigit(s[k])
    ensures ParseInt(s) == Some(DigitsValue(s))
  {
    StripDigits(s);
    GroupsValueOfDigits(s);
  }

  lemma LeapDayFields()
    ensures LastDayFields("1", "2", "0", 2026) == Some(Date(2000, 2, 29))
    ensures LastDayFields("1", "2", "0", 2051) == None
  {
    ParseIntShort("1");
    ParseIntShort("2");
    ParseIntShort("0");
    assert ConvertYear(0, 2026) == 2000;
    assert ConvertYear(0, 2051) == 2100;
  }

  /**
   * The fallback's month length is taken in the year as written: from 2051
   * on, "1/2/0" asks for 29 February 2100, which does not exist, so `NaT`.
   */
  lemma FallbackLeapDayMissing()
    ensures ParseDate("1/2/0", 2026) == Some(Date(2000, 2, 29))
    ensures ParseDate("1/2/0", 2051) == None
  {
    assert "1/2/0" == "1" + "/" + "2" + "/" + "0";
    ParseDmyFields("1", "2", "0", true);
    ParseDmyFields("1", "2", "0", false);
    LastDayOfMonthDateFields("1", "2", "0", 2026);
    LastDayOfMonthDateFields("1", "2", "0", 2051);
    LeapDayFields();
  }

  lemma NoThirtyFirstOfFebruary()
    ensures DmyFields("31", "02", "23", false) == None
  {
    assert DayField("31") == Some(31);
    assert MonthField("02") == Some(2);
    assert Year2Field("23") == Some(2023);
    assert LastDay(2023, 2) == 28;
  }

  lemma ParseIntZeroTwo()
    ensures ParseInt("02") == Some(2)
  {
    ParseIntShort("02");
    assert DigitsValue("02") == 2;
  }

  lemma ParseIntTwentyThree()
    ensures ParseInt("23") == Some(23)
  {
    ParseIntShort("23");
    assert DigitsValue("23") == 23;
  }

  lemma EndOfFebruaryFields()
    ensures LastDayFields("31", "02", "23", 2026) == Some(Date(2023, 2, 28))
  {
    ParseIntShort("31");
    ParseIntZeroTwo();
    ParseIntTwentyThree();
    assert ConvertYear(23, 2026) == 2023;
    assert LastDay(23, 2) == 28;
    assert IsValid(Date(2023, 2, 28));
  }

  /** A day that does not exist falls back to the last day of its month: "31/02/23" is 28 February 2023. */
  lemma ParseDateExample()
    ensures ParseDate("31/02/23", 2026) == Some(Date(2023, 2, 28))
  {
    assert "31/02/23" == "31" + "/" + "02" + "/" + "23";
    ParseDateTwoDigitYear("31", "02", "23", 2026);
    NoThirtyFirstOfFebruary();
    EndOfFebruaryFields();
  }

  lemma DefaultBoundFields()
    ensures DmyFields("01", "01", "00", false) == Some(Date(2000, 1, 1))
    ensures DmyFields("01", "01", "30", false) == Some(Date(2030, 1, 1))
  {
    assert Year2Field("00") == Some(2000);
    assert Year2Field("30") == Some(2030);
  }

  /** The constructors' default bounds parse whatever the clock says. */
  lemma DefaultBoundsParse(currentYear: int)
    ensures ParseDate("01/01/00", currentYear) == Some(Date(2000, 1, 1))
    ensures ParseDate("01/01/30", currentYear) == Some(Date(2030, 1, 1))
  {
    assert "01/01/00" == "01" + "/" + "01" + "/" + "00";
    ParseDateTwoDigitYear("01", "01", "00", currentYear);
    assert "01/01/30" == "01" + "/" + "01" + "/" + "30";
    ParseDateTwoDigitYear("01", "01", "30", currentYear);
    DefaultBoundFields();
  }

  // ------------------------------------------------------------------
  // strftime
  // ------------------------------------------------------------------

  function TwoDigits(n: int): (r: string)
    requires 0 <= n < 100
    ensures |r| == 2 && IsAsciiDigit(r[0]) && IsAsciiDigit(r[1])
  {
    [DigitChar(n / 10), DigitChar(n % 10)]
  }

  /** `strftime('%d/%m/%y')`. */
  function FormatDmy(d: Date): (r: string)
    requires IsValid(d)
    ensures |r| == 8
  {
    TwoDigits(d.day) + "/" + TwoDigits(d.month) + "/" + TwoDigits(d.year % 100)
  }

  /** `strftime('%H:%M:%S')`. */
  function FormatHms(t: DateTime): (r: string)
    requires 0 <= t.hour < 24 && 0 <= t.minute < 60 && 0 <= t.second < 60
    ensures |r| == 8
  {
    TwoDigits(t.hour) + ":" + TwoDigits(t.minute) + ":" + TwoDigits(t.second)
  }

  lemma DayFieldTwoDigits(n: int)
    requires 1 <= n <= 31
    ensures DayField(TwoDigits(n)) == Some(n)
  {
  }

  lemma MonthFieldTwoDigits(n: int)
    requires 1 <= n <= 12
    ensures MonthField(TwoDigits(n)) == Some(n)
  {
  }

  /** `%d/%m/%y` reads back what `strftime('%d/%m/%y')` wrote, for every year the pivot covers. */
  lemma FormatDmyRoundTrip(d: Date)
    requires IsValid(d) && 1969 <= d.year <= 2068
    ensures ParseDmy(FormatDmy(d), false) == Some(d)
  {
    var a, b, c := TwoDigits(d.day), TwoDigits(d.month), TwoDigits(d.year % 100);
    SplitThree(a, b, c, '/');
    DayFieldTwoDigits(d.day);
    MonthFieldTwoDigits(d.month);
    assert Year2Field(c) == Some(d.year);
  }

  /** `s` read with `%H:%M:%S` gives the time of day of `t`. */
  predicate ReadsAsTimeOf(s: string, t: DateTime)
  {
    var q := Split(s, ':');
    |q| == 3 && HourField(q[0]) == Some(t.hour) && MinuteField(q[1]) == Some(t.minute) && SecondField(q[2]) == Some(t.second)
  }

  /** `%H:%M:%S` reads back what `strftime('%H:%M:%S')` wrote. */
  lemma FormatHmsRoundTrip(t: DateTime)
    requires 0 <= t.hour < 24 && 0 <= t.minute < 60 && 0 <= t.second < 60
    ensures ReadsAsTimeOf(FormatHms(t), t)
  {
    SplitThree(TwoDigits(t.hour), TwoDigits(t.minute), TwoDigits(t.second), ':');
  }

  /**
   * A row's `date` and `time` columns hold the timestamp `t`: the time reads
   * back with `%H:%M:%S`, and the date with `%d/%m/%y` for every year the
   * two-digit pivot covers.
   */
  predicate StampedAs(date: string, time: string, t: DateTime)
  {
    && ReadsAsTimeOf(time, t)
    && (1969 <= t.date.year <= 2068 ==> ParseDmy(date, false) == Some(t.date))
  }

  lemma FormatStampRoundTrip(t: DateTime)
    requires IsValid(t.date) && 0 <= t.hour < 24 && 0 <= t.minute < 60 && 0 <= t.second < 60
    ensures StampedAs(FormatDmy(t.date), FormatHms(t), t)
  {
    FormatHmsRoundTrip(t);
    if 1969 <= t.date.year <= 2068 {
      FormatDmyRoundTrip(t.date);
    }
  }

  // ------------------------------------------------------------------
  // The ISO 8601 timestamps of a Telegram export
  // ------------------------------------------------------------------

  /** Where the first `T` (or `t`: the pattern ignores case) is. */
  function FindT(s: string): (r: Option<nat>)
    ensures r.Some? ==> r.value < |s| && (s[r.value] == 'T' || s[r.value] == 't')
    ensures r.Some? ==> forall i :: 0 <= i < r.value ==> s[i] != 'T' && s[i] != 't'
    ensures r.None? ==> forall i :: 0 <= i < |s| ==> s[i] != 'T' && s[i] != 't'
  {
    if s == [] then None
    else if s[0] == 'T' || s[0] == 't' then Some(0)
    else
      var r := FindT(s[1..]);
      if r.Some? then Some(r.value + 1) else None
  }

  /** The six fields of `%Y-%m-%dT%H:%M:%S`, making a `datetime`. */
  function IsoFields(year: string, month: string, day: string, hour: string, minute: string, second: string): (r: Option<DateTime>)
    ensures r.Some? ==> IsDatetimeDate(r.value.date)
    ensures r.Some? ==> 0 <= r.value.hour < 24 && 0 <= r.value.minute < 60 && 0 <= r.value.second < 60
  {
    var y := Year4Field(year);
    var m := MonthField(month);
    var d := DayField(day);
    var h := HourField(hour);
    var mi := MinuteField(minute);
    var sec := SecondField(second);
    if y.None? || m.None? || d.None? || h.None? || mi.None? || sec.None? then None
    else
      var date := Date(y.value, m.value, d.value);
      if IsDatetimeDate(date) && sec.value < 60 then Some(DateTime(date, h.value, mi.value, sec.value))
      else None
  }

  /** `datetime.strptime(s, '%Y-%m-%dT%H:%M:%S')`: `None` where it raises `ValueError`. */
  function ParseIsoTimestamp(s: string): (r: Option<DateTime>)
    ensures r.Some? ==> IsDatetimeDate(r.value.date)
    ensures r.Some? ==> 0 <= r.value.hour < 24 && 0 <= r.value.minute < 60 && 0 <= r.value.second < 60
  {
    var p := Split(s, '-');
    if |p| != 3 then None
    else
      var t := FindT(p[2]);
      if t.None? then None
      else
        var q := Split(p[2][t.value + 1..], ':');
        if |q| != 3 then None
        else IsoFields(p[0], p[1], p[2][..t.value], q[0], q[1], q[2])
  }

  /** A timestamp whose six fields are free of separators reads as those fields. */
  lemma IsoSplit(year: string, month: string, day: string, hour: string, minute: string, second: string)
    requires '-' !in year && '-' !in month && '-' !in day && '-' !in hour && '-' !in minute && '-' !in second
    requires ':' !in hour && ':' !in minute && ':' !in second
    requires 'T' !in day && 't' !in day
    ensures ParseIsoTimestamp(year + "-" + month + "-" + day + "T" + hour + ":" + minute + ":" + second)
         == IsoFields(year, month, day, hour, minute, second)
  {
    var time := hour + ":" + minute + ":" + second;
    var rest := day + "T" + time;
    assert '-' !in time;
    assert '-' !in rest;
    assert year + "-" + month + "-" + day + "T" + hour + ":" + minute + ":" + second == year + "-" + month + "-" + rest;
    SplitThree(year, month, rest, '-');
    FindTAfter(day, time);
    assert rest[|day| + 1..] == time;
    assert rest[..|day|] == day;
    SplitThree(hour, minute, second, ':');
  }

  lemma {:induction false} FindTAfter(day: string, time: string)
    requires 'T' !in day && 't' !in day
    ensures FindT(day + "T" + time) == Some(|day|)
  {
    if day != [] {
      assert (day + "T" + time)[1..] == day[1..] + "T" + time;
      FindTAfter(day[1..], time);
    }
  }

  lemma IsoFieldsExample()
    ensures IsoFields("2023", "05", "01", "12", "34", "56") == Some(DateTime(Date(2023, 5, 1), 12, 34, 56))
  {
    assert Year4Field("2023") == Some(2023);
  }

  /** A well-formed timestamp from an export. */
  lemma ParseIsoExample()
    ensures ParseIsoTimestamp("2023-05-01T12:34:56") == Some(DateTime(Date(2023, 5, 1), 12, 34, 56))
  {
    assert "2023-05-01T12:34:56" == "2023" + "-" + "05" + "-" + "01" + "T" + "12" + ":" + "34" + ":" + "56";
    IsoSplit("2023", "05", "01", "12", "34", "56");
    IsoFieldsExample();
  }
}

=== FILE: media_parsing.dfy ===
/**
 * Shaping a Telegram JSON export into message tables: the chat type, the
 * text of each message (flattened, normalised and stripped of links and
 * hashtags), its reactions, its hashtags, and its timestamp split into
 * `dd/mm/yy` and `HH:MM:SS`; and the metadata row of every export.
 */
module MediaParsing {
  import opened Common
  import opened TextUtils
  import opened Dates
  import opened Tables

  // ------------------------------------------------------------------
  // The JSON of an export
  // ------------------------------------------------------------------

  /** An element of a list-form `text`: an entity (a dict with a `text` key) or a plain string. */
  datatype TextPart = Entity(text: string) | Fragment(text: string)

  /** A message's `text`: a string, or a list of parts. */
  datatype MessageText = Whole(s: string) | Parts(parts: seq<TextPart>)

  datatype Reaction = Reaction(kind: string, emoji: string, count: int)

  /**
   * One entry of `messages`. `reactions`, `from`, `from_id` and
   * `reply_to_message_id` may be absent (`None`); `from` and `from_id`
   * may also be JSON `null` (`Some(None)`).
   */
  datatype Message = Message(
    id: int,
    kind: string,
    text: MessageText,
    date: string,
    reactions: Option<seq<Reaction>>,
    from: Option<Option<string>>,
    fromId: Option<Option<string>>,
    replyTo: Option<int>)

  datatype Export = Export(id: int, name: string, kind: string, messages: seq<Message>)

  // ------------------------------------------------------------------
  // detect_chat_type
  // ------------------------------------------------------------------

  /** `'channel'` if the type mentions a channel, else `'group'` if it mentions a group, else `'unknown'`. */
  function DetectChatType(kind: string): string
  {
    if Contains(kind, "channel") then "channel"
    else if Contains(kind, "group") then "group"
    else "unknown"
  }

  /** A channel wins over a group when the type mentions both; exactly one of the three answers holds. */
  lemma DetectChatTypeMeaning(kind: string)
    ensures DetectChatType(kind) == "channel" <==> Contains(kind, "channel")
    ensures DetectChatType(kind) == "group" <==> !Contains(kind, "channel") && Contains(kind, "group")
    ensures DetectChatType(kind) == "unknown" <==> !Contains(kind, "channel") && !Contains(kind, "group")
  {
  }

  // ------------------------------------------------------------------
  // parse_reactions
  // ------------------------------------------------------------------

  predicate IsEmojiReaction(r: Reaction)
  {
    r.kind == "emoji"
  }

  /** `f"{r['emoji']}:{r['count']}"` */
  function ReactionText(r: Reaction): string
  {
    r.emoji + ":" + IntToString(r.count)
  }

  function ReactionTexts(rs: seq<Reaction>): (r: seq<string>)
    ensures |r| == |rs| && forall j :: 0 <= j < |rs| ==> r[j] == ReactionText(rs[j])
  {
    seq(|rs|, j requires 0 <= j < |rs| => ReactionText(rs[j]))
  }

  /** `parse_reactions`: `""` for no reactions, else the emoji reactions as `emoji:count`, comma-joined. */
  function ParseReactions(reactions: Option<seq<Reaction>>): string
  {
    if reactions.None? || reactions.value == [] then ""
    else Join(ReactionTexts(Filter(reactions.value, IsEmojiReaction)), ",")
  }

  /**
   * The formatted reactions read back: splitting on `,` and then on `:`
   * gives each emoji reaction's emoji and count, in input order, when no
   * emoji holds a separator.
   */
  lemma ReactionsRoundTrip(reactions: seq<Reaction>)
    requires Filter(reactions, IsEmojiReaction) != []
    requires forall r :: r in reactions ==> ',' !in r.emoji && ':' !in r.emoji
    ensures var emoji := Filter(reactions, IsEmojiReaction);
      var pieces := Split(ParseReactions(Some(reactions)), ',');
      && |pieces| == |emoji|
      && forall j :: 0 <= j < |emoji| ==> Split(pieces[j], ':') == [emoji[j].emoji, IntToString(emoji[j].count)]
  {
    var emoji := Filter(reactions, IsEmojiReaction);
    var texts := ReactionTexts(emoji);
    forall j | 0 <= j < |emoji|
      ensures ',' !in texts[j] && Split(texts[j], ':') == [emoji[j].emoji, IntToString(emoji[j].count)]
    {
      var e := emoji[j];
      assert e in reactions by {
        var idx := FilterPositions(reactions, IsEmojiReaction);
        assert emoji[j] == reactions[idx[j]];
      }
      var n := IntToString(e.count);
      assert ',' !in n && ':' !in n;
      SplitNoSeparator(n, ':');
      SplitPrefix(e.emoji, n, ':');
      assert texts[j] == e.emoji + [':'] + n;
    }
    SplitJoin(texts, ',');
  }

  /** Reactions of any other type never show, and an empty or missing list gives `""`. */
  lemma NoEmojiNoText(reactions: Option<seq<Reaction>>)
    requires reactions.None? || Filter(reactions.value, IsEmojiReaction) == []
    ensures ParseReactions(reactions) == ""
  {
  }

  // ------------------------------------------------------------------
  // extract_hashtags: `#\w+`
  // ------------------------------------------------------------------

  /** `\w` on ASCII and on the Arabic block (Persian letters and digits included). */
  predicate IsWordChar(c: char)
  {
    || 'a' <= c <= 'z' || 'A' <= c <= 'Z' || '0' <= c <= '9' || c == '_'
    || '\U{0620}' <= c <= '\U{064A}' || '\U{0660}' <= c <= '\U{0669}' || '\U{066E}' <= c <= '\U{066F}'
    || '\U{0671}' <= c <= '\U{06D3}' || c == '\U{06D5}' || '\U{06E5}' <= c <= '\U{06E6}'
    || '\U{06EE}' <= c <= '\U{06FC}' || c == '\U{06FF}'
  }

  /** Length of the run of word characters at the start of `s`. */
  function WordRun(s: string): (k: nat)
    ensures k <= |s|
    ensures forall i :: 0 <= i < k ==> IsWordChar(s[i])
    ensures k == |s| || !IsWordChar(s[k])
  {
    if s == [] || !IsWordChar(s[0]) then 0 else 1 + WordRun(s[1..])
  }

  /** A match of `#\w+`. */
  predicate IsHashtag(t: string)
  {
    |t| >= 2 && t[0] == '#' && forall i :: 1 <= i < |t| ==> IsWordChar(t[i])
  }

  /** `re.findall(r'#\w+', s)`: left to right, each match as long as it goes. */
  function ExtractHashtags(s: string): (r: seq<string>)
    ensures forall j :: 0 <= j < |r| ==> IsHashtag(r[j])
    decreases |s|
  {
    if s == [] then []
    else if s[0] == '#' && WordRun(s[1..]) > 0 then
      var k := 1 + WordRun(s[1..]);
      [s[..k]] + ExtractHashtags(s[k..])
    else ExtractHashtags(s[1..])
  }

  /** `t` occurs in `s` at `p`, and the word characters stop right after it. */
  predicate FoundAt(s: string, t: string, p: nat)
  {
    && p + |t| <= |s|
    && s[p..p + |t|] == t
    && (p + |t| == |s| || !IsWordChar(s[p + |t|]))
  }

  /** `pos` places each of `tags` in `s`, in order and without overlap. */
  predicate PlacedAt(s: string, tags: seq<string>, pos: seq<nat>)
  {
    && |pos| == |tags|
    && (forall j :: 0 <= j < |pos| ==> FoundAt(s, tags[j], pos[j]))
    && (forall j, k :: 0 <= j < k < |pos| ==> pos[j] + |tags[j]| <= pos[k])
  }

  lemma FoundAtShift(s: string, k: nat, t: string, p: nat)
    requires k <= |s| && FoundAt(s[k..], t, p)
    ensures FoundAt(s, t, p + k)
  {
    assert s[p + k..p + k + |t|] == s[k..][p..p + |t|];
  }

  /** A match of `#\w+` can start at `p`: a `#` followed by a word character. */
  predicate TagStartsAt(s: string, p: nat)
  {
    p + 1 < |s| && s[p] == '#' && IsWordChar(s[p + 1])
  }

  /**
   * Where the hashtags were found: each is the text at its position, it
   * runs as far as the word characters do, and the matches follow each
   * other without overlapping. Every `#` followed by a word character
   * starts one of them: no match is missed.
   */
  lemma {:induction false} HashtagPositions(s: string) returns (pos: seq<nat>)
    ensures PlacedAt(s, ExtractHashtags(s), pos)
    ensures forall p :: TagStartsAt(s, p) ==> p in pos
    decreases |s|
  {
    if s == [] {
      pos := [];
    } else if s[0] == '#' && WordRun(s[1..]) > 0 {
      var k := 1 + WordRun(s[1..]);
      var rest := HashtagPositions(s[k..]);
      var shifted;
      pos, shifted := HashtagCons(s, k, rest);
      StartsShift(s, k, rest, shifted);
      forall p | TagStartsAt(s, p)
        ensures p in pos
      {
        if p == 0 {
          assert pos[0] == 0;
        } else {
          NoTagInsideRun(s, k, p);
          assert p in shifted;
        }
      }
    } else {
      var rest := HashtagPositions(s[1..]);
      pos := ShiftPlaced(s, 1, rest);
      assert ExtractHashtags(s) == ExtractHashtags(s[1..]);
      StartsShift(s, 1, rest, pos);
      forall p | TagStartsAt(s, p)
        ensures p in pos
      {
        if p == 0 {
          assert false;
        }
      }
    }
  }

  /** `#` is not a word character, so no match starts inside the run of word characters after a `#`. */
  lemma NoTagInsideRun(s: string, k: nat, p: nat)
    requires s != [] && k == 1 + WordRun(s[1..]) && 0 < p && TagStartsAt(s, p)
    ensures k <= p
  {
    if p < k {
      assert false;
    }
  }

  /** Match starts in a suffix, moved to the whole text. */
  lemma StartsShift(s: string, k: nat, rest: seq<nat>, pos: seq<nat>)
    requires k <= |s| && |pos| == |rest|
    requires forall j :: 0 <= j < |rest| ==> pos[j] == rest[j] + k
    requires forall q :: TagStartsAt(s[k..], q) ==> q in rest
    ensures forall p :: k <= p && TagStartsAt(s, p) ==> p in pos
  {
    forall p | k <= p && TagStartsAt(s, p)
      ensures p in pos
    {
      assert TagStartsAt(s[k..], p - k);
      var j :| 0 <= j < |rest| && rest[j] == p - k;
      assert pos[j] == p;
    }
  }

  /** Positions in a suffix, moved to the whole text. */
  lemma ShiftPlaced(s: string, k: nat, rest: seq<nat>) returns (pos: seq<nat>)
    requires k <= |s| && PlacedAt(s[k..], ExtractHashtags(s[k..]), rest)
    ensures PlacedAt(s, ExtractHashtags(s[k..]), pos)
    ensures |pos| == |rest| && forall j :: 0 <= j < |rest| ==> pos[j] == rest[j] + k
  {
    var tags := ExtractHashtags(s[k..]);
    pos := seq(|rest|, j requires 0 <= j < |rest| => rest[j] + k);
    forall j | 0 <= j < |pos|
      ensures FoundAt(s, tags[j], pos[j])
    {
      FoundAtShift(s, k, tags[j], rest[j]);
    }
  }

  lemma FirstTagFound(s: string, k: nat)
    requires s != [] && s[0] == '#' && WordRun(s[1..]) > 0 && k == 1 + WordRun(s[1..])
    ensures FoundAt(s, s[..k], 0)
  {
    var w := WordRun(s[1..]);
    if k < |s| {
      assert s[1..][w] == s[k];
    }
  }

  lemma HashtagCons(s: string, k: nat, rest: seq<nat>) returns (pos: seq<nat>, shifted: seq<nat>)
    requires s != [] && s[0] == '#' && WordRun(s[1..]) > 0 && k == 1 + WordRun(s[1..])
    requires PlacedAt(s[k..], ExtractHashtags(s[k..]), rest)
    ensures PlacedAt(s, ExtractHashtags(s), pos)
    ensures pos == [0] + shifted
    ensures |shifted| == |rest| && forall j :: 0 <= j < |rest| ==> shifted[j] == rest[j] + k
  {
    assert ExtractHashtags(s) == [s[..k]] + ExtractHashtags(s[k..]);
    FirstTagFound(s, k);
    shifted := ShiftPlaced(s, k, rest);
    pos := [0] + shifted;
    ConsPlaced(s, s[..k], ExtractHashtags(s[k..]), shifted);
  }

  /** A match at the start, followed by matches past it. */
  lemma ConsPlaced(s: string, t: string, tail: seq<string>, shifted: seq<nat>)
    requires FoundAt(s, t, 0) && PlacedAt(s, tail, shifted)
    requires forall j :: 0 <= j < |shifted| ==> |t| <= shifted[j]
    ensures PlacedAt(s, [t] + tail, [0] + shifted)
  {
    var tags := [t] + tail;
    var pos := [0] + shifted;
    assert forall j :: 0 <= j < |pos| ==> FoundAt(s, tags[j], pos[j]) by {
      forall j | 0 < j < |pos|
        ensures FoundAt(s, tags[j], pos[j])
      {
        assert tags[j] == tail[j - 1] && pos[j] == shifted[j - 1];
      }
    }
    assert forall j, i :: 0 <= j < i < |pos| ==> pos[j] + |tags[j]| <= pos[i] by {
      forall j, i | 0 <= j < i < |pos|
        ensures pos[j] + |tags[j]| <= pos[i]
      {
        assert pos[i] == shifted[i - 1];
        if j > 0 {
          assert pos[j] == shifted[j - 1] && tags[j] == tail[j - 1];
        }
      }
    }
  }

  /** The comma-joined `hashtags` column splits back into the hashtags. */
  lemma HashtagsJoinSplit(s: string)
    requires ExtractHashtags(s) != []
    ensures Split(Join(ExtractHashtags(s), ","), ',') == ExtractHashtags(s)
  {
    var tags := ExtractHashtags(s);
    forall j | 0 <= j < |tags|
      ensures ',' !in tags[j]
    {
      assert IsHashtag(tags[j]);
    }
    SplitJoin(tags, ',');
  }

  // ------------------------------------------------------------------
  // preprocess_text (and its twin preprocess_text_for_export)
  // ------------------------------------------------------------------

  /** Every token removed in turn. */
  function RemoveTokens(s: string, tokens: seq<string>): string
    decreases |tokens|
  {
    if tokens == [] then s else RemoveTokens(RemoveAll(s, tokens[0]), tokens[1..])
  }

  /**
   * The cleaned text: `preprocess_persian_sentence`, every link and
   * hashtag removed, `clean_text`, then newline runs collapsed.
   */
  function Preprocessed(raw: string, tokens: seq<string>, cleanText: string -> string): (r: string)
    ensures NoDoubleNewline(r)
  {
    RemoveExtraNewlines(cleanText(RemoveTokens(AddWhitespaceAroundNumbers(PadAbbrev(NormalizeChars(raw))), tokens)))
  }

  /** The token loop of `preprocess_text`: each token's occurrences replaced by nothing, in turn. */
  method RemoveEach(text0: string, tokens: seq<string>) returns (text: string)
    ensures text == RemoveTokens(text0, tokens)
    ensures |text| <= |text0|
  {
    text := text0;
    var i := 0;
    while i < |tokens|
      invariant 0 <= i <= |tokens|
      invariant |text| <= |text0|
      invariant RemoveTokens(text, tokens[i..]) == RemoveTokens(text0, tokens)
    {
      assert tokens[i..][0] == tokens[i] && tokens[i..][1..] == tokens[i + 1..];
      text := RemoveAll(text, tokens[i]);
      i := i + 1;
    }
    assert tokens[i..] == [];
  }

  /**
   * `preprocess_text(raw_text, links, hashtags)`; `preprocess_text_for_export`
   * has the same body and is this same operation.
   */
  method PreprocessText(raw: string, links: seq<string>, hashtags: seq<string>, cleanText: string -> string)
    returns (text: string)
    ensures text == Preprocessed(raw, links + hashtags, cleanText)
    ensures !Contains(text, "\n\n")
  {
    text := PreprocessPersianSentence(raw);
    text := RemoveEach(text, links + hashtags);
    text := RemoveExtraNewlines(cleanText(text));
    NoDoubleNewlineHasNoPair(text);
  }

  lemma NoDoubleNewlineHasNoPair(s: string)
    requires NoDoubleNewline(s)
    ensures !Contains(s, "\n\n")
  {
    forall i: nat | i <= |s|
      ensures !ContainsAt(s, "\n\n", i)
    {
      if i + 2 <= |s| {
        assert s[i..i + 2][0] == s[i] && s[i..i + 2][1] == s[i + 1];
        assert !(s[i] == '\n' && s[i + 1] == '\n');
      }
    }
  }

  // ------------------------------------------------------------------
  // The per-message rows
  // ------------------------------------------------------------------

  /** A list-form text is the concatenation of its parts' texts. */
  function FlattenText(t: MessageText): string
  {
    match t
    case Whole(s) => s
    case Parts(ps) => Concat(seq(|ps|, i requires 0 <= i < |ps| => ps[i].text))
  }

  /** The channel converter's `raw_text[:-2]` on a text that ends in a newline: the newline and the character before it go. */
  function TrimChannelText(t: string): (r: string)
    ensures r <= t
    ensures |t| > 0 && t[|t| - 1] == '\n' ==> |r| == if |t| >= 2 then |t| - 2 else 0
    ensures !(|t| > 0 && t[|t| - 1] == '\n') ==> r == t
  {
    if |t| > 0 && t[|t| - 1] == '\n' then t[..if |t| >= 2 then |t| - 2 else 0] else t
  }

  /** `msg.get(key, '')`: a missing field is `''`, a JSON `null` stays empty. */
  function FieldOr(f: Option<Option<string>>): Option<string>
  {
    if f.None? then Some("") else f.value
  }

  datatype ChannelRow = ChannelRow(
    messageId: int, rawText: string, cleanedText: string, time: string, date: string,
    reactions: string, links: string, hashtags: string)

  datatype GroupRow = GroupRow(
    messageId: int, rawText: string, cleanedText: string, senderName: Option<string>, senderId: Option<string>,
    time: string, date: string, reactions: string, links: string, hashtags: string, replyTo: Option<int>)

  /** The `ValueError` text of a timestamp that `strptime` rejects. */
  function BadTimestamp(date: string): string
  {
    "time data '" + date + "' does not match format '%Y-%m-%dT%H:%M:%S'"
  }

  /**
   * The text columns of a row made from `m` whose raw text is `raw`: the
   * cleaned text is `raw` preprocessed with its own links and hashtags
   * removed, the reactions are `m`'s formatted, and the links and hashtags
   * found in `raw` are comma-joined, in the order they occur.
   */
  predicate ColumnsOf(raw: string, cleaned: string, reactions: string, links: string, hashtags: string,
                      m: Message, cleanText: string -> string, extractLinks: string -> seq<string>)
  {
    && cleaned == Preprocessed(raw, extractLinks(raw) + ExtractHashtags(raw), cleanText)
    && reactions == ParseReactions(m.reactions)
    && links == Join(extractLinks(raw), ",")
    && hashtags == Join(ExtractHashtags(raw), ",")
  }

  predicate IsMessage(m: Message)
  {
    m.kind == "message"
  }

  /** The row of one channel message. */
  function ChannelRowOf(m: Message, cleanText: string -> string, extractLinks: string -> seq<string>): (r: Result<ChannelRow, string>)
    ensures r.Err? <==> ParseIsoTimestamp(m.date).None?
    ensures r.Ok? ==> r.value.messageId == m.id && r.value.rawText == TrimChannelText(FlattenText(m.text))
    ensures r.Ok? ==> !Contains(r.value.cleanedText, "\n\n") && |r.value.date| == 8 && |r.value.time| == 8
    ensures r.Ok? ==> StampedAs(r.value.date, r.value.time, ParseIsoTimestamp(m.date).value)
    ensures r.Ok? ==> ColumnsOf(r.value.rawText, r.value.cleanedText, r.value.reactions, r.value.links, r.value.hashtags,
                                m, cleanText, extractLinks)
  {
    var raw := TrimChannelText(FlattenText(m.text));
    var dt := ParseIsoTimestamp(m.date);
    if dt.None? then Err(BadTimestamp(m.date))
    else
      var links := extractLinks(raw);
      var tags := ExtractHashtags(raw);
      var cleaned := RemoveExtraNewlines(Preprocessed(raw, links + tags, cleanText));
      NoDoubleNewlineHasNoPair(cleaned);
      FormatStampRoundTrip(dt.value);
      ChannelCleanedOnce(raw, links + tags, cleanText);
      Ok(ChannelRow(m.id, raw, cleaned, FormatHms(dt.value), FormatDmy(dt.value.date),
                    ParseReactions(m.reactions), Join(links, ","), Join(tags, ",")))
  }

  /** The channel converter's second newline collapse changes nothing. */
  lemma ChannelCleanedOnce(raw: string, tokens: seq<string>, cleanText: string -> string)
    ensures RemoveExtraNewlines(Preprocessed(raw, tokens, cleanText)) == Preprocessed(raw, tokens, cleanText)
  {
    RemoveExtraNewlinesFixpoint(Preprocessed(raw, tokens, cleanText));
  }

  /** The row of one group message: the sender fields default to `''`, the reply to nothing. */
  function GroupRowOf(m: Message, cleanText: string -> string, extractLinks: string -> seq<string>): (r: Result<GroupRow, string>)
    ensures r.Err? <==> ParseIsoTimestamp(m.date).None?
    ensures r.Ok? ==> r.value.messageId == m.id && r.value.rawText == FlattenText(m.text)
    ensures r.Ok? ==> r.value.senderName == FieldOr(m.from) && r.value.senderId == FieldOr(m.fromId) && r.value.replyTo == m.replyTo
    ensures r.Ok? ==> !Contains(r.value.cleanedText, "\n\n") && |r.value.date| == 8 && |r.value.time| == 8
    ensures r.Ok? ==> StampedAs(r.value.date, r.value.time, ParseIsoTimestamp(m.date).value)
    ensures r.Ok? ==> ColumnsOf(r.value.rawText, r.value.cleanedText, r.value.reactions, r.value.links, r.value.hashtags,
                                m, cleanText, extractLinks)
  {
    var raw := FlattenText(m.text);
    var dt := ParseIsoTimestamp(m.date);
    if dt.None? then Err(BadTimestamp(m.date))
    else
      var links := extractLinks(raw);
      var tags := ExtractHashtags(raw);
      var cleaned := Preprocessed(raw, links + tags, cleanText);
      NoDoubleNewlineHasNoPair(cleaned);
      FormatStampRoundTrip(dt.value);
      Ok(GroupRow(m.id, raw, cleaned, FieldOr(m.from), FieldOr(m.fromId), FormatHms(dt.value), FormatDmy(dt.value.date),
                  ParseReactions(m.reactions), Join(links, ","), Join(tags, ","), m.replyTo))
  }

  /**
   * A converter's rows: one per message of type `message`, in order; the
   * first such message whose timestamp does not parse aborts the conversion.
   */
  function Rows<R>(ms: seq<Message>, rowOf: Message -> Result<R, string>): Result<seq<R>, string>
    decreases |ms|
  {
    if ms == [] then Ok([])
    else
      var n := |ms| - 1;
      var prev := Rows(ms[..n], rowOf);
      if prev.Err? || !IsMessage(ms[n]) then prev
      else
        var row := rowOf(ms[n]);
        if row.Err? then Err(row.error) else Ok(prev.value + [row.value])
  }

  /**
   * Exactly one row per message of type `message`, in input order, each
   * made from its message; and the conversion fails exactly when one of
   * those messages cannot be converted.
   */
  lemma {:induction false} RowsOnePerMessage<R>(ms: seq<Message>, rowOf: Message -> Result<R, string>)
    ensures Rows(ms, rowOf).Ok? <==> forall i :: 0 <= i < |ms| && IsMessage(ms[i]) ==> rowOf(ms[i]).Ok?
    ensures Rows(ms, rowOf).Ok? ==>
      var kept := Filter(ms, IsMessage);
      && |Rows(ms, rowOf).value| == |kept|
      && forall j :: 0 <= j < |kept| ==> rowOf(kept[j]) == Ok(Rows(ms, rowOf).value[j])
    decreases |ms|
  {
    if ms != [] {
      var n := |ms| - 1;
      RowsOnePerMessage(ms[..n], rowOf);
      assert ms == ms[..n] + [ms[n]];
      FilterAppend(ms[..n], [ms[n]], IsMessage);
      assert Filter([ms[n]], IsMessage) == if IsMessage(ms[n]) then [ms[n]] else [];
      forall i | 0 <= i < n
        ensures ms[..n][i] == ms[i]
      {
      }
    }
  }

  function ChannelRowFn(cleanText: string -> string, extractLinks: string -> seq<string>): Message -> Result<ChannelRow, string>
  {
    m => ChannelRowOf(m, cleanText, extractLinks)
  }

  function GroupRowFn(cleanText: string -> string, extractLinks: string -> seq<string>): Message -> Result<GroupRow, string>
  {
    m => GroupRowOf(m, cleanText, extractLinks)
  }

  /** The body of the channel converter's loop, for one message of type `message`. */
  method ConvertChannelMessage(m: Message, cleanText: string -> string, extractLinks: string -> seq<string>)
    returns (r: Result<ChannelRow, string>)
    ensures r == ChannelRowOf(m, cleanText, extractLinks)
  {
    var raw := TrimChannelText(FlattenText(m.text));
    var dt := ParseIsoTimestamp(m.date);
    if dt.None? {
      return Err(BadTimestamp(m.date));
    }
    var links := extractLinks(raw);
    var tags := ExtractHashtags(raw);
    var cleaned := PreprocessText(raw, links, tags, cleanText);
    cleaned := RemoveExtraNewlines(cleaned);
    r := Ok(ChannelRow(m.id, raw, cleaned, FormatHms(dt.value), FormatDmy(dt.value.date),
                       ParseReactions(m.reactions), Join(links, ","), Join(tags, ",")));
  }

  /** The body of the group converter's loop, for one message of type `message`. */
  method ConvertGroupMessage(m: Message, cleanText: string -> string, extractLinks: string -> seq<string>)
    returns (r: Result<GroupRow, string>)
    ensures r == GroupRowOf(m, cleanText, extractLinks)
  {
    var raw := FlattenText(m.text);
    var dt := ParseIsoTimestamp(m.date);
    if dt.None? {
      return Err(BadTimestamp(m.date));
    }
    var links := extractLinks(raw);
    var tags := ExtractHashtags(raw);
    var cleaned := PreprocessText(raw, links, tags, cleanText);
    r := Ok(GroupRow(m.id, raw, cleaned, FieldOr(m.from), FieldOr(m.fromId), FormatHms(dt.value),
                     FormatDmy(dt.value.date), ParseReactions(m.reactions), Join(links, ","), Join(tags, ","), m.replyTo));
  }

  /** `telegram_json_channel_to_dataframe`: the messages loop, appending one row per message. */
  method ChannelToRows(data: Export, cleanText: string -> string, extractLinks: string -> seq<string>)
    returns (r: Result<seq<ChannelRow>, string>)
    ensures r == Rows(data.messages, ChannelRowFn(cleanText, extractLinks))
  {
    var ms := data.messages;
    var rows: seq<ChannelRow> := [];
    var i := 0;
    while i < |ms|
      invariant 0 <= i <= |ms|
      invariant Rows(ms[..i], ChannelRowFn(cleanText, extractLinks)) == Ok(rows)
    {
      RowsStep(ms, i, ChannelRowFn(cleanText, extractLinks));
      if ms[i].kind == "message" {
        var row := ConvertChannelMessage(ms[i], cleanText, extractLinks);
        if row.Err? {
          r := Err(row.error);
          RowsErrStays(ms, i + 1, ChannelRowFn(cleanText, extractLinks));
          return;
        }
        rows := rows + [row.value];
      }
      i := i + 1;
    }
    assert ms[..i] == ms;
    r := Ok(rows);
  }

  /** `telegram_json_group_to_dataframe`: the messages loop, appending one row per message. */
  method GroupToRows(data: Export, cleanText: string -> string, extractLinks: string -> seq<string>)
    returns (r: Result<seq<GroupRow>, string>)
    ensures r == Rows(data.messages, GroupRowFn(cleanText, extractLinks))
  {
    var ms := data.messages;
    var rows: seq<GroupRow> := [];
    var i := 0;
    while i < |ms|
      invariant 0 <= i <= |ms|
      invariant Rows(ms[..i], GroupRowFn(cleanText, extractLinks)) == Ok(rows)
    {
      RowsStep(ms, i, GroupRowFn(cleanText, extractLinks));
      if ms[i].kind == "message" {
        var row := ConvertGroupMessage(ms[i], cleanText, extractLinks);
        if row.Err? {
          r := Err(row.error);
          RowsErrStays(ms, i + 1, GroupRowFn(cleanText, extractLinks));
          return;
        }
        rows := rows + [row.value];
      }
      i := i + 1;
    }
    assert ms[..i] == ms;
    r := Ok(rows);
  }

  /** The conversion of one more message. */
  lemma RowsStep<R>(ms: seq<Message>, i: nat, rowOf: Message -> Result<R, string>)
    requires i < |ms|
    ensures Rows(ms[..i + 1], rowOf) ==
      if Rows(ms[..i], rowOf).Err? || !IsMessage(ms[i]) then Rows(ms[..i], rowOf)
      else if rowOf(ms[i]).Err? then Err(rowOf(ms[i]).error)
      else Ok(Rows(ms[..i], rowOf).value + [rowOf(ms[i]).value])
  {
    assert ms[..i + 1][..i] == ms[..i];
  }

  /** Once a prefix of the messages fails, the whole conversion fails the same way. */
  lemma {:induction false} RowsErrStays<R>(ms: seq<Message>, k: nat, rowOf: Message -> Result<R, string>)
    requires k <= |ms| && Rows(ms[..k], rowOf).Err?
    ensures Rows(ms, rowOf) == Rows(ms[..k], rowOf)
    decreases |ms| - k
  {
    if k < |ms| {
      assert ms[..k + 1][..k] == ms[..k];
      RowsErrStays(ms, k + 1, rowOf);
    } else {
      assert ms[..k] == ms;
    }
  }

  // ------------------------------------------------------------------
  // parse_all_media
  // ------------------------------------------------------------------

  datatype ParsedMedia = ChannelTable(channelRows: seq<ChannelRow>) | GroupTable(groupRows: seq<GroupRow>)

  const UnknownChatTypeMessage := "Unknown chat type. Chat type must be either a channel or a group"

  /** `os.path.join(directory, name)` for a relative `name`. */
  function PathJoin(directory: string, name: string): string
  {
    if directory == [] then name
    else if directory[|directory| - 1] == '/' then directory + name
    else directory + "/" + name
  }

  /** The last `/`-separated segment of a path. */
  function LastSegment(path: string): string
  {
    var parts := Split(path, '/');
    parts[|parts| - 1]
  }

  lemma PathJoinLastSegment(directory: string, name: string)
    requires '/' !in name
    ensures LastSegment(PathJoin(directory, name)) == name
  {
    if directory == [] {
      SplitNoSeparator(name, '/');
    } else if directory[|directory| - 1] == '/' {
      var d := directory[..|directory| - 1];
      assert directory + name == d + ['/'] + name;
      SplitSuffix(d, name, '/');
    } else {
      SplitSuffix(directory, name, '/');
    }
  }

  /** `f'{i+1}{chat_type[0]}.csv'` */
  function OutputName(i: nat, chatType: string): string
    requires chatType != []
  {
    NatToString(i + 1) + [chatType[0]] + ".csv"
  }

  /** One export, converted by its chat type. */
  function ParseMedia(data: Export, cleanText: string -> string, extractLinks: string -> seq<string>): (r: Result<ParsedMedia, string>)
    ensures DetectChatType(data.kind) == "unknown" ==> r == Err(UnknownChatTypeMessage)
  {
    var chatType := DetectChatType(data.kind);
    if chatType == "channel" then
      var rows := Rows(data.messages, ChannelRowFn(cleanText, extractLinks));
      if rows.Err? then Err(rows.error) else Ok(ChannelTable(rows.value))
    else if chatType == "group" then
      var rows := Rows(data.messages, GroupRowFn(cleanText, extractLinks));
      if rows.Err? then Err(rows.error) else Ok(GroupTable(rows.value))
    else Err(UnknownChatTypeMessage)
  }

  function ParseMediaFn(cleanText: string -> string, extractLinks: string -> seq<string>): Export -> Result<ParsedMedia, string>
  {
    data => ParseMedia(data, cleanText, extractLinks)
  }

  /** The metadata row of the `i`-th export. */
  function MetaOf(data: Export, i: nat, directory: string): MetaRow
  {
    var chatType := DetectChatType(data.kind);
    MetaRow(data.id, data.name, chatType, PathJoin(directory, OutputName(i, chatType)))
  }

  /** The metadata rows of all exports, in order. */
  function Metas(exports: seq<Export>, directory: string): (r: seq<MetaRow>)
    ensures |r| == |exports|
  {
    seq(|exports|, i requires 0 <= i < |exports| => MetaOf(exports[i], i, directory))
  }

  /** Every export's table, in order; the first export that fails aborts the whole run. */
  function ConvertAll<E, M>(exports: seq<E>, convert: E -> Result<M, string>): Result<seq<M>, string>
    decreases |exports|
  {
    if exports == [] then Ok([])
    else
      var n := |exports| - 1;
      var prev := ConvertAll(exports[..n], convert);
      if prev.Err? then prev
      else
        var media := convert(exports[n]);
        if media.Err? then Err(media.error) else Ok(prev.value + [media.value])
  }

  /** The outcome of `parse_all_media`: the metadata rows and the tables, or the first error. */
  function ParseAll(exports: seq<Export>, directory: string, convert: Export -> Result<ParsedMedia, string>)
    : (r: Result<(seq<MetaRow>, seq<ParsedMedia>), string>)
    ensures r.Ok? <==> ConvertAll(exports, convert).Ok?
  {
    var tables := ConvertAll(exports, convert);
    if tables.Err? then Err(tables.error) else Ok((Metas(exports, directory), tables.value))
  }

  /** The branch on the chat type inside `parse_all_media`'s loop. */
  method ConvertExport(data: Export, cleanText: string -> string, extractLinks: string -> seq<string>)
    returns (r: Result<ParsedMedia, string>)
    ensures r == ParseMedia(data, cleanText, extractLinks)
  {
    var chatType := DetectChatType(data.kind);
    if chatType == "channel" {
      var rows := ChannelToRows(data, cleanText, extractLinks);
      r := if rows.Err? then Err(rows.error) else Ok(ChannelTable(rows.value));
    } else if chatType == "group" {
      var rows := GroupToRows(data, cleanText, extractLinks);
      r := if rows.Err? then Err(rows.error) else Ok(GroupTable(rows.value));
    } else {
      r := Err(UnknownChatTypeMessage);
    }
  }

  /**
   * The loop of `parse_all_media`, for any conversion and any metadata
   * row: it stops at the first export that fails, and otherwise records one
   * metadata row and one table per export, in order.
   */
  method CollectAll<E, R, M>(exports: seq<E>, meta: (E, nat) -> R, convert: E -> Result<M, string>)
    returns (r: Result<(seq<R>, seq<M>), string>)
    ensures r.Err? <==> ConvertAll(exports, convert).Err?
    ensures r.Err? ==> r.error == ConvertAll(exports, convert).error
    ensures r.Ok? ==> r.value.1 == ConvertAll(exports, convert).value
    ensures r.Ok? ==> |r.value.0| == |exports| && forall j :: 0 <= j < |exports| ==> r.value.0[j] == meta(exports[j], j)
  {
    var metaData: seq<R> := [];
    var tables: seq<M> := [];
    var i := 0;
    while i < |exports|
      invariant 0 <= i <= |exports|
      invariant ConvertAll(exports[..i], convert) == Ok(tables)
      invariant |metaData| == i && forall j :: 0 <= j < i ==> metaData[j] == meta(exports[j], j)
    {
      ConvertAllStep(exports, i, convert);
      var data := exports[i];
      var media := convert(data);
      if media.Err? {
        r := Err(media.error);
        ConvertAllErrStays(exports, i + 1, convert);
        return;
      }
      metaData := metaData + [meta(data, i)];
      tables := tables + [media.value];
      i := i + 1;
    }
    assert exports[..i] == exports;
    r := Ok((metaData, tables));
  }

  /** The metadata row of each export, as a function of the export and its index. */
  function MetaFn(directory: string): (Export, nat) -> MetaRow
  {
    (data: Export, i: nat) => MetaOf(data, i, directory)
  }

  /** `parse_all_media`: convert each export, and record its metadata row. */
  method ParseAllMedia(exports: seq<Export>, directory: string, cleanText: string -> string, extractLinks: string -> seq<string>)
    returns (r: Result<(seq<MetaRow>, seq<ParsedMedia>), string>)
    ensures r == ParseAll(exports, directory, ParseMediaFn(cleanText, extractLinks))
  {
    r := CollectAll(exports, MetaFn(directory), ParseMediaFn(cleanText, extractLinks));
    if r.Ok? {
      assert r.value.0 == Metas(exports, directory);
    }
  }

  /** The run over one more export. */
  lemma ConvertAllStep<E, M>(exports: seq<E>, i: nat, convert: E -> Result<M, string>)
    requires i < |exports|
    ensures ConvertAll(exports[..i + 1], convert) ==
      if ConvertAll(exports[..i], convert).Err? then ConvertAll(exports[..i], convert)
      else if convert(exports[i]).Err? then Err(convert(exports[i]).error)
      else Ok(ConvertAll(exports[..i], convert).value + [convert(exports[i]).value])
  {
    assert exports[..i + 1][..i] == exports[..i];
  }

  lemma {:induction false} ConvertAllErrStays<E, M>(exports: seq<E>, k: nat, convert: E -> Result<M, string>)
    requires k <= |exports| && ConvertAll(exports[..k], convert).Err?
    ensures ConvertAll(exports, convert) == ConvertAll(exports[..k], convert)
    decreases |exports| - k
  {
    if k < |exports| {
      ConvertAllStep(exports, k, convert);
      ConvertAllErrStays(exports, k + 1, convert);
    } else {
      assert exports[..k] == exports;
    }
  }

  /**
   * The tables of a run: it succeeds exactly when every export converts,
   * and then holds one table per export, in order.
   */
  lemma {:induction false} ConvertAllTables<E, M>(exports: seq<E>, convert: E -> Result<M, string>)
    ensures ConvertAll(exports, convert).Ok? <==> forall i :: 0 <= i < |exports| ==> convert(exports[i]).Ok?
    ensures ConvertAll(exports, convert).Ok? ==>
      var tables := ConvertAll(exports, convert).value;
      && |tables| == |exports|
      && forall i :: 0 <= i < |exports| ==> Ok(tables[i]) == convert(exports[i])
    decreases |exports|
  {
    if exports != [] {
      var n := |exports| - 1;
      var front := exports[..n];
      ConvertAllTables(front, convert);
      ConvertAllStep(exports, n, convert);
      assert exports[..n + 1] == exports;
      var prev := ConvertAll(front, convert);
      var all := ConvertAll(exports, convert);
      if all.Ok? {
        forall i | 0 <= i < |exports|
          ensures Ok(all.value[i]) == convert(exports[i])
        {
          if i < n {
            assert front[i] == exports[i];
          }
        }
      } else if prev.Err? {
        var i :| 0 <= i < n && !convert(front[i]).Ok?;
        assert front[i] == exports[i];
      }
    }
  }

  /**
   * What a successful run records: for each export in order, its metadata
   * row, holding its id, its name, its chat type (a channel or a group)
   * and a messages file named `{i+1}c.csv` or `{i+1}g.csv` in the
   * directory; and its table. An export whose type names neither a channel
   * nor a group makes the whole run fail.
   */
  lemma ParseAllMeta(exports: seq<Export>, directory: string, cleanText: string -> string, extractLinks: string -> seq<string>)
    ensures (exists i :: 0 <= i < |exports| && DetectChatType(exports[i].kind) == "unknown")
      ==> ParseAll(exports, directory, ParseMediaFn(cleanText, extractLinks)).Err?
    ensures ParseAll(exports, directory, ParseMediaFn(cleanText, extractLinks)).Ok? ==>
      var r := ParseAll(exports, directory, ParseMediaFn(cleanText, extractLinks)).value;
      && |r.0| == |exports| && |r.1| == |exports|
      && forall i :: 0 <= i < |exports| ==>
        && r.0[i] == MetaRow(exports[i].id, exports[i].name, r.0[i].kind, PathJoin(directory, OutputName(i, r.0[i].kind)))
        && (r.0[i].kind == "channel" || r.0[i].kind == "group")
        && r.0[i].kind == DetectChatType(exports[i].kind)
        && Ok(r.1[i]) == ParseMedia(exports[i], cleanText, extractLinks)
  {
    var convert := ParseMediaFn(cleanText, extractLinks);
    ConvertAllTables(exports, convert);
    if exists i :: 0 <= i < |exports| && DetectChatType(exports[i].kind) == "unknown" {
      var i :| 0 <= i < |exports| && DetectChatType(exports[i].kind) == "unknown";
      assert convert(exports[i]).Err?;
    }
    if ParseAll(exports, directory, convert).Ok? {
      var r := ParseAll(exports, directory, convert).value;
      forall i | 0 <= i < |exports|
        ensures r.0[i].kind == "channel" || r.0[i].kind == "group"
      {
        assert convert(exports[i]).Ok?;
      }
    }
  }

  /** A messages file's name holds `g` exactly when the media is a group. */
  lemma MetaFileMarksGroups(data: Export, i: nat, directory: string)
    requires DetectChatType(data.kind) != "unknown"
    ensures var meta := MetaOf(data, i, directory);
      ('g' in LastSegment(meta.messages)) <==> meta.kind == "group"
  {
    var chatType := DetectChatType(data.kind);
    var name := OutputName(i, chatType);
    var digits := NatToString(i + 1);
    assert 'g' !in digits && '/' !in digits;
    assert name == digits + [chatType[0]] + ".csv";
    PathJoinLastSegment(directory, name);
  }
}

=== FILE: pipeline_utils.dfy ===
/**
 * The group index some pipelines rely on: which metadata rows are group
 * files, the senders of every group (each name with the id of the first
 * message that carries it), and the media counts.
 */
module PipelineUtils {
  import opened Common
  import opened Tables
  import opened MediaParsing

  // ------------------------------------------------------------------
  // telegram_group_files
  // ------------------------------------------------------------------

  /** A metadata row is a group file when the last `/`-segment of its messages path holds a `g`. */
  predicate IsGroupFile(meta: MetaRow)
  {
    'g' in LastSegment(meta.messages)
  }

  /** `(int(id), messages)` for each row, in order. */
  function FileEntries(rows: seq<MetaRow>): (r: seq<(int, string)>)
    ensures |r| == |rows| && forall j :: 0 <= j < |rows| ==> r[j] == (rows[j].id, rows[j].messages)
  {
    seq(|rows|, j requires 0 <= j < |rows| => (rows[j].id, rows[j].messages))
  }

  /** `telegram_group_files`: the entries of the group files, in metadata order. */
  function GroupFiles(catalog: seq<MetaRow>): seq<(int, string)>
  {
    FileEntries(Filter(catalog, IsGroupFile))
  }

  /** The module-level loop that fills `telegram_group_files`. */
  method SelectGroupFiles(catalog: seq<MetaRow>) returns (files: seq<(int, string)>)
    ensures files == GroupFiles(catalog)
  {
    files := [];
    var i := 0;
    while i < |catalog|
      invariant 0 <= i <= |catalog|
      invariant files == GroupFiles(catalog[..i])
    {
      var messagesFile := catalog[i].messages;
      var mediaIdx := catalog[i].id;
      GroupFilesStep(catalog, i);
      if 'g' in LastSegment(messagesFile) {
        files := files + [(mediaIdx, messagesFile)];
      }
      i := i + 1;
    }
    assert catalog[..i] == catalog;
  }

  lemma GroupFilesStep(catalog: seq<MetaRow>, i: nat)
    requires i < |catalog|
    ensures GroupFiles(catalog[..i + 1]) == GroupFiles(catalog[..i])
      + (if IsGroupFile(catalog[i]) then [(catalog[i].id, catalog[i].messages)] else [])
  {
    var front, last := catalog[..i], [catalog[i]];
    assert catalog[..i + 1] == front + last;
    FilterAppend(front, last, IsGroupFile);
    assert last[1..] == [];
    var a, b := Filter(front, IsGroupFile), Filter(last, IsGroupFile);
    assert FileEntries(a + b) == FileEntries(a) + FileEntries(b);
  }

  /**
   * `telegram_group_files` holds, in metadata order, the id and messages
   * path of exactly the group files: `idx` names the metadata row behind
   * each entry.
   */
  lemma GroupFilesExactly(catalog: seq<MetaRow>) returns (idx: seq<nat>)
    ensures |idx| == |GroupFiles(catalog)|
    ensures forall j :: 0 <= j < |idx| ==>
      && idx[j] < |catalog|
      && IsGroupFile(catalog[idx[j]])
      && GroupFiles(catalog)[j] == (catalog[idx[j]].id, catalog[idx[j]].messages)
    ensures Increasing(idx)
    ensures forall i :: 0 <= i < |catalog| && IsGroupFile(catalog[i]) ==> i in idx
  {
    idx := FilterPositions(catalog, IsGroupFile);
  }

  /** A metadata row whose type is `group`. */
  predicate IsGroupRow(meta: MetaRow)
  {
    meta.kind == "group"
  }

  /**
   * On the metadata `parse_all_media` writes, the file-name test picks out
   * exactly the rows of type `group`: every file is named `{i+1}c.csv` or
   * `{i+1}g.csv`.
   */
  lemma ParsedGroupFiles(exports: seq<Export>, directory: string, cleanText: string -> string, extractLinks: string -> seq<string>)
    requires ParseAll(exports, directory, ParseMediaFn(cleanText, extractLinks)).Ok?
    ensures var catalog := ParseAll(exports, directory, ParseMediaFn(cleanText, extractLinks)).value.0;
      GroupFiles(catalog) == FileEntries(Filter(catalog, IsGroupRow))
  {
    var catalog := ParseAll(exports, directory, ParseMediaFn(cleanText, extractLinks)).value.0;
    ParseAllMeta(exports, directory, cleanText, extractLinks);
    forall i | 0 <= i < |catalog|
      ensures IsGroupFile(catalog[i]) == IsGroupRow(catalog[i])
    {
      assert catalog[i] == MetaOf(exports[i], i, directory);
      MetaFileMarksGroups(exports[i], i, directory);
    }
    FilterSame(catalog, IsGroupFile, IsGroupRow);
  }

  // ------------------------------------------------------------------
  // extract_users_from_groups
  // ------------------------------------------------------------------

  /** The senders of one group: `sender_name` to `sender_id`, `None` standing for an empty cell. */
  type Members = map<Option<string>, Option<string>>

  /** `row['sender_name']` on a table without that column: the `KeyError`. */
  const MissingSenderNameColumn := "sender_name"

  /** The senders after reading `rows` in order: a name keeps the id of the first row that carries it. */
  function FirstSenders(rows: seq<Row>): Members
    decreases |rows|
  {
    if rows == [] then map[]
    else
      var n := |rows| - 1;
      var m := FirstSenders(rows[..n]);
      if rows[n].senderName in m then m else m[rows[n].senderName := rows[n].senderId]
  }

  /** The names in a group's dictionary are exactly the `sender_name` values of its rows. */
  lemma {:induction false} FirstSendersKeys(rows: seq<Row>)
    ensures forall i :: 0 <= i < |rows| ==> rows[i].senderName in FirstSenders(rows)
    ensures forall name :: name in FirstSenders(rows) ==> exists i :: 0 <= i < |rows| && rows[i].senderName == name
    decreases |rows|
  {
    if rows != [] {
      var n := |rows| - 1;
      var front := rows[..n];
      FirstSendersKeys(front);
      assert forall i :: 0 <= i < n ==> front[i] == rows[i];
    }
  }

  /**
   * Each name is mapped to the `sender_id` of the first row carrying it;
   * a later row with the same name never overwrites it.
   */
  lemma {:induction false} FirstSendersFirst(rows: seq<Row>, i: nat)
    requires i < |rows|
    requires forall j :: 0 <= j < i ==> rows[j].senderName != rows[i].senderName
    ensures rows[i].senderName in FirstSenders(rows)
    ensures FirstSenders(rows)[rows[i].senderName] == rows[i].senderId
    decreases |rows|
  {
    var n := |rows| - 1;
    var front := rows[..n];
    var name := rows[i].senderName;
    if i < n {
      assert front[i] == rows[i];
      assert forall j :: 0 <= j < i ==> front[j] == rows[j];
      FirstSendersFirst(front, i);
    } else {
      FirstSendersKeys(front);
    }
  }

  /** Reading more rows keeps every name already seen, with its id. */
  lemma {:induction false} FirstSendersKeep(rows: seq<Row>, k: nat)
    requires k <= |rows|
    ensures forall name :: name in FirstSenders(rows[..k]) ==>
      name in FirstSenders(rows) && FirstSenders(rows)[name] == FirstSenders(rows[..k])[name]
    decreases |rows|
  {
    if k < |rows| {
      var n := |rows| - 1;
      assert rows[..n][..k] == rows[..k];
      FirstSendersKeep(rows[..n], k);
    } else {
      assert rows[..k] == rows;
    }
  }

  /** One group's dictionary: `KeyError` when its table has rows but no sender columns (a channel's table). */
  function TableMembers(t: Table): (r: Result<Members, string>)
    ensures r.Err? <==> !t.hasSenderColumns && |t.rows| > 0
    ensures r.Err? ==> r.error == MissingSenderNameColumn
    ensures r.Ok? ==> r.value == FirstSenders(t.rows)
  {
    if !t.hasSenderColumns && |t.rows| > 0 then Err(MissingSenderNameColumn) else Ok(FirstSenders(t.rows))
  }

  /**
   * `extract_users_from_groups`: for each group file in turn, a fresh
   * dictionary under its id, filled from the table of the first metadata
   * row with that id; the first error stops the run.
   */
  function GroupMembers(files: seq<(int, string)>, catalog: seq<MetaRow>, readTable: string -> Table)
    : Result<map<int, Members>, string>
    decreases |files|
  {
    if files == [] then Ok(map[])
    else
      var n := |files| - 1;
      var prev := GroupMembers(files[..n], catalog, readTable);
      if prev.Err? then prev
      else
        var code := files[n].0;
        var t := MediaTable(catalog, readTable, code);
        if t.Err? then Err(t.error)
        else
          var members := TableMembers(t.value);
          if members.Err? then Err(members.error) else Ok(prev.value[code := members.value])
  }

  /**
   * The inner loop of `extract_users_from_groups`: a fresh dictionary under
   * `code`, then each row's name added with its id unless already there.
   */
  method AddGroup(groupsMembers: map<int, Members>, code: int, table: Table) returns (r: Result<map<int, Members>, string>)
    ensures r.Err? <==> TableMembers(table).Err?
    ensures r.Err? ==> r.error == TableMembers(table).error
    ensures r.Ok? ==> r.value == groupsMembers[code := TableMembers(table).value]
  {
    var groups := groupsMembers[code := map[]];
    var rows := table.rows;
    var i := 0;
    while i < |rows|
      invariant 0 <= i <= |rows|
      invariant groups == groupsMembers[code := FirstSenders(rows[..i])]
      invariant i > 0 ==> table.hasSenderColumns
    {
      if !table.hasSenderColumns {
        return Err(MissingSenderNameColumn);
      }
      var userId, userName := rows[i].senderName, rows[i].senderId;
      assert rows[..i + 1][..i] == rows[..i] && rows[..i + 1][i] == rows[i];
      if userId !in groups[code] {
        groups := groups[code := groups[code][userId := userName]];
      }
      i := i + 1;
    }
    assert rows[..i] == rows;
    r := Ok(groups);
  }

  /** `extract_users_from_groups`, filling the nested dictionary group by group; the pickle dump is left out. */
  method ExtractUsersFromGroups(files: seq<(int, string)>, catalog: seq<MetaRow>, readTable: string -> Table)
    returns (r: Result<map<int, Members>, string>)
    ensures r == GroupMembers(files, catalog, readTable)
  {
    var groupsMembers: map<int, Members> := map[];
    var g := 0;
    while g < |files|
      invariant 0 <= g <= |files|
      invariant GroupMembers(files[..g], catalog, readTable) == Ok(groupsMembers)
    {
      GroupMembersStep(files, g, catalog, readTable);
      var mediaIdx := files[g].0;
      var table := MediaTable(catalog, readTable, mediaIdx);
      if table.Err? {
        r := Err(table.error);
        GroupMembersErrStays(files, g + 1, catalog, readTable);
        return;
      }
      var next := AddGroup(groupsMembers, mediaIdx, table.value);
      if next.Err? {
        r := next;
        GroupMembersErrStays(files, g + 1, catalog, readTable);
        return;
      }
      groupsMembers := next.value;
      g := g + 1;
    }
    assert files[..g] == files;
    r := Ok(groupsMembers);
  }

  lemma GroupMembersStep(files: seq<(int, string)>, g: nat, catalog: seq<MetaRow>, readTable: string -> Table)
    requires g < |files|
    ensures var prev := GroupMembers(files[..g], catalog, readTable);
      var t := MediaTable(catalog, readTable, files[g].0);
      GroupMembers(files[..g + 1], catalog, readTable) ==
        if prev.Err? then prev
        else if t.Err? then Err(t.error)
        else if TableMembers(t.value).Err? then Err(TableMembers(t.value).error)
        else Ok(prev.value[files[g].0 := TableMembers(t.value).value])
  {
    assert files[..g + 1][..g] == files[..g];
  }

  lemma {:induction false} GroupMembersErrStays(files: seq<(int, string)>, k: nat, catalog: seq<MetaRow>, readTable: string -> Table)
    requires k <= |files| && GroupMembers(files[..k], catalog, readTable).Err?
    ensures GroupMembers(files, catalog, readTable) == GroupMembers(files[..k], catalog, readTable)
    decreases |files| - k
  {
    if k < |files| {
      GroupMembersStep(files, k, catalog, readTable);
      GroupMembersErrStays(files, k + 1, catalog, readTable);
    } else {
      assert files[..k] == files;
    }
  }

  /** Whether one group file's dictionary can be built. */
  predicate MembersReadable(catalog: seq<MetaRow>, readTable: string -> Table, code: int)
  {
    var t := MediaTable(catalog, readTable, code);
    t.Ok? && TableMembers(t.value).Ok?
  }

  /** The run succeeds exactly when every group file's dictionary can be built. */
  lemma {:induction false} GroupMembersOk(files: seq<(int, string)>, catalog: seq<MetaRow>, readTable: string -> Table)
    ensures GroupMembers(files, catalog, readTable).Ok? <==>
      forall j :: 0 <= j < |files| ==> MembersReadable(catalog, readTable, files[j].0)
    decreases |files|
  {
    if files != [] {
      var n := |files| - 1;
      var front := files[..n];
      GroupMembersOk(front, catalog, readTable);
      assert files[..n + 1] == files;
      GroupMembersStep(files, n, catalog, readTable);
      assert forall j :: 0 <= j < n ==> front[j] == files[j];
      if GroupMembers(front, catalog, readTable).Err? {
        var j :| 0 <= j < n && !MembersReadable(catalog, readTable, front[j].0);
        assert files[j] == front[j];
      }
    }
  }

  /**
   * After a successful run every listed id, even one whose table has no
   * rows, has an entry, no other id has one, and each entry holds the
   * senders of the table of the first metadata row with that id.
   */
  lemma {:induction false} GroupMembersEntries(files: seq<(int, string)>, catalog: seq<MetaRow>, readTable: string -> Table)
    requires GroupMembers(files, catalog, readTable).Ok?
    ensures var groups := GroupMembers(files, catalog, readTable).value;
      && groups.Keys == (set j | 0 <= j < |files| :: files[j].0)
      && forall code :: code in groups ==>
        && Lookup(catalog, code).Some?
        && groups[code] == FirstSenders(readTable(Lookup(catalog, code).value.messages).rows)
    decreases |files|
  {
    if files != [] {
      var n := |files| - 1;
      var front := files[..n];
      assert files[..n + 1] == files;
      GroupMembersStep(files, n, catalog, readTable);
      GroupMembersEntries(front, catalog, readTable);
      assert (set j | 0 <= j < |files| :: files[j].0) == (set j | 0 <= j < n :: front[j].0) + {files[n].0};
    }
  }

  /** Every id in `telegram_group_files` is found in the metadata, so the lookup never fails. */
  lemma GroupFilesFound(catalog: seq<MetaRow>)
    ensures forall j :: 0 <= j < |GroupFiles(catalog)| ==> Lookup(catalog, GroupFiles(catalog)[j].0).Some?
  {
    var idx := GroupFilesExactly(catalog);
    forall j | 0 <= j < |GroupFiles(catalog)|
      ensures Lookup(catalog, GroupFiles(catalog)[j].0).Some?
    {
      assert catalog[idx[j]].id == GroupFiles(catalog)[j].0;
    }
  }

  // ------------------------------------------------------------------
  // get_basic_stat_info
  // ------------------------------------------------------------------

  datatype StatInfo = StatInfo(media: nat, groups: nat, channels: nat)

  predicate IsNotGroupRow(meta: MetaRow)
  {
    meta.kind != "group"
  }

  /**
   * `get_basic_stat_info`: the number of media, of rows whose type is
   * `group`, and the rest counted as channels, whatever their type says.
   */
  function BasicStatInfo(catalog: seq<MetaRow>): (r: StatInfo)
    ensures r.media == |catalog|
    ensures r.groups == |Filter(catalog, IsGroupRow)|
    ensures r.channels == |Filter(catalog, IsNotGroupRow)|
    ensures r.groups + r.channels == r.media
  {
    FilterComplement(catalog, IsGroupRow, IsNotGroupRow);
    var total := |catalog|;
    var groups := |Filter(catalog, IsGroupRow)|;
    StatInfo(total, groups, total - groups)
  }

  /** A media's type as `parse_all_media` writes it. */
  predicate IsChannelRow(meta: MetaRow)
  {
    meta.kind == "channel"
  }

  /** On the metadata `parse_all_media` writes, the channels counted are exactly the rows of type `channel`. */
  lemma ParsedStatInfo(exports: seq<Export>, directory: string, cleanText: string -> string, extractLinks: string -> seq<string>)
    requires ParseAll(exports, directory, ParseMediaFn(cleanText, extractLinks)).Ok?
    ensures var catalog := ParseAll(exports, directory, ParseMediaFn(cleanText, extractLinks)).value.0;
      BasicStatInfo(catalog).channels == |Filter(catalog, IsChannelRow)|
  {
    var catalog := ParseAll(exports, directory, ParseMediaFn(cleanText, extractLinks)).value.0;
    ParseAllMeta(exports, directory, cleanText, extractLinks);
    FilterSame(catalog, IsNotGroupRow, IsChannelRow);
  }
}

=== FILE: pipelines.dfy ===
/**
 * The analysis pipelines: each selects messages of one or more media,
 * packs them into prompts, asks the model about each prompt and reduces
 * the partial answers with one more call. The model is the parameter
 * `llm`; reading a messages file is the parameter `readTable`.
 *
 * Every prompt is a head, a numbered list and a closing instruction; the
 * fixed texts are written in short pieces.
 */
module Pipelines {
  import opened Common
  import opened TextUtils
  import opened Dates
  import opened Tables
  import opened DateFilter
  import opened Prompts
  import opened Relevance

  /** The bounds used when none is given: 1 January 2000 and 1 January 2030. */
  const DefaultStart := "01/01/00"
  const DefaultEnd := "01/01/30"

  function OrDefault(s: Option<string>, default: string): string
  {
    if s.Some? then s.value else default
  }

  /** `filter_dataframe_by_date` on a whole table: its rows filtered, its columns kept. */
  function FilteredTable(t: Table, start: string, end: string, currentYear: int): (r: Result<Table, string>)
    ensures r.Ok? <==> FilterByDate(t.rows, start, end, currentYear).Ok?
    ensures r.Err? ==> r.error == FilterByDate(t.rows, start, end, currentYear).error
    ensures r.Ok? ==> r.value == Table(t.hasSenderColumns, FilterByDate(t.rows, start, end, currentYear).value)
  {
    var rows := FilterByDate(t.rows, start, end, currentYear);
    if rows.Err? then Err(rows.error) else Ok(Table(t.hasSenderColumns, rows.value))
  }

  /** A media's table restricted to the bounds; both errors surface unchanged. */
  function MediaInRange(catalog: seq<MetaRow>, readTable: string -> Table, code: int, start: string, end: string, currentYear: int)
    : (r: Result<Table, string>)
    ensures Lookup(catalog, code).None? ==> r == Err(MissingCodeMessage)
    ensures r.Ok? <==> Lookup(catalog, code).Some? && ParseDate(start, currentYear).Some? && ParseDate(end, currentYear).Some?
    ensures r.Ok? ==> r.value == FilteredTable(readTable(Lookup(catalog, code).value.messages), start, end, currentYear).value
  {
    var t := MediaTable(catalog, readTable, code);
    if t.Err? then Err(t.error) else FilteredTable(t.value, start, end, currentYear)
  }

  /** Every row of a media restricted to readable bounds has a date within them. */
  lemma MediaInRangeRows(catalog: seq<MetaRow>, readTable: string -> Table, code: int, start: string, end: string, currentYear: int)
    requires MediaInRange(catalog, readTable, code, start, end, currentYear).Ok?
    ensures var rows := MediaInRange(catalog, readTable, code, start, end, currentYear).value.rows;
      forall j :: 0 <= j < |rows| ==>
        InRange(rows[j], ParseDate(start, currentYear).value, ParseDate(end, currentYear).value)
  {
  }

  // ------------------------------------------------------------------
  // SpecificMediaAnalysis
  // ------------------------------------------------------------------

  function RowFormat(): string
  {
    "The format of input in each row is like this:\n"
    + "Message : message_id--message_text--"
    + "reactions_to_message\n"
  }

  function ChannelFormat(): string
  {
    "Each row is a message sent to this channel. " + RowFormat()
  }

  function GroupFormat(): string
  {
    "Each row is a message sent to this group. " + RowFormat()
  }

  function SpecificFooter(): string
  {
    "**Please perform the request analysis "
    + "in maximum 500 words in one Persian "
    + "language paragraph**.\n"
  }

  function SpecificIntro(mediaType: string): string
  {
    "I want you to perform a telegram "
    + "analysis based on an input prompt. "
    + "Below is first the input prompt and "
    + "then the messages sent to that media. "
    + "The media is infact a telegram "
    + mediaType
    + ". The messages might be a chunk of "
    + "all messages .I truncated to prevent "
    + "a long input."
  }

  /**
   * One message's line, `Message : id--text--reactions` with the text's
   * newlines removed; rows without text or with fewer than 20 Persian
   * letters have none.
   */
  function SpecificLine(row: Row): Option<string>
  {
    if row.cleanedText.None? || PersianLetterCount(row.cleanedText.value) < 20 then None
    else Some("Message : " + IntToString(row.messageId) + "--" + RemoveAll(row.cleanedText.value, "\n") + "--"
              + Show(row.reactions) + "\n")
  }

  function SpecificLineFn(): (nat, Row) -> Option<string>
  {
    (i, row) => SpecificLine(row)
  }

  /** A message's line holds exactly one newline, at its end, when its reactions hold none. */
  lemma SpecificLineIsOneLine(row: Row)
    requires row.reactions.Some? ==> '\n' !in row.reactions.value
    ensures SpecificLine(row).Some? <==> row.cleanedText.Some? && PersianLetterCount(row.cleanedText.value) >= 20
    ensures SpecificLine(row).Some? ==>
      var l := SpecificLine(row).value;
      && "Message : " <= l
      && l[|l| - 1] == '\n'
      && forall k :: 0 <= k < |l| - 1 ==> l[k] != '\n'
  {
    if SpecificLine(row).Some? {
      var text := RemoveAll(row.cleanedText.value, "\n");
      RemoveAllChar(row.cleanedText.value, '\n');
      var id := IntToString(row.messageId);
      assert '\n' !in id by {
        forall k | 0 <= k < |id|
          ensures id[k] != '\n'
        {
        }
      }
      var body := "Message : " + id + "--" + text + "--" + Show(row.reactions);
      assert '\n' !in body;
      assert SpecificLine(row).value == body + "\n";
    }
  }

  function SpecificClose(): string
  {
    "**Please conclude these partial "
    + "analysis into a final and complete one "
    + "and write a paragraph of maximum 800 "
    + "words in Persian.**"
  }

  datatype SpecificMediaAnalysis = SpecificMediaAnalysis(prompt: string, mediaType: string, content: Table)
  {
    /**
     * The chunk header. The conditional binds looser than `+`, so only a
     * channel keeps the introduction; a group's chunk starts at its format.
     */
    function Header(): string
    {
      (if mediaType == "channel" then SpecificIntro(mediaType) + ChannelFormat() else GroupFormat())
      + "\n\n**User prompt : " + prompt + " **\n\nMessages:\n"
    }

    /** The chunks `run` builds: sealed at 200 000 characters or more, each closed by the footer. */
    function Chunks(): seq<string>
    {
      Prompts.Chunks(Header(), content.rows, SpecificLineFn(), false, "\n\n" + SpecificFooter())
    }

    /** The reduce prompt up to the answers; `tableRepr` is how the table renders in an f-string. */
    function FinalHead(tableRepr: string): string
    {
      "I want to perform an analysis on a "
      + "telegram " + tableRepr
      + ". Below is first the required analysis "
      + "and then the partial analysis.\n\n"
      + "** User required analysis : " + prompt
      + " **\n\n And below are the partial "
      + "analysis which have benn already "
      + "performed on various data of this "
      + "media.\n\nPartial analysis:\n"
    }

    /** The reduce prompt: the answers numbered `1) …`, each followed by a blank line. */
    function FinalPrompt(tableRepr: string, responses: seq<string>): string
    {
      FinalHead(tableRepr) + Enumerate("", ") ", "\n\n", responses) + SpecificClose()
    }

    /** `run`: chunk, keep at most five chunks, ask the model on each, then reduce. */
    method Run(llm: string -> string, tableRepr: string) returns (output: string, ghost selected: seq<string>)
      ensures ChunkSelection(selected, Chunks())
      ensures output == llm(FinalPrompt(tableRepr, Responses(llm, selected)))
    {
      var chunks := BuildChunks(Header(), content.rows, SpecificLineFn(), false, "\n\n" + SpecificFooter());
      var sent := SelectChunks(chunks);
      var finalPrompt := AskAndNumber(llm, sent, FinalHead(tableRepr), "", ") ", "\n\n");
      output := llm(finalPrompt + SpecificClose());
      selected := sent;
    }
  }

  /** `selected_chunks`: every chunk when there are at most five, else a sample of five. */
  method SelectChunks(chunks: seq<string>) returns (selected: seq<string>)
    ensures ChunkSelection(selected, chunks)
  {
    selected := chunks;
    if |chunks| > 5 {
      var idx;
      selected, idx := Sample(chunks, 5);
    }
  }

  /** `selected_chunks`: all chunks when there are at most five, otherwise five of them drawn without replacement. */
  predicate ChunkSelection(selected: seq<string>, chunks: seq<string>)
  {
    if |chunks| > 5 then |selected| == 5 && multiset(selected) <= multiset(chunks) else selected == chunks
  }

  /** `SpecificMediaAnalysis(prompt, media_idx, start_date, end_date)`: missing bounds default to 2000 and 2030. */
  function NewSpecificMediaAnalysis(prompt: string, mediaIdx: int, start: Option<string>, end: Option<string>,
                                    catalog: seq<MetaRow>, readTable: string -> Table, currentYear: int)
    : (r: Result<SpecificMediaAnalysis, string>)
    ensures var t := MediaInRange(catalog, readTable, mediaIdx, OrDefault(start, DefaultStart), OrDefault(end, DefaultEnd), currentYear);
      && (t.Err? ==> r == Err(t.error))
      && (t.Ok? ==> r == Ok(SpecificMediaAnalysis(prompt, Lookup(catalog, mediaIdx).value.kind, t.value)))
  {
    var t := MediaInRange(catalog, readTable, mediaIdx, OrDefault(start, DefaultStart), OrDefault(end, DefaultEnd), currentYear);
    if t.Err? then Err(t.error) else Ok(SpecificMediaAnalysis(prompt, Lookup(catalog, mediaIdx).value.kind, t.value))
  }

  /** A text that starts with `a` starts with no `b` whose first character differs from `a`'s. */
  lemma FirstCharsDiffer(a: string, b: string, h: string)
    requires a <= h && a != [] && b != [] && a[0] != b[0]
    ensures !(b <= h)
  {
  }

  /** A channel's chunks start with the introduction and the channel format. */
  lemma ChannelHeaderKeepsIntro(a: SpecificMediaAnalysis)
    requires a.mediaType == "channel"
    ensures SpecificIntro("channel") + ChannelFormat() <= a.Header()
  {
    PrefixOfChain(SpecificIntro(a.mediaType) + ChannelFormat(), "\n\n**User prompt : ", a.prompt, " **\n\nMessages:\n");
  }

  /** Any other media's chunks start with the group format and never with the introduction. */
  lemma GroupHeaderLosesIntro(a: SpecificMediaAnalysis)
    requires a.mediaType != "channel"
    ensures GroupFormat() <= a.Header()
    ensures !(SpecificIntro(a.mediaType) <= a.Header())
  {
    PrefixOfChain(GroupFormat(), "\n\n**User prompt : ", a.prompt, " **\n\nMessages:\n");
    FirstCharsDiffer(GroupFormat(), SpecificIntro(a.mediaType), a.Header());
  }

  /**
   * Every message line that qualifies reaches a chunk or the open chunk,
   * once and in order; only the open chunk's lines are never sent.
   */
  lemma SpecificLinesConserved(a: SpecificMediaAnalysis)
    ensures var p := Pack(a.Header(), [], Items(a.content.rows, SpecificLineFn()), false);
      Flatten(p.0) + p.1 == Present(Items(a.content.rows, SpecificLineFn()))
  {
    PackConserves(a.Header(), [], Items(a.content.rows, SpecificLineFn()), false);
  }

  /** A media whose qualifying lines fit in one chunk yields no chunk at all: its messages are never sent. */
  lemma SmallMediaSendsNothing(a: SpecificMediaAnalysis)
    requires |a.Header()| + |Concat(Present(Items(a.content.rows, SpecificLineFn())))| < ChunkLimit
    ensures a.Chunks() == []
  {
    ChunksSmallInput(a.Header(), a.content.rows, SpecificLineFn(), "\n\n" + SpecificFooter());
  }

  // ------------------------------------------------------------------
  // TopicOriented
  // ------------------------------------------------------------------

  /** The prompt of `_build_keywords_from_prompt`. */
  function KeywordPrompt(prompt: string): string
  {
    "I want to perform an analysis on "
    + "telegram media. Please tell me the 5 "
    + "best keywords to match the user prompt "
    + "for keyword search inside the "
    + "documents.\n\n**User prompt : "
    + prompt
    + "**\n\nThe output format must be like:\n"
    + "kw_1,kw_2,kw_3,kw_4,kw_5\n\n"
    + "Do not output any extra text. Just 5 "
    + "Persian keywords for this prompt to "
    + "search for."
  }

  /** `_build_keywords_from_prompt`: the model's answer split on commas. */
  function BuildKeywords(llm: string -> string, prompt: string): (r: seq<string>)
    ensures |r| >= 1
  {
    Split(llm(KeywordPrompt(prompt)), ',')
  }

  /** An answer in the requested `kw_1,...,kw_5` form gives back exactly those keywords. */
  lemma BuildKeywordsRoundTrip(llm: string -> string, prompt: string, keywords: seq<string>)
    requires keywords != [] && forall k :: k in keywords ==> ',' !in k
    requires llm(KeywordPrompt(prompt)) == Join(keywords, ",")
    ensures BuildKeywords(llm, prompt) == keywords
  {
    SplitJoin(keywords, ',');
  }

  /** `data[len(data)-1:0:-1]`: the retrieved texts worst first, without the first (best) one. */
  function WorstFirst(data: seq<string>): (r: seq<string>)
    ensures |r| == if data == [] then 0 else |data| - 1
    ensures forall k :: 0 <= k < |r| ==> r[k] == data[|data| - 1 - k]
  {
    if data == [] then [] else Reverse(data[1..])
  }

  /** The slice never shows the best match, and the worst match comes first. */
  lemma BestMatchLeftOut(data: seq<string>)
    requires |data| >= 2 && data[0] !in data[1..]
    ensures data[0] !in WorstFirst(data)
    ensures WorstFirst(data)[0] == data[|data| - 1]
  {
    var r := WorstFirst(data);
    forall k | 0 <= k < |r|
      ensures r[k] != data[0]
    {
      assert r[k] == data[1..][|data| - 2 - k];
    }
  }

  function TopicHeader(name: string, prompt: string): string
  {
    "I want you to perform an anlysis on a "
    + "telegram media called: " + name
    + " based on a user input prompt and some "
    + "selected content/messages sent to this "
    + "media.\n\n**User prompt: " + prompt
    + "**\n\nMessages:\n"
  }

  function TopicDirective(): string
  {
    "\n**Please perform the requested "
    + "analysis in one Persian paragraph in "
    + "maximum 1000 words.**"
  }

  /** How many of the texts one media's prompt takes: it stops right after passing 200 000 characters. */
  function TopicTaken(name: string, prompt: string, data: seq<string>): (k: nat)
    ensures k <= |WorstFirst(data)|
  {
    StopAt(TopicHeader(name, prompt), "", ") ", "\n", WorstFirst(data), 0)
  }

  /** One media's prompt: its retrieved texts numbered worst first, as many as `TopicTaken` allows. */
  function MediaPrompt(name: string, prompt: string, data: seq<string>): string
  {
    TopicHeader(name, prompt) + Enumerate("", ") ", "\n", WorstFirst(data)[..TopicTaken(name, prompt, data)]) + TopicDirective()
  }

  function TopicFinalHead(prompt: string): string
  {
    "I want you to conclude a requested "
    + "analysis based on a user prompt. Below "
    + "is first the user prompt (requested "
    + "analysis) and then the partial "
    + "analysis . Each partial analysis is "
    + "the result of the analysis of the same "
    + "prompt, but for a specifc media. I "
    + "want you to conclude all these "
    + "analysis and produce the final "
    + "response to the prompt based on these "
    + "partial analysis.\n\n**User prompt: "
    + prompt
    + "**\n\nPartial anlysis:\n"
  }

  function TopicClose(): string
  {
    "\nPlease write a paragraph in Persian "
    + "language with maximum 1500 words."
  }

  function TopicFinalPrompt(prompt: string, responses: seq<string>): string
  {
    TopicFinalHead(prompt) + Enumerate("", ") ", "\n", responses) + TopicClose()
  }

  /** One media of a topic analysis: its name and its rows within the bounds. */
  function MediaEntry(code: int, start: string, end: string, catalog: seq<MetaRow>, readTable: string -> Table, currentYear: int)
    : (r: Result<(string, Table), string>)
    ensures var t := MediaInRange(catalog, readTable, code, start, end, currentYear);
      && (t.Err? ==> r == Err(t.error))
      && (t.Ok? ==> r == Ok((Lookup(catalog, code).value.name, t.value)))
  {
    var t := MediaInRange(catalog, readTable, code, start, end, currentYear);
    if t.Err? then Err(t.error) else Ok((Lookup(catalog, code).value.name, t.value))
  }

  /** `MediaEntry` for fixed bounds, catalog and reader, as a function of the code. */
  function EntryOf(start: string, end: string, catalog: seq<MetaRow>, readTable: string -> Table, currentYear: int)
    : int -> Result<(string, Table), string>
  {
    code => MediaEntry(code, start, end, catalog, readTable, currentYear)
  }

  /**
   * `media_contents`, built code by code: the dictionary and its key order
   * (first insertion); the first code whose entry fails aborts the construction.
   */
  function TopicContents<V>(codes: seq<int>, entry: int -> Result<V, string>): Result<(map<int, V>, seq<int>), string>
    decreases |codes|
  {
    if codes == [] then Ok((map[], []))
    else
      var n := |codes| - 1;
      var prev := TopicContents(codes[..n], entry);
      if prev.Err? then prev
      else
        var e := entry(codes[n]);
        if e.Err? then Err(e.error)
        else Ok((prev.value.0[codes[n] := e.value], if codes[n] in prev.value.1 then prev.value.1 else prev.value.1 + [codes[n]]))
  }

  /** The dictionary and key order hold the same codes, each once in the order. */
  predicate OrderedKeys<V>(contents: map<int, V>, order: seq<int>)
  {
    && (forall i :: 0 <= i < |order| ==> order[i] in contents)
    && (forall c :: c in contents ==> c in order)
    && (forall i, j :: 0 <= i < j < |order| ==> order[i] != order[j])
  }

  /** The dictionary is built exactly when every code's entry succeeds. */
  lemma {:induction false} TopicContentsOk<V>(codes: seq<int>, entry: int -> Result<V, string>)
    ensures TopicContents(codes, entry).Ok? <==> forall i :: 0 <= i < |codes| ==> entry(codes[i]).Ok?
    decreases |codes|
  {
    if codes != [] {
      var n := |codes| - 1;
      var front := codes[..n];
      TopicContentsOk(front, entry);
      assert codes == front + [codes[n]];
      if TopicContents(front, entry).Err? {
        var i :| 0 <= i < n && !entry(front[i]).Ok?;
        assert front[i] == codes[i];
      }
    }
  }

  /**
   * A built dictionary holds every code once, in first-seen order, each
   * with its entry.
   */
  lemma {:induction false} TopicContentsMeaning<V>(codes: seq<int>, entry: int -> Result<V, string>)
    ensures var r := TopicContents(codes, entry);
      r.Ok? ==>
        && (forall c :: c in r.value.0 ==> c in codes)
        && (forall i :: 0 <= i < |codes| ==> codes[i] in r.value.0 && entry(codes[i]) == Ok(r.value.0[codes[i]]))
        && OrderedKeys(r.value.0, r.value.1)
    decreases |codes|
  {
    if codes != [] {
      var n := |codes| - 1;
      var front := codes[..n];
      TopicContentsMeaning(front, entry);
      assert codes == front + [codes[n]];
      var prev := TopicContents(front, entry);
      var e := entry(codes[n]);
      if prev.Ok? && e.Ok? {
        TopicContentsStep(front, codes[n], prev.value.0, prev.value.1, e.value, entry);
      }
    }
  }

  /** One more code: the step of `TopicContentsMeaning` when the new code's entry succeeds. */
  lemma TopicContentsStep<V>(front: seq<int>, code: int, m: map<int, V>, order: seq<int>, v: V, entry: int -> Result<V, string>)
    requires forall c :: c in m ==> c in front
    requires forall i :: 0 <= i < |front| ==> front[i] in m && entry(front[i]) == Ok(m[front[i]])
    requires OrderedKeys(m, order)
    requires entry(code) == Ok(v)
    ensures var codes := front + [code];
      var m' := m[code := v];
      var order' := if code in order then order else order + [code];
      && (forall c :: c in m' ==> c in codes)
      && (forall i :: 0 <= i < |codes| ==> codes[i] in m' && entry(codes[i]) == Ok(m'[codes[i]]))
      && OrderedKeys(m', order')
  {
    var codes := front + [code];
    forall i | 0 <= i < |codes|
      ensures codes[i] in m[code := v]
      ensures entry(codes[i]) == Ok(m[code := v][codes[i]])
    {
      if i < |front| && codes[i] != code {
        assert front[i] == codes[i];
      }
    }
  }

  class TopicOriented {
    var prompt: string
    var mediaCodes: seq<int>
    var keywords: Option<seq<string>>
    /** `media_contents`: code to (name, filtered table). */
    var contents: map<int, (string, Table)>
    /** The order in which the dictionary yields its codes. */
    var order: seq<int>

    /** Every code the run visits has an entry, and each entry is visited once. */
    predicate Valid()
      reads this
    {
      OrderedKeys(contents, order)
    }

    constructor(prompt: string, mediaCodes: seq<int>, keywords: Option<seq<string>>,
                contents: map<int, (string, Table)>, order: seq<int>)
      requires OrderedKeys(contents, order)
      ensures Valid()
      ensures this.prompt == prompt && this.mediaCodes == mediaCodes && this.keywords == keywords
      ensures this.contents == contents && this.order == order
    {
      this.prompt := prompt;
      this.mediaCodes := mediaCodes;
      this.keywords := keywords;
      this.contents := contents;
      this.order := order;
    }

    /** The first step of `run`: ask the model for keywords when the object has none. */
    method EnsureKeywords(llm: string -> string)
      requires Valid()
      modifies this
      ensures prompt == old(prompt) && mediaCodes == old(mediaCodes) && contents == old(contents) && order == old(order)
      ensures keywords == if old(keywords).None? then Some(BuildKeywords(llm, prompt)) else old(keywords)
      ensures Valid()
    {
      if keywords.None? {
        keywords := Some(BuildKeywords(llm, prompt));
      }
    }

    /**
     * `run`: take the keywords (asking the model when there are none), pick
     * each media's 200 best-matching texts, ask the model about each media,
     * then reduce.
     */
    method Run(llm: string -> string) returns (output: string, ghost retrieved: seq<(string, seq<string>)>)
      requires Valid()
      modifies this
      ensures prompt == old(prompt) && mediaCodes == old(mediaCodes) && contents == old(contents) && order == old(order)
      ensures keywords == if old(keywords).None? then Some(BuildKeywords(llm, prompt)) else old(keywords)
      ensures Valid()
      ensures RetrievedAll(keywords.value, contents, order, retrieved)
      ensures output == llm(TopicFinalPrompt(prompt, Responses(llm, MediaPrompts(prompt, retrieved))))
    {
      EnsureKeywords(llm);
      output, retrieved := AnalyseTopic(llm, prompt, keywords.value, contents, order);
    }
  }

  /** What the run retrieved for the media in dictionary order: each one's name and an admissible top-200 list. */
  ghost predicate RetrievedAll(kws: seq<string>, contents: map<int, (string, Table)>, order: seq<int>,
                               retrieved: seq<(string, seq<string>)>)
    requires forall i :: 0 <= i < |order| ==> order[i] in contents
  {
    && |retrieved| == |order|
    && forall i :: 0 <= i < |order| ==>
      && retrieved[i].0 == contents[order[i]].0
      && IsRetrieval(kws, contents[order[i]].1.rows, 200, retrieved[i].1)
  }

  /** The body of `run` once the keywords are known: retrieve, ask about each media, reduce. */
  method AnalyseTopic(llm: string -> string, prompt: string, kws: seq<string>, contents: map<int, (string, Table)>, order: seq<int>)
    returns (output: string, ghost retrieved: seq<(string, seq<string>)>)
    requires forall i :: 0 <= i < |order| ==> order[i] in contents
    ensures RetrievedAll(kws, contents, order, retrieved)
    ensures output == llm(TopicFinalPrompt(prompt, Responses(llm, MediaPrompts(prompt, retrieved))))
  {
    var found := RetrieveAll(kws, contents, order);
    var prompts := BuildMediaPrompts(prompt, found);
    retrieved := found;
    var finalPrompt := AskAndNumber(llm, prompts, TopicFinalHead(prompt), "", ") ", "\n");
    output := llm(finalPrompt + TopicClose());
  }

  /** The retrieval loop of `run`, over the media in dictionary order. */
  method RetrieveAll(kws: seq<string>, contents: map<int, (string, Table)>, order: seq<int>)
    returns (retrieved: seq<(string, seq<string>)>)
    requires forall i :: 0 <= i < |order| ==> order[i] in contents
    ensures RetrievedAll(kws, contents, order, retrieved)
  {
    retrieved := [];
    var i := 0;
    while i < |order|
      invariant 0 <= i <= |order|
      invariant |retrieved| == i
      invariant forall j :: 0 <= j < i ==>
        retrieved[j].0 == contents[order[j]].0 && IsRetrieval(kws, contents[order[j]].1.rows, 200, retrieved[j].1)
    {
      var entry := contents[order[i]];
      var texts := Retrieve(kws, entry.1.rows, 200);
      retrieved := retrieved + [(entry.0, texts)];
      i := i + 1;
    }
  }

  /** One prompt per retrieved media, in order. */
  function MediaPrompts(prompt: string, retrieved: seq<(string, seq<string>)>): (r: seq<string>)
    ensures |r| == |retrieved|
    decreases |retrieved|
  {
    if retrieved == [] then []
    else
      var n := |retrieved| - 1;
      MediaPrompts(prompt, retrieved[..n]) + [MediaPrompt(retrieved[n].0, prompt, retrieved[n].1)]
  }

  /** One media's prompt: its retrieved texts, worst match first, numbered until the prompt passes the limit. */
  method BuildMediaPrompt(name: string, prompt: string, data: seq<string>) returns (p: string)
    ensures p == MediaPrompt(name, prompt, data)
  {
    p := AppendNumberedUntil(TopicHeader(name, prompt), "", ") ", "\n", WorstFirst(data));
    p := p + TopicDirective();
  }

  /**
   * The prompt-building loop of `run`: one prompt per media, in dictionary
   * order (written as recursion over the list of retrieved media).
   */
  method BuildMediaPrompts(prompt: string, retrieved: seq<(string, seq<string>)>) returns (prompts: seq<string>)
    ensures prompts == MediaPrompts(prompt, retrieved)
    decreases |retrieved|
  {
    if retrieved == [] {
      prompts := [];
    } else {
      var n := |retrieved| - 1;
      var front := BuildMediaPrompts(prompt, retrieved[..n]);
      var p := BuildMediaPrompt(retrieved[n].0, prompt, retrieved[n].1);
      prompts := front + [p];
    }
  }

  /** The constructor's loop: each code's entry goes into the dictionary; the first failing entry aborts. */
  method BuildContents<V>(codes: seq<int>, entry: int -> Result<V, string>) returns (r: Result<(map<int, V>, seq<int>), string>)
    ensures r == TopicContents(codes, entry)
  {
    var contents: map<int, V> := map[];
    var order: seq<int> := [];
    var i := 0;
    while i < |codes|
      invariant 0 <= i <= |codes|
      invariant TopicContents(codes[..i], entry) == Ok((contents, order))
    {
      assert codes[..i + 1][..i] == codes[..i];
      var code := codes[i];
      var e := entry(code);
      if e.Err? {
        TopicContentsErrStays(codes, i + 1, entry);
        return Err(e.error);
      }
      if code !in order {
        order := order + [code];
      }
      contents := contents[code := e.value];
      i := i + 1;
    }
    assert codes[..i] == codes;
    r := Ok((contents, order));
  }

  /**
   * `TopicOriented(prompt, media_codes, keywords, start_date, end_date)`:
   * every code's media is loaded and filtered; a code missing from the
   * metadata or an unreadable bound is an error.
   */
  method NewTopicOriented(prompt: string, mediaCodes: seq<int>, keywords: Option<seq<string>>, start: Option<string>, end: Option<string>,
                          catalog: seq<MetaRow>, readTable: string -> Table, currentYear: int)
    returns (r: Result<TopicOriented, string>)
    ensures var c := TopicContents(mediaCodes, EntryOf(OrDefault(start, DefaultStart), OrDefault(end, DefaultEnd), catalog, readTable, currentYear));
      && (c.Err? ==> r == Err(c.error))
      && (c.Ok? ==> r.Ok? && fresh(r.value) && r.value.Valid()
                    && r.value.prompt == prompt && r.value.mediaCodes == mediaCodes && r.value.keywords == keywords
                    && r.value.contents == c.value.0 && r.value.order == c.value.1)
  {
    var entryOf := EntryOf(OrDefault(start, DefaultStart), OrDefault(end, DefaultEnd), catalog, readTable, currentYear);
    var c := BuildContents(mediaCodes, entryOf);
    if c.Err? {
      return Err(c.error);
    }
    TopicContentsMeaning(mediaCodes, entryOf);
    var t := new TopicOriented(prompt, mediaCodes, keywords, c.value.0, c.value.1);
    r := Ok(t);
  }

  lemma {:induction false} TopicContentsErrStays<V>(codes: seq<int>, k: nat, entry: int -> Result<V, string>)
    requires k <= |codes| && TopicContents(codes[..k], entry).Err?
    ensures TopicContents(codes, entry) == TopicContents(codes[..k], entry)
    decreases |codes| - k
  {
    if k < |codes| {
      assert codes[..k + 1][..k] == codes[..k];
      TopicContentsErrStays(codes, k + 1, entry);
    } else {
      assert codes[..k] == codes;
    }
  }

  // ------------------------------------------------------------------
  // TimeBasedOriented and TrendDetection
  // ------------------------------------------------------------------

  /** A row's line, numbered by its position in the filtered table; rows without text or with fewer than 10 Persian letters have none. */
  function TimeLine(i: nat, row: Row): Option<string>
  {
    if row.cleanedText.None? || PersianLetterCount(row.cleanedText.value) < 10 then None
    else Some(NatToString(i + 1) + ")" + row.cleanedText.value + "\n")
  }

  function TimeLineFn(): (nat, Row) -> Option<string>
  {
    (i: nat, row: Row) => TimeLine(i, row)
  }

  function TimeTail(): string
  {
    "\n\n**Now please do the analysis the "
    + "user want in one Persian paragraph "
    + "with maximum 500 words**"
  }

  function PlainDirective(): string
  {
    "\n**Please perform the requested "
    + "analysis in one Persian paragraph with "
    + "maximum 300 words.**"
  }

  function TrendDirective(): string
  {
    "\n**Please detect the trend and hot "
    + "topics based on the contents and "
    + "finally list them. Your output must be "
    + "in Persian language**"
  }

  /** The prompt of `TrendDetection`; its `{}` placeholder is never filled in. */
  function TrendPrompt(): string
  {
    "لطفا ترند ها و موضوعات داغ "
    + "رسانه {} را از درون محتوای آن "
    + "استخراج کن و آنها را لیست کن . "
  }

  datatype TimeBasedOriented = TimeBasedOriented(prompt: string, content: Table, fromTrend: bool)
  {
    function Header(): string
    {
      "I want you to perform an analysis on a "
      + "telegram media based on a user input "
      + "prompt (requested analysis) and the "
      + "content/messages sent to that media. "
      + "The main goal is to determine what "
      + "were the topics people usually talked "
      + "about in telegram during a time "
      + "period. Below is first the user prompt "
      + "and then the messages sent to the "
      + "target media.\n\n**User prompt: "
      + prompt
      + "**\n\nMessages:\n"
    }

    /** The chunks `run` builds: sealed once past 200 000 characters. */
    function Chunks(): seq<string>
    {
      Prompts.Chunks(Header(), content.rows, TimeLineFn(), true, TimeTail())
    }

    function Directive(): string
    {
      if fromTrend then TrendDirective() else PlainDirective()
    }

    function FinalHead(): string
    {
      "I want you to perform an analysis on a "
      + "telegram media based on a user prompt "
      + "and partial result. The partial "
      + "results are the same analysis but on a "
      + "smaller part of the whole data. I want "
      + "you to conclude these partial results "
      + "and tell what were the messages "
      + "usually about in the target media. "
      + "Below is first the user prompt and "
      + "then the partial anlalysis:\n\n"
      + "**User prompt: " + prompt + "**\n\n"
    }

    /** The reduce prompt: the answers numbered `partial 1)…`, then the directive of the mode. */
    function FinalPrompt(responses: seq<string>): string
    {
      FinalHead() + Enumerate("partial ", ")", "\n", responses) + Directive()
    }

    /** `run`: chunk every qualifying row, ask the model on each chunk, then reduce. */
    method Run(llm: string -> string) returns (output: string)
      ensures output == llm(FinalPrompt(Responses(llm, Chunks())))
    {
      var prompts := BuildChunks(Header(), content.rows, TimeLineFn(), true, TimeTail());
      var finalPrompt := AskAndNumber(llm, prompts, FinalHead(), "partial ", ")", "\n");
      output := llm(finalPrompt + Directive());
    }
  }

  /** `TimeBasedOriented(prompt, media_idx, start_date, end_date, from_trend)`: both bounds are required. */
  function NewTimeBasedOriented(prompt: string, mediaIdx: int, start: string, end: string, fromTrend: bool,
                                catalog: seq<MetaRow>, readTable: string -> Table, currentYear: int)
    : (r: Result<TimeBasedOriented, string>)
    ensures var t := MediaInRange(catalog, readTable, mediaIdx, start, end, currentYear);
      && (t.Err? ==> r == Err(t.error))
      && (t.Ok? ==> r == Ok(TimeBasedOriented(prompt, t.value, fromTrend)))
  {
    var t := MediaInRange(catalog, readTable, mediaIdx, start, end, currentYear);
    if t.Err? then Err(t.error) else Ok(TimeBasedOriented(prompt, t.value, fromTrend))
  }

  /**
   * A row's line starts with its 1-based position in the filtered table,
   * so rows without a line leave gaps in the numbering.
   */
  lemma TimeLineNumbered(i: nat, row: Row)
    ensures TimeLine(i, row).Some? <==> row.cleanedText.Some? && PersianLetterCount(row.cleanedText.value) >= 10
    ensures TimeLine(i, row).Some? ==>
      var l := TimeLine(i, row).value;
      var digits := NatToString(i + 1);
      && digits <= l && l[|digits|] == ')'
      && DigitsValue(digits) == i + 1
  {
    NatToStringValue(i + 1);
  }

  /** A chunk sent by the time-based pipeline starts with its header and is always past the limit. */
  lemma TimeChunksPastLimit(a: TimeBasedOriented, k: nat)
    requires k < |a.Chunks()|
    ensures a.Header() <= a.Chunks()[k]
    ensures |a.Chunks()[k]| > ChunkLimit + |TimeTail()|
  {
    StrictChunkPastLimit(a.Header(), a.content.rows, TimeLineFn(), TimeTail(), k);
  }

  datatype TrendDetection = TrendDetection(inner: TimeBasedOriented)
  {
    /** `run`: the inner time-based run. */
    method Run(llm: string -> string) returns (output: string)
      ensures output == llm(inner.FinalPrompt(Responses(llm, inner.Chunks())))
    {
      output := inner.Run(llm);
    }
  }

  /** `TrendDetection(media_idx, start_date, end_date)`: a time-based analysis with the fixed trend prompt, in trend mode. */
  function NewTrendDetection(mediaIdx: int, start: string, end: string, catalog: seq<MetaRow>, readTable: string -> Table, currentYear: int)
    : (r: Result<TrendDetection, string>)
    ensures var t := MediaInRange(catalog, readTable, mediaIdx, start, end, currentYear);
      && (t.Err? ==> r == Err(t.error))
      && (t.Ok? ==> r == Ok(TrendDetection(TimeBasedOriented(TrendPrompt(), t.value, true))))
  {
    var inner := NewTimeBasedOriented(TrendPrompt(), mediaIdx, start, end, true, catalog, readTable, currentYear);
    if inner.Err? then Err(inner.error) else Ok(TrendDetection(inner.value))
  }

  /** The two modes differ only in the closing directive: the trend run asks for the trends. */
  lemma TrendModeOnlyChangesDirective(a: TimeBasedOriented, responses: seq<string>)
    ensures var common := a.FinalHead() + Enumerate("partial ", ")", "\n", responses);
      && a.(fromTrend := false).FinalPrompt(responses) == common + PlainDirective()
      && a.(fromTrend := true).FinalPrompt(responses) == common + TrendDirective()
  {
    var common := a.FinalHead() + Enumerate("partial ", ")", "\n", responses);
    var plain, trend := a.(fromTrend := false), a.(fromTrend := true);
    SameSuffix(plain.FinalHead() + Enumerate("partial ", ")", "\n", responses), common, PlainDirective());
    SameSuffix(trend.FinalHead() + Enumerate("partial ", ")", "\n", responses), common, TrendDirective());
  }

  // ------------------------------------------------------------------
  // IndividualPersonAnalysis
  // ------------------------------------------------------------------

  /** The `KeyError` raised when a table has no `sender_id` column (a channel's table). */
  const MissingSenderColumn := "sender_id"

  function SentByTest(userId: string): Row -> bool
  {
    (row: Row) => row.senderId == Some(userId)
  }

  function CleanedTexts(rows: seq<Row>): (r: seq<Option<string>>)
    ensures |r| == |rows| && forall i :: 0 <= i < |rows| ==> r[i] == rows[i].cleanedText
  {
    seq(|rows|, i requires 0 <= i < |rows| => rows[i].cleanedText)
  }

  /** `extract_user_messages`: the `cleaned_text` of every row the user sent, in order, empty cells included. */
  function ExtractUserMessages(table: Table, userId: string): (r: Result<seq<Option<string>>, string>)
    ensures r.Err? <==> !table.hasSenderColumns
    ensures r.Err? ==> r.error == MissingSenderColumn
  {
    if !table.hasSenderColumns then Err(MissingSenderColumn)
    else Ok(CleanedTexts(Filter(table.rows, SentByTest(userId))))
  }

  /** The user's messages are exactly the texts of the rows whose sender is the user, in row order. */
  lemma UserMessagesExactly(table: Table, userId: string) returns (idx: seq<nat>)
    requires table.hasSenderColumns
    ensures var msgs := ExtractUserMessages(table, userId).value;
      && |idx| == |msgs|
      && (forall j :: 0 <= j < |idx| ==> idx[j] < |table.rows| && table.rows[idx[j]].senderId == Some(userId)
                                          && msgs[j] == table.rows[idx[j]].cleanedText)
      && (forall j, k :: 0 <= j < k < |idx| ==> idx[j] < idx[k])
      && (forall i :: 0 <= i < |table.rows| && table.rows[i].senderId == Some(userId) ==> i in idx)
  {
    var sent := Filter(table.rows, SentByTest(userId));
    idx := FilterPositions(table.rows, SentByTest(userId));
    forall j | 0 <= j < |idx|
      ensures table.rows[idx[j]].senderId == Some(userId)
    {
      assert sent[j] == table.rows[idx[j]];
      assert SentByTest(userId)(sent[j]);
    }
    forall i | 0 <= i < |table.rows| && table.rows[i].senderId == Some(userId)
      ensures i in idx
    {
      assert SentByTest(userId)(table.rows[i]);
    }
  }

  function Shown(msgs: seq<Option<string>>): (r: seq<string>)
    ensures |r| == |msgs| && forall i :: 0 <= i < |msgs| ==> r[i] == Show(msgs[i])
  {
    seq(|msgs|, i requires 0 <= i < |msgs| => Show(msgs[i]))
  }

  function PersonHead(prompt: string): string
  {
    "I want you to analyse person by the "
    + "messages he/she has sent to a telegram "
    + "group based on a user input prompt. "
    + "Below is first the user prompt and "
    + "then the messages this user has sent "
    + "to the group.\n\n**User prompt: "
    + prompt
    + "**\n\nMessages of this person:\n"
  }

  function PersonClose(): string
  {
    "\n**Please perform the required "
    + "analysis on this user in one Persian "
    + "Paragraph with maximum 500 words**"
  }

  function PersonPrompt(prompt: string, msgs: seq<Option<string>>): string
  {
    PersonHead(prompt) + Enumerate("", ")", "\n", Shown(msgs)) + PersonClose()
  }

  /** At most 1000 of the user's messages, drawn without replacement. */
  predicate IsMessageSample(picked: seq<Option<string>>, msgs: seq<Option<string>>)
  {
    && |picked| == (if |msgs| < 1000 then |msgs| else 1000)
    && multiset(picked) <= multiset(msgs)
  }

  /** With at most 1000 messages the sample is a reordering of all of them. */
  lemma SmallSampleIsAll(picked: seq<Option<string>>, msgs: seq<Option<string>>)
    requires IsMessageSample(picked, msgs) && |msgs| <= 1000
    ensures multiset(picked) == multiset(msgs)
  {
    SubMultisetFull(multiset(picked), multiset(msgs));
  }

  /** `random.sample(user_messages, min(len(user_messages), 1000))`. */
  method SampleMessages(msgs: seq<Option<string>>) returns (picked: seq<Option<string>>)
    ensures IsMessageSample(picked, msgs)
  {
    var k := if |msgs| < 1000 then |msgs| else 1000;
    var idx;
    picked, idx := Sample(msgs, k);
  }

  /** The one model call of `run`: the sampled messages numbered `1)…`, then the closing request. */
  method AskAboutPerson(llm: string -> string, prompt: string, picked: seq<Option<string>>) returns (answer: string)
    ensures answer == llm(PersonPrompt(prompt, picked))
  {
    var p := AppendNumbered(PersonHead(prompt), "", ")", "\n", Shown(picked));
    answer := llm(p + PersonClose());
  }

  datatype IndividualPersonAnalysis = IndividualPersonAnalysis(prompt: string, mediaIdx: int, userId: string)
  {
    /** `run`: the user's messages of the media, a sample of at most 1000 of them, one call. */
    method Run(llm: string -> string, catalog: seq<MetaRow>, readTable: string -> Table)
      returns (r: Result<string, string>, ghost picked: seq<Option<string>>)
      ensures var t := MediaTable(catalog, readTable, mediaIdx);
        && (t.Err? ==> r == Err(t.error))
        && (t.Ok? ==> (r == Err(MissingSenderColumn) <==> !t.value.hasSenderColumns))
        && (t.Ok? && t.value.hasSenderColumns ==>
              && IsMessageSample(picked, ExtractUserMessages(t.value, userId).value)
              && r == Ok(llm(PersonPrompt(prompt, picked))))
    {
      picked := [];
      var t := MediaTable(catalog, readTable, mediaIdx);
      if t.Err? {
        return Err(t.error), picked;
      }
      var msgs := ExtractUserMessages(t.value, userId);
      if msgs.Err? {
        return Err(msgs.error), picked;
      }
      var sample := SampleMessages(msgs.value);
      var answer := AskAboutPerson(llm, prompt, sample);
      r, picked := Ok(answer), sample;
    }
  }
}

=== FILE: prompts.dfy ===
/**
 * The string-building loops the analysis pipelines share: growing a chunk
 * line by line and sealing it at 200 000 characters, numbering a list of
 * texts `1) … k)`, the numbered list that stops once it passes the limit,
 * and calling the model on each prompt in turn.
 */
module Prompts {
  import opened Common

  /** The chunk size every pipeline seals at. */
  const ChunkLimit: nat := 200000

  /** Whether a chunk of length `n` is sealed: `len >= 200_000`, or `len > 200_000` when `strict`. */
  predicate Seals(n: int, strict: bool)
  {
    if strict then n > ChunkLimit else n >= ChunkLimit
  }

  // ------------------------------------------------------------------
  // Sealing chunks
  // ------------------------------------------------------------------

  /** The lines that make it into some chunk: the present ones, in order. */
  function Present(items: seq<Option<string>>): (r: seq<string>)
    ensures |r| <= |items|
  {
    if items == [] then []
    else (if items[0].Some? then [items[0].value] else []) + Present(items[1..])
  }

  /** All the lines of all the groups, in order. */
  function Flatten(groups: seq<seq<string>>): seq<string>
  {
    if groups == [] then [] else groups[0] + Flatten(groups[1..])
  }

  /**
   * The loop of the chunk builders, on lines: `cur` holds the lines of the
   * open chunk (which starts with `h`); a present line is appended, and when
   * the chunk then seals, its lines form a group and a fresh chunk starts.
   * The result is the sealed groups and the lines of the chunk left open.
   */
  function Pack(h: string, cur: seq<string>, items: seq<Option<string>>, strict: bool): (r: (seq<seq<string>>, seq<string>))
    decreases |items|
  {
    if items == [] then ([], cur)
    else if items[0].None? then Pack(h, cur, items[1..], strict)
    else
      var g := cur + [items[0].value];
      if Seals(|h| + |Concat(g)|, strict) then
        var p := Pack(h, [], items[1..], strict);
        ([g] + p.0, p.1)
      else Pack(h, g, items[1..], strict)
  }

  /** A sealed chunk: the header, its lines, then the closing text. */
  function Sealed(h: string, g: seq<string>, tail: string): string
  {
    h + Concat(g) + tail
  }

  function SealAll(h: string, groups: seq<seq<string>>, tail: string): (r: seq<string>)
    ensures |r| == |groups|
    ensures forall k :: 0 <= k < |groups| ==> r[k] == Sealed(h, groups[k], tail)
  {
    seq(|groups|, k requires 0 <= k < |groups| => Sealed(h, groups[k], tail))
  }

  /** The items of a table, one per row, as the line function renders them. */
  function Items<T>(rows: seq<T>, line: (nat, T) -> Option<string>): (r: seq<Option<string>>)
    ensures |r| == |rows| && forall i :: 0 <= i < |rows| ==> r[i] == line(i, rows[i])
  {
    seq(|rows|, i requires 0 <= i < |rows| => line(i, rows[i]))
  }

  /** The chunks a builder emits from its rows: the sealed groups only. */
  function Chunks<T>(h: string, rows: seq<T>, line: (nat, T) -> Option<string>, strict: bool, tail: string): seq<string>
  {
    SealAll(h, Pack(h, [], Items(rows, line), strict).0, tail)
  }

  /**
   * The chunk builders' loop: start from the header, append each row's
   * line (rows without one are skipped), and when the chunk seals, emit
   * it with the closing text and start again from the header. The open
   * chunk left at the end is not emitted.
   */
  method BuildChunks<T>(h: string, rows: seq<T>, line: (nat, T) -> Option<string>, strict: bool, tail: string)
    returns (chunks: seq<string>)
    ensures chunks == Chunks(h, rows, line, strict, tail)
  {
    ghost var items := Items(rows, line);
    ghost var all := Pack(h, [], items, strict).0;
    ghost var cur: seq<string> := [];
    var chunk := h;
    chunks := [];
    var i := 0;
    while i < |rows|
      invariant 0 <= i <= |rows|
      invariant chunk == h + Concat(cur)
      invariant chunks + SealAll(h, Pack(h, cur, items[i..], strict).0, tail) == SealAll(h, all, tail)
    {
      var next := line(i, rows[i]);
      PackAdvance(h, cur, items, i, strict, tail, chunk);
      if next.Some? {
        chunk := chunk + next.value;
        if Seals(|chunk|, strict) {
          chunks := chunks + [chunk + tail];
          chunk := h;
          cur := [];
        } else {
          cur := cur + [next.value];
        }
      }
      i := i + 1;
    }
  }

  /** One row of the chunk builders' loop, stated on the rest of the items. */
  lemma PackAdvance(h: string, cur: seq<string>, items: seq<Option<string>>, i: nat, strict: bool, tail: string, chunk: string)
    requires i < |items| && chunk == h + Concat(cur)
    ensures items[i].None? ==> Pack(h, cur, items[i..], strict) == Pack(h, cur, items[i + 1..], strict)
    ensures items[i].Some? ==> h + Concat(cur + [items[i].value]) == chunk + items[i].value
    ensures items[i].Some? && Seals(|chunk + items[i].value|, strict) ==>
      SealAll(h, Pack(h, cur, items[i..], strict).0, tail)
        == [chunk + items[i].value + tail] + SealAll(h, Pack(h, [], items[i + 1..], strict).0, tail)
    ensures items[i].Some? && !Seals(|chunk + items[i].value|, strict) ==>
      Pack(h, cur, items[i..], strict) == Pack(h, cur + [items[i].value], items[i + 1..], strict)
  {
    assert items[i..][0] == items[i] && items[i..][1..] == items[i + 1..];
    if items[i].Some? {
      var x := items[i].value;
      var g := cur + [x];
      ConcatAppend(cur, [x]);
      assert Concat([x]) == x;
      assert h + Concat(g) == chunk + x;
      if Seals(|chunk + x|, strict) {
        var p := Pack(h, [], items[i + 1..], strict);
        assert Pack(h, cur, items[i..], strict).0 == [g] + p.0;
        assert SealAll(h, [g] + p.0, tail) == [Sealed(h, g, tail)] + SealAll(h, p.0, tail);
      }
    }
  }

  /** Every line that reaches a chunk, sealed or open, is a present line, in order, and none is lost. */
  lemma {:induction false} PackConserves(h: string, cur: seq<string>, items: seq<Option<string>>, strict: bool)
    ensures Flatten(Pack(h, cur, items, strict).0) + Pack(h, cur, items, strict).1 == cur + Present(items)
    decreases |items|
  {
    if items != [] {
      if items[0].Some? {
        var g := cur + [items[0].value];
        assert Present(items) == [items[0].value] + Present(items[1..]);
        if Seals(|h| + |Concat(g)|, strict) {
          PackConserves(h, [], items[1..], strict);
          var p := Pack(h, [], items[1..], strict);
          assert ([g] + p.0)[1..] == p.0;
          assert Pack(h, cur, items, strict) == ([g] + p.0, p.1);
          assert [] + Present(items[1..]) == Present(items[1..]);
          SealedGroupAlgebra(cur, items[0].value, p.0, p.1, Present(items[1..]));
        } else {
          PackConserves(h, g, items[1..], strict);
          assert cur + ([items[0].value] + Present(items[1..])) == g + Present(items[1..]);
        }
      } else {
        PackConserves(h, cur, items[1..], strict);
        assert Present(items) == Present(items[1..]);
      }
    }
  }

  lemma SealedGroupAlgebra(cur: seq<string>, x: string, groups: seq<seq<string>>, open: seq<string>, rest: seq<string>)
    requires Flatten(groups) + open == rest
    ensures Flatten([cur + [x]] + groups) + open == cur + ([x] + rest)
  {
    var g := cur + [x];
    assert ([g] + groups)[1..] == groups;
    assert Flatten([g] + groups) == g + Flatten(groups);
  }

  /** A group is sealed the moment its last line goes in, and not a line earlier. */
  predicate SealsAtLastLine(h: string, g: seq<string>, strict: bool)
  {
    && |g| >= 1
    && Seals(|h| + |Concat(g)|, strict)
    && (|g| == 1 || !Seals(|h| + |Concat(g[..|g| - 1])|, strict))
  }

  /**
   * Each sealed group sealed on its last line and not before, and the
   * open chunk left over has not sealed (unless it holds no line).
   */
  lemma {:induction false} PackSealsAtLastLine(h: string, cur: seq<string>, items: seq<Option<string>>, strict: bool)
    requires cur == [] || !Seals(|h| + |Concat(cur)|, strict)
    ensures forall k :: 0 <= k < |Pack(h, cur, items, strict).0| ==> SealsAtLastLine(h, Pack(h, cur, items, strict).0[k], strict)
    ensures Pack(h, cur, items, strict).1 == [] || !Seals(|h| + |Concat(Pack(h, cur, items, strict).1)|, strict)
    decreases |items|
  {
    if items != [] {
      if items[0].None? {
        PackSealsAtLastLine(h, cur, items[1..], strict);
      } else {
        var g := cur + [items[0].value];
        assert g[..|g| - 1] == cur;
        if Seals(|h| + |Concat(g)|, strict) {
          PackSealsAtLastLine(h, [], items[1..], strict);
          var p := Pack(h, [], items[1..], strict);
          assert SealsAtLastLine(h, g, strict);
          forall k | 0 < k < |[g] + p.0|
            ensures SealsAtLastLine(h, ([g] + p.0)[k], strict)
          {
            assert ([g] + p.0)[k] == p.0[k - 1];
          }
        } else {
          PackSealsAtLastLine(h, g, items[1..], strict);
        }
      }
    }
  }

  /** Lines totalling less than the limit, header included, never seal a chunk. */
  lemma {:induction false} PackSmallInput(h: string, cur: seq<string>, items: seq<Option<string>>, strict: bool)
    requires !Seals(|h| + |Concat(cur)| + |Concat(Present(items))|, strict)
    ensures Pack(h, cur, items, strict).0 == []
    decreases |items|
  {
    if items != [] {
      if items[0].None? {
        assert Present(items) == Present(items[1..]);
        PackSmallInput(h, cur, items[1..], strict);
      } else {
        var g := cur + [items[0].value];
        assert Present(items) == [items[0].value] + Present(items[1..]);
        ConcatAppend(cur, [items[0].value]);
        ConcatAppend([items[0].value], Present(items[1..]));
        PackSmallInput(h, g, items[1..], strict);
      }
    }
  }

  /** Lines that fit in one chunk with the header never seal: no chunk is emitted. */
  lemma ChunksSmallInput<T>(h: string, rows: seq<T>, line: (nat, T) -> Option<string>, tail: string)
    requires |h| + |Concat(Present(Items(rows, line)))| < ChunkLimit
    ensures Chunks(h, rows, line, false, tail) == []
  {
    PackSmallInput(h, [], Items(rows, line), false);
  }

  /**
   * What a sealed chunk is: the header and at least one line, at least
   * `ChunkLimit` long (beyond it when `strict`), and within one line of the
   * limit unless it holds a single line.
   */
  lemma ChunkBounds<T>(h: string, rows: seq<T>, line: (nat, T) -> Option<string>, strict: bool, tail: string, k: nat)
    requires k < |Chunks(h, rows, line, strict, tail)|
    ensures var g := Pack(h, [], Items(rows, line), strict).0[k];
      && |g| >= 1
      && Chunks(h, rows, line, strict, tail)[k] == h + Concat(g) + tail
      && Seals(|h + Concat(g)|, strict)
      && (|g| == 1 || |h + Concat(g)| < ChunkLimit + |g[|g| - 1]| + (if strict then 1 else 0))
  {
    var groups := Pack(h, [], Items(rows, line), strict).0;
    PackSealsAtLastLine(h, [], Items(rows, line), strict);
    var g := groups[k];
    assert SealsAtLastLine(h, g, strict);
    if |g| > 1 {
      ConcatAppend(g[..|g| - 1], [g[|g| - 1]]);
      assert g[..|g| - 1] + [g[|g| - 1]] == g;
    }
  }

  /** Every chunk starts with the header; a strict chunk is past the limit even without its closing text. */
  lemma StrictChunkPastLimit<T>(h: string, rows: seq<T>, line: (nat, T) -> Option<string>, tail: string, k: nat)
    requires k < |Chunks(h, rows, line, true, tail)|
    ensures h <= Chunks(h, rows, line, true, tail)[k]
    ensures |Chunks(h, rows, line, true, tail)[k]| > ChunkLimit + |tail|
  {
    ChunkBounds(h, rows, line, true, tail, k);
    var g := Pack(h, [], Items(rows, line), true).0[k];
    assert Chunks(h, rows, line, true, tail)[k] == h + (Concat(g) + tail);
  }

  // ------------------------------------------------------------------
  // Numbered lists
  // ------------------------------------------------------------------

  /** One numbered entry: `f"{pre}{n}{mid}{x}{post}"`. */
  function Entry(pre: string, n: nat, mid: string, x: string, post: string): string
  {
    pre + NatToString(n) + mid + x + post
  }

  /** `''.join(f"{pre}{i+1}{mid}{x}{post}" for i, x in enumerate(items))` */
  function Enumerate(pre: string, mid: string, post: string, items: seq<string>): string
  {
    if items == [] then []
    else
      var n := |items| - 1;
      Enumerate(pre, mid, post, items[..n]) + Entry(pre, n + 1, mid, items[n], post)
  }

  /** The numbered list of a prefix of the items is a prefix of the numbered list. */
  lemma {:induction false} EnumeratePrefix(pre: string, mid: string, post: string, items: seq<string>, m: nat)
    requires m <= |items|
    ensures Enumerate(pre, mid, post, items[..m]) <= Enumerate(pre, mid, post, items)
    decreases |items| - m
  {
    if m < |items| {
      var n := |items| - 1;
      assert items[..n][..m] == items[..m];
      EnumeratePrefix(pre, mid, post, items[..n], m);
      assert items[..n] == items[..n];
    } else {
      assert items[..m] == items;
    }
  }

  /**
   * Entry `i` of the list is item `i` numbered `i + 1`, and it sits right
   * after the entries of the items before it: the list runs `1) … k)` in order.
   */
  lemma EnumerateEntry(pre: string, mid: string, post: string, items: seq<string>, i: nat)
    requires i < |items|
    ensures ContainsAt(Enumerate(pre, mid, post, items), Entry(pre, i + 1, mid, items[i], post),
                       |Enumerate(pre, mid, post, items[..i])|)
  {
    var before := Enumerate(pre, mid, post, items[..i]);
    var e := Entry(pre, i + 1, mid, items[i], post);
    assert items[..i + 1][..i] == items[..i];
    assert Enumerate(pre, mid, post, items[..i + 1]) == before + e;
    EnumeratePrefix(pre, mid, post, items, i + 1);
    var whole := Enumerate(pre, mid, post, items);
    assert whole[|before|..|before| + |e|] == (before + e)[|before|..];
  }

  /** `for i, x in enumerate(items): s += f"{pre}{i+1}{mid}{x}{post}"` */
  method AppendNumbered(s0: string, pre: string, mid: string, post: string, items: seq<string>) returns (s: string)
    ensures s == s0 + Enumerate(pre, mid, post, items)
  {
    s := s0;
    var i := 0;
    while i < |items|
      invariant 0 <= i <= |items|
      invariant s == s0 + Enumerate(pre, mid, post, items[..i])
    {
      assert items[..i + 1][..i] == items[..i];
      s := s + Entry(pre, i + 1, mid, items[i], post);
      i := i + 1;
    }
    assert items[..i] == items;
  }

  /**
   * How many entries the bounded list takes: entries are appended one by
   * one, and the list stops right after the entry that takes it past the
   * limit. `m` entries are already in.
   */
  function StopAt(s0: string, pre: string, mid: string, post: string, items: seq<string>, m: nat): (k: nat)
    requires m <= |items|
    ensures m <= k <= |items|
    decreases |items| - m
  {
    if m == |items| then m
    else if |s0 + Enumerate(pre, mid, post, items[..m + 1])| > ChunkLimit then m + 1
    else StopAt(s0, pre, mid, post, items, m + 1)
  }

  /**
   * The bounded list stops only when it has passed the limit or run out of
   * items, and every shorter non-empty list stayed within the limit.
   */
  lemma {:induction false} StopAtMeaning(s0: string, pre: string, mid: string, post: string, items: seq<string>, m: nat)
    requires m <= |items|
    requires forall j :: m >= j >= 1 ==> |s0 + Enumerate(pre, mid, post, items[..j])| <= ChunkLimit
    ensures var k := StopAt(s0, pre, mid, post, items, m);
      && (k == |items| || |s0 + Enumerate(pre, mid, post, items[..k])| > ChunkLimit)
      && (forall j :: 1 <= j < k ==> |s0 + Enumerate(pre, mid, post, items[..j])| <= ChunkLimit)
    decreases |items| - m
  {
    if m < |items| && |s0 + Enumerate(pre, mid, post, items[..m + 1])| <= ChunkLimit {
      StopAtMeaning(s0, pre, mid, post, items, m + 1);
    }
  }

  /**
   * `for i, x in enumerate(items): s += f"{pre}{i+1}{mid}{x}{post}"; if len(s) > 200_000: break`
   */
  method AppendNumberedUntil(s0: string, pre: string, mid: string, post: string, items: seq<string>) returns (s: string)
    ensures s == s0 + Enumerate(pre, mid, post, items[..StopAt(s0, pre, mid, post, items, 0)])
  {
    s := s0;
    var i := 0;
    while i < |items|
      invariant 0 <= i <= |items|
      invariant s == s0 + Enumerate(pre, mid, post, items[..i])
      invariant StopAt(s0, pre, mid, post, items, i) == StopAt(s0, pre, mid, post, items, 0)
    {
      assert items[..i + 1][..i] == items[..i];
      s := s + Entry(pre, i + 1, mid, items[i], post);
      i := i + 1;
      if |s| > ChunkLimit {
        break;
      }
    }
  }

  // ------------------------------------------------------------------
  // Calling the model
  // ------------------------------------------------------------------

  /** The model's answer to each prompt, in order. */
  function Responses(llm: string -> string, prompts: seq<string>): (r: seq<string>)
    ensures |r| == |prompts| && forall i :: 0 <= i < |prompts| ==> r[i] == llm(prompts[i])
  {
    seq(|prompts|, i requires 0 <= i < |prompts| => llm(prompts[i]))
  }

  /** `responses = []; for p in prompts: responses.append(call_llm(p))` */
  method CallEach(llm: string -> string, prompts: seq<string>) returns (responses: seq<string>)
    ensures |responses| == |prompts|
    ensures forall i :: 0 <= i < |prompts| ==> responses[i] == llm(prompts[i])
    ensures responses == Responses(llm, prompts)
  {
    responses := [];
    var i := 0;
    while i < |prompts|
      invariant 0 <= i <= |prompts|
      invariant |responses| == i
      invariant forall j :: 0 <= j < i ==> responses[j] == llm(prompts[j])
    {
      responses := responses + [llm(prompts[i])];
      i := i + 1;
    }
  }

  /**
   * The map and the start of the reduce: ask the model about each prompt,
   * then number its answers after the head of the reduce prompt.
   */
  method AskAndNumber(llm: string -> string, prompts: seq<string>, head: string, pre: string, mid: string, post: string)
    returns (s: string)
    ensures s == head + Enumerate(pre, mid, post, Responses(llm, prompts))
  {
    var responses := CallEach(llm, prompts);
    s := AppendNumbered(head, pre, mid, post, responses);
  }
}

=== FILE: relevance.dfy ===
/**
 * Keyword retrieval for the topic-oriented analysis: a message scores the
 * number of (lower-cased) keywords among its (lower-cased) words, capped at
 * 5; the best-scoring messages are returned, best first.
 */
module Relevance {
  import opened Common
  import opened TextUtils
  import opened Tables

  // ------------------------------------------------------------------
  // str.lower and str.split()
  // ------------------------------------------------------------------

  function LowerChar(c: char): char
  {
    if 'A' <= c <= 'Z' then (c as int + 32) as char else c
  }

  /** `s.lower()` on the ASCII letters (Persian letters have no case). */
  function Lower(s: string): (r: string)
    ensures |r| == |s| && forall i :: 0 <= i < |s| ==> r[i] == LowerChar(s[i])
  {
    seq(|s|, i requires 0 <= i < |s| => LowerChar(s[i]))
  }

  predicate IsAsciiUpper(c: char)
  {
    'A' <= c <= 'Z'
  }

  /**
   * What lower-casing does: no ASCII capital is left, each capital becomes
   * the small letter of the same place in the alphabet, every other
   * character stays, and lower-casing again changes nothing.
   */
  lemma LowerMeaning(s: string)
    ensures forall i :: 0 <= i < |s| ==> !IsAsciiUpper(Lower(s)[i])
    ensures forall i :: 0 <= i < |s| && IsAsciiUpper(s[i]) ==> Lower(s)[i] as int - 'a' as int == s[i] as int - 'A' as int
    ensures forall i :: 0 <= i < |s| && !IsAsciiUpper(s[i]) ==> Lower(s)[i] == s[i]
    ensures Lower(Lower(s)) == Lower(s)
  {
  }

  /** Lower-casing neither makes nor unmakes whitespace. */
  lemma LowerCharSpace(c: char)
    ensures IsSpace(LowerChar(c)) == IsSpace(c)
    ensures IsSpace(c) ==> LowerChar(c) == c
  {
  }

  /** Length of the run of non-whitespace characters at the start of `s`. */
  function WordLen(s: string): (k: nat)
    ensures k <= |s|
    ensures forall i :: 0 <= i < k ==> !IsSpace(s[i])
    ensures k == |s| || IsSpace(s[k])
    ensures s != [] && !IsSpace(s[0]) ==> k >= 1
  {
    if s == [] || IsSpace(s[0]) then 0 else 1 + WordLen(s[1..])
  }

  /** `s.split()`: the maximal runs of non-whitespace characters, in order. */
  function Words(s: string): seq<string>
    decreases |s|
  {
    if s == [] then []
    else if IsSpace(s[0]) then Words(s[1..])
    else
      var k := WordLen(s);
      [s[..k]] + Words(s[k..])
  }

  /** A word of `split()`: non-empty, no whitespace in it. */
  predicate IsWord(w: string)
  {
    |w| >= 1 && forall i :: 0 <= i < |w| ==> !IsSpace(w[i])
  }

  lemma {:induction false} DropSpacesOfWord(w: string)
    requires forall i :: 0 <= i < |w| ==> !IsSpace(w[i])
    ensures DropSpaces(w) == w
  {
    if w != [] {
      DropSpacesOfWord(w[1..]);
      assert [w[0]] + w[1..] == w;
    }
  }

  /**
   * `split()` cuts the text at whitespace and loses nothing else: every
   * piece is a word, and the pieces put together are the text without its
   * whitespace.
   */
  lemma {:induction false} WordsMeaning(s: string)
    ensures forall k :: 0 <= k < |Words(s)| ==> IsWord(Words(s)[k])
    ensures Concat(Words(s)) == DropSpaces(s)
    decreases |s|
  {
    if s != [] {
      if IsSpace(s[0]) {
        WordsMeaning(s[1..]);
      } else {
        var k := WordLen(s);
        var rest := Words(s[k..]);
        WordsMeaning(s[k..]);
        assert Words(s) == [s[..k]] + rest;
        assert ([s[..k]] + rest)[1..] == rest;
        assert s == s[..k] + s[k..];
        DropSpacesAppend(s[..k], s[k..]);
        DropSpacesOfWord(s[..k]);
        forall j | 0 <= j < |Words(s)|
          ensures IsWord(Words(s)[j])
        {
          if j > 0 {
            assert Words(s)[j] == rest[j - 1];
          }
        }
      }
    }
  }

  /**
   * Where `split()` cuts: words joined by any non-empty run of whitespace
   * split back into exactly those words. So every whitespace run is a cut,
   * and nothing else is.
   */
  lemma {:induction false} WordsOfJoin(ws: seq<string>, sep: string)
    requires forall k :: 0 <= k < |ws| ==> IsWord(ws[k])
    requires sep != [] && forall i :: 0 <= i < |sep| ==> IsSpace(sep[i])
    ensures Words(Join(ws, sep)) == ws
    decreases |ws|
  {
    if |ws| == 1 {
      assert ws[0] + [] == ws[0];
      WordThenRest(ws[0], []);
    } else if |ws| > 1 {
      var tail := sep + Join(ws[1..], sep);
      assert Join(ws, sep) == ws[0] + tail;
      assert tail[0] == sep[0];
      WordThenRest(ws[0], tail);
      WordsOfSpaces(sep, Join(ws[1..], sep));
      WordsOfJoin(ws[1..], sep);
      assert [ws[0]] + ws[1..] == ws;
    }
  }

  /** A word followed by the end of the text or by whitespace is the first word. */
  lemma WordThenRest(w: string, t: string)
    requires IsWord(w) && (t == [] || IsSpace(t[0]))
    ensures Words(w + t) == [w] + Words(t)
  {
    WordLenOfWord(w, t);
    assert (w + t)[..|w|] == w && (w + t)[|w|..] == t;
  }

  lemma {:induction false} WordLenOfWord(w: string, t: string)
    requires forall i :: 0 <= i < |w| ==> !IsSpace(w[i])
    requires t == [] || IsSpace(t[0])
    ensures WordLen(w + t) == |w|
  {
    if w == [] {
      assert w + t == t;
    } else {
      assert (w + t)[1..] == w[1..] + t;
      WordLenOfWord(w[1..], t);
    }
  }

  /** Leading whitespace yields no word. */
  lemma {:induction false} WordsOfSpaces(sep: string, u: string)
    requires forall i :: 0 <= i < |sep| ==> IsSpace(sep[i])
    ensures Words(sep + u) == Words(u)
  {
    if sep == [] {
      assert sep + u == u;
    } else {
      assert (sep + u)[1..] == sep[1..] + u;
      WordsOfSpaces(sep[1..], u);
    }
  }

  lemma {:induction false} AllSpaceOfNoText(s: string)
    requires DropSpaces(s) == []
    ensures forall i :: 0 <= i < |s| ==> IsSpace(s[i])
  {
    if s != [] {
      AllSpaceOfNoText(s[1..]);
    }
  }

  /** A blank text (`not text.strip()`) has no words, lower-cased or not. */
  lemma BlankHasNoWords(t: string)
    requires Strip(t) == []
    ensures Words(Lower(t)) == []
  {
    StripKeepsText(t);
    AllSpaceOfNoText(t);
    forall i | 0 <= i < |t|
      ensures IsSpace(Lower(t)[i])
    {
      LowerCharSpace(t[i]);
    }
    DropSpacesAllSpace(Lower(t));
    WordsMeaning(Lower(t));
  }

  // ------------------------------------------------------------------
  // score_text
  // ------------------------------------------------------------------

  /** `set(kw.lower() for kw in keywords)` */
  function KeywordSet(keywords: seq<string>): set<string>
  {
    set k | k in keywords :: Lower(k)
  }

  /** `set(text.lower().split())` */
  function WordSet(t: string): set<string>
  {
    set w | w in Words(Lower(t))
  }

  /** `score_text`: 0 for a missing or blank text, else the keyword overlap capped at 5. */
  function Score(keywords: seq<string>, text: Option<string>): (r: nat)
    ensures r <= 5
    ensures text.None? ==> r == 0
  {
    if text.None? || Strip(text.value) == [] then 0
    else
      var overlap := |KeywordSet(keywords) * WordSet(text.value)|;
      if overlap < 5 then overlap else 5
  }

  /**
   * The blank-text guard never changes the score: a text scores the capped
   * overlap, and it scores above 0 exactly when one of its words is a keyword.
   */
  lemma ScoreMeaning(keywords: seq<string>, t: string)
    ensures var overlap := |KeywordSet(keywords) * WordSet(t)|;
      Score(keywords, Some(t)) == if overlap < 5 then overlap else 5
    ensures Score(keywords, Some(t)) > 0 <==> exists w :: w in Words(Lower(t)) && w in KeywordSet(keywords)
  {
    if Strip(t) == [] {
      BlankHasNoWords(t);
      assert KeywordSet(keywords) * WordSet(t) == {};
    }
    if exists w :: w in Words(Lower(t)) && w in KeywordSet(keywords) {
      var w :| w in Words(Lower(t)) && w in KeywordSet(keywords);
      assert w in KeywordSet(keywords) * WordSet(t);
    } else {
      assert KeywordSet(keywords) * WordSet(t) == {};
    }
  }

  /** A keyword that is empty or holds whitespace never matches: words have neither. */
  lemma KeywordWithSpaceNeverMatches(keywords: seq<string>, t: string, k: string)
    requires k in keywords && !IsWord(Lower(k))
    ensures Lower(k) !in WordSet(t)
  {
    WordsMeaning(Lower(t));
  }

  // ------------------------------------------------------------------
  // _retrive_information_from_table
  // ------------------------------------------------------------------

  /** `df["score"] > 0` for one row. */
  function ScoresAbove0(keywords: seq<string>): Row -> bool
  {
    (row: Row) => Score(keywords, row.cleanedText) > 0
  }

  /** `df[df["score"] > 0]["cleaned_text"]`, in row order. */
  function Candidates(keywords: seq<string>, rows: seq<Row>): (r: seq<string>)
    ensures forall i :: 0 <= i < |r| ==> Score(keywords, Some(r[i])) > 0
  {
    var kept := Filter(rows, ScoresAbove0(keywords));
    seq(|kept|, i requires 0 <= i < |kept| => kept[i].cleanedText.value)
  }

  /**
   * The candidates by position: `idx` lists, in increasing order, exactly
   * the rows whose text scores above 0, and the candidates are those rows'
   * texts in that order.
   */
  lemma CandidatesPositions(keywords: seq<string>, rows: seq<Row>) returns (idx: seq<nat>)
    ensures |idx| == |Candidates(keywords, rows)|
    ensures forall j :: 0 <= j < |idx| ==>
      idx[j] < |rows| && rows[idx[j]].cleanedText == Some(Candidates(keywords, rows)[j])
    ensures Increasing(idx)
    ensures forall i :: 0 <= i < |rows| && Score(keywords, rows[i].cleanedText) > 0 ==> i in idx
  {
    idx := FilterPositions(rows, ScoresAbove0(keywords));
  }

  function ScoreKey(keywords: seq<string>): string -> int
  {
    t => Score(keywords, Some(t))
  }

  /** Best first: scores never increase along the sequence. */
  predicate SortedDesc(s: seq<string>, key: string -> int)
  {
    forall i, j :: 0 <= i < j < |s| ==> key(s[i]) >= key(s[j])
  }

  lemma ConsSorted(x: string, s: seq<string>, key: string -> int)
    requires SortedDesc(s, key)
    requires s == [] || key(x) >= key(s[0])
    ensures SortedDesc([x] + s, key)
  {
    var r := [x] + s;
    forall i, j | 0 <= i < j < |r|
      ensures key(r[i]) >= key(r[j])
    {
      assert r[j] == s[j - 1];
      if i > 0 {
        assert r[i] == s[i - 1];
      } else if j > 1 {
        assert key(s[0]) >= key(s[j - 1]);
      }
    }
  }

  /** Insert `x` in front of the first element that ranks below it. */
  ghost function InsertDesc(x: string, s: seq<string>, key: string -> int): (r: seq<string>)
    requires SortedDesc(s, key)
    ensures SortedDesc(r, key)
    ensures multiset(r) == multiset(s) + multiset{x}
    ensures r[0] == x || (s != [] && r[0] == s[0])
  {
    if s == [] then [x]
    else if key(s[0]) < key(x) then
      ConsSorted(x, s, key);
      [x] + s
    else
      assert s == [s[0]] + s[1..];
      var rest := InsertDesc(x, s[1..], key);
      assert rest[0] == x || key(s[0]) >= key(rest[0]);
      ConsSorted(s[0], rest, key);
      [s[0]] + rest
  }

  /** An insertion sort: a best-first ordering always exists. */
  ghost function SortDesc(s: seq<string>, key: string -> int): (r: seq<string>)
    ensures SortedDesc(r, key)
    ensures multiset(r) == multiset(s)
  {
    if s == [] then []
    else
      assert s == [s[0]] + s[1..];
      InsertDesc(s[0], SortDesc(s[1..], key), key)
  }

  /**
   * The first `m` of a best-first ordering: nothing outside them ranks
   * above the last of them.
   */
  lemma HeadOfRanking(ranked: seq<string>, m: nat, key: string -> int)
    requires SortedDesc(ranked, key) && 0 < m <= |ranked|
    ensures forall t :: t in ranked && key(t) > key(ranked[m - 1]) ==> multiset(ranked[..m])[t] == multiset(ranked)[t]
  {
    assert ranked == ranked[..m] + ranked[m..];
    forall t | t in ranked && key(t) > key(ranked[m - 1])
      ensures multiset(ranked[..m])[t] == multiset(ranked)[t]
    {
      assert multiset(ranked[m..])[t] == 0;
    }
  }

  lemma HeadSorted(ranked: seq<string>, m: nat, key: string -> int)
    requires SortedDesc(ranked, key) && m <= |ranked|
    ensures SortedDesc(ranked[..m], key)
    ensures multiset(ranked[..m]) <= multiset(ranked)
  {
    assert ranked == ranked[..m] + ranked[m..];
  }

  /**
   * `sort_values(key, ascending=False).head(n)`: the pool in some
   * best-first order (ties in any order: the sort is not stable), cut to
   * the first `n`.
   */
  method TopN(pool: seq<string>, key: string -> int, n: nat) returns (top: seq<string>)
    ensures |top| == if |pool| < n then |pool| else n
    ensures SortedDesc(top, key)
    ensures multiset(top) <= multiset(pool)
    ensures |pool| <= n ==> multiset(top) == multiset(pool)
    ensures |top| > 0 ==> forall t :: t in pool && key(t) > key(top[|top| - 1]) ==> multiset(top)[t] == multiset(pool)[t]
  {
    ghost var bestFirst := SortDesc(pool, key);
    var ranked :| multiset(ranked) == multiset(pool) && SortedDesc(ranked, key);
    var m := if |ranked| < n then |ranked| else n;
    top := ranked[..m];
    HeadSorted(ranked, m, key);
    if m > 0 {
      HeadOfRanking(ranked, m, key);
    }
    if |pool| <= n {
      assert top == ranked;
    }
  }

  /**
   * What `_retrive_information_from_table` may return: texts that score
   * above 0, best first, `min(n, #candidates)` of them drawn from the
   * candidates; all candidates when they fit, and none left out that
   * outranks the last one taken.
   */
  ghost predicate IsRetrieval(keywords: seq<string>, rows: seq<Row>, n: nat, texts: seq<string>)
  {
    var pool := Candidates(keywords, rows);
    && |texts| == (if |pool| < n then |pool| else n)
    && (forall i :: 0 <= i < |texts| ==> Score(keywords, Some(texts[i])) > 0)
    && (forall i, j :: 0 <= i < j < |texts| ==> Score(keywords, Some(texts[i])) >= Score(keywords, Some(texts[j])))
    && multiset(texts) <= multiset(pool)
    && (|pool| <= n ==> multiset(texts) == multiset(pool))
    && (|texts| > 0 ==> forall t ::
          t in pool && Score(keywords, Some(t)) > Score(keywords, Some(texts[|texts| - 1])) ==>
            multiset(texts)[t] == multiset(pool)[t])
  }

  /** `_retrive_information_from_table(keywords, table, n)` */
  method Retrieve(keywords: seq<string>, rows: seq<Row>, n: nat) returns (texts: seq<string>)
    ensures IsRetrieval(keywords, rows, n, texts)
  {
    var pool := Candidates(keywords, rows);
    texts := TopN(pool, ScoreKey(keywords), n);
    forall i | 0 <= i < |texts|
      ensures Score(keywords, Some(texts[i])) > 0
    {
      assert texts[i] in multiset(pool);
    }
  }
}

=== FILE: tables.dfy ===
/**
 * A parsed message table as the pipelines read it back from its CSV file:
 * one record per message, with `None` for an empty cell (pandas' `NaN`).
 */
module Tables {
  import opened Common

  /**
   * One row of a media table. Channel tables have no sender columns; their
   * rows carry `None` there and their table says so.
   */
  datatype Row = Row(
    messageId: int,
    date: Option<string>,
    cleanedText: Option<string>,
    reactions: Option<string>,
    senderName: Option<string>,
    senderId: Option<string>)

  datatype Table = Table(hasSenderColumns: bool, rows: seq<Row>)

  /** A row of `metadata.csv`: the media's Telegram id, its name, `channel` or `group`, and its messages file. */
  datatype MetaRow = MetaRow(id: int, name: string, kind: string, messages: string)

  /** How an f-string renders a cell: an empty cell reads back as the float `nan`. */
  function Show(cell: Option<string>): string
  {
    if cell.Some? then cell.value else "nan"
  }

  /** `values[0]` on an empty selection: the `IndexError` that a code missing from the metadata raises. */
  const MissingCodeMessage := "index 0 is out of bounds for axis 0 with size 0"

  /**
   * `meta_data[meta_data['id'] == code].values[0]`: the first metadata row
   * with that id, if any.
   */
  function Lookup(catalog: seq<MetaRow>, code: int): (r: Option<MetaRow>)
    ensures r.None? <==> forall i :: 0 <= i < |catalog| ==> catalog[i].id != code
    ensures r.Some? ==> r.value in catalog && r.value.id == code
  {
    if catalog == [] then None
    else if catalog[0].id == code then Some(catalog[0])
    else Lookup(catalog[1..], code)
  }

  /** The row found is the first one with the id. */
  lemma {:induction false} LookupFirst(catalog: seq<MetaRow>, code: int, i: nat)
    requires i < |catalog| && catalog[i].id == code
    requires forall j :: 0 <= j < i ==> catalog[j].id != code
    ensures Lookup(catalog, code) == Some(catalog[i])
  {
    if i > 0 {
      LookupFirst(catalog[1..], code, i - 1);
    }
  }

  /** `get_media_table_from_code(code)`: the table in the messages file of the first metadata row with that id; `readTable` stands for `pd.read_csv`. */
  function MediaTable(catalog: seq<MetaRow>, readTable: string -> Table, code: int): (r: Result<Table, string>)
    ensures r.Err? <==> Lookup(catalog, code).None?
    ensures r.Err? ==> r.error == MissingCodeMessage
    ensures r.Ok? ==> r.value == readTable(Lookup(catalog, code).value.messages)
  {
    var meta := Lookup(catalog, code);
    if meta.None? then Err(MissingCodeMessage) else Ok(readTable(meta.value.messages))
  }
}

=== FILE: text_utils.dfy ===
/**
 * The text helpers of the message cleaner: Arabic-to-Persian letter
 * normalisation, newline collapsing, empty-line removal, the first digit,
 * counting Persian letters, and the padding of short parenthesised
 * abbreviations and of numbers with spaces.
 */
module TextUtils {
  import opened Common

  // ------------------------------------------------------------------
  // Character classes (Python's `str.isspace`, `str.splitlines`, `\d`,
  // `str.isdigit`), restricted to the scripts the messages use.
  // ------------------------------------------------------------------

  /** `c.isspace()` */
  predicate IsSpace(c: char)
  {
    || '\t' <= c <= '\r'
    || '\U{001C}' <= c <= '\U{001F}'
    || c == ' ' || c == '\U{0085}' || c == '\U{00A0}' || c == '\U{1680}'
    || '\U{2000}' <= c <= '\U{200A}'
    || c == '\U{2028}' || c == '\U{2029}' || c == '\U{202F}' || c == '\U{205F}' || c == '\U{3000}'
  }

  /** The characters at which `str.splitlines` breaks. */
  predicate IsLineBoundary(c: char)
  {
    || c == '\n' || c == '\r' || c == '\U{000B}' || c == '\U{000C}'
    || '\U{001C}' <= c <= '\U{001E}'
    || c == '\U{0085}' || c == '\U{2028}' || c == '\U{2029}'
  }

  /** `\d` in a `str` pattern: ASCII, Arabic-Indic and Persian (Extended Arabic-Indic) digits. */
  predicate IsDecimalDigit(c: char)
  {
    '0' <= c <= '9' || '\U{0660}' <= c <= '\U{0669}' || '\U{06F0}' <= c <= '\U{06F9}'
  }

  /** `c.isdigit()`: the decimal digits and the Latin-1 superscripts. */
  predicate IsDigit(c: char)
  {
    IsDecimalDigit(c) || c == '\U{00B2}' || c == '\U{00B3}' || c == '\U{00B9}'
  }

  /** The string with every occurrence of `c` removed. */
  function DropChar(s: string, c: char): (r: string)
    ensures |r| <= |s|
  {
    if s == [] then [] else (if s[0] == c then [] else [s[0]]) + DropChar(s[1..], c)
  }

  lemma {:induction false} DropCharAppend(a: string, b: string, c: char)
    ensures DropChar(a + b, c) == DropChar(a, c) + DropChar(b, c)
  {
    if a != [] {
      assert (a + b)[1..] == a[1..] + b;
      DropCharAppend(a[1..], b, c);
    } else {
      assert a + b == b;
    }
  }

  /** Dropping `c` from `c + a + c + b` drops the two added copies. */
  lemma DropCharSurround(a: string, b: string, c: char)
    ensures DropChar([c] + a + [c] + b, c) == DropChar(a, c) + DropChar(b, c)
  {
    var x := [c] + a;
    var t := [c] + b;
    assert x[1..] == a && t[1..] == b;
    assert [c] + a + [c] + b == x + t;
    DropCharAppend(x, t, c);
  }

  /** The string with every whitespace character removed. */
  function DropSpaces(s: string): (r: string)
    ensures |r| <= |s|
  {
    if s == [] then [] else (if IsSpace(s[0]) then [] else [s[0]]) + DropSpaces(s[1..])
  }

  lemma {:induction false} DropSpacesAppend(a: string, b: string)
    ensures DropSpaces(a + b) == DropSpaces(a) + DropSpaces(b)
  {
    if a != [] {
      assert (a + b)[1..] == a[1..] + b;
      DropSpacesAppend(a[1..], b);
    } else {
      assert a + b == b;
    }
  }

  /** Dropping whitespace from `" " + a + " " + b` drops the two added spaces. */
  lemma DropSpacesSurround(a: string, b: string)
    ensures DropSpaces(" " + a + " " + b) == DropSpaces(a) + DropSpaces(b)
  {
    var x := " " + a;
    var t := " " + b;
    assert x[1..] == a && t[1..] == b;
    assert " " + a + " " + b == x + t;
    DropSpacesAppend(x, t);
  }

  /** A piece padded with spaces, before a rest that keeps its text, keeps the text of the piece and the rest. */
  lemma PaddedPieceKeepsText(piece: string, rest: string, padded: string)
    requires DropSpaces(padded) == DropSpaces(rest)
    ensures DropSpaces(" " + piece + " " + padded) == DropSpaces(piece + rest)
  {
    DropSpacesSurround(piece, padded);
    DropSpacesAppend(piece, rest);
  }

  /** A piece kept as it is, before a rest that keeps its text, keeps the text of the piece and the rest. */
  lemma KeptPieceKeepsText(piece: string, rest: string, padded: string)
    requires DropSpaces(padded) == DropSpaces(rest)
    ensures DropSpaces(piece + padded) == DropSpaces(piece + rest)
  {
    DropSpacesAppend(piece, padded);
    DropSpacesAppend(piece, rest);
  }

  lemma {:induction false} DropSpacesAllSpace(s: string)
    requires forall i :: 0 <= i < |s| ==> IsSpace(s[i])
    ensures DropSpaces(s) == []
  {
    if s != [] {
      DropSpacesAllSpace(s[1..]);
    }
  }

  // ------------------------------------------------------------------
  // normalize_persian_sentence
  // ------------------------------------------------------------------

  /** The normalisation table in its insertion order: Arabic forms to Persian ones, hamza deleted, `?` to the Arabic question mark. */
  const NormalizationTable: seq<(char, string)> := [
    ('\U{064A}', "\U{06CC}"),
    ('\U{0643}', "\U{06A9}"),
    ('\U{0629}', "\U{0647}"),
    ('\U{06C0}', "\U{0647}"),
    ('\U{0649}', "\U{06CC}"),
    ('\U{0624}', "\U{0648}"),
    ('\U{0625}', "\U{0627}"),
    ('\U{0623}', "\U{0627}"),
    ('\U{0621}', ""),
    ('?', "\U{061F}")
  ]

  const Hamza: char := '\U{0621}'

  /** Index of the first table entry at or after `k` whose key is `c`, or the table size. */
  function KeyIndexFrom(c: char, k: nat): (r: nat)
    requires k <= |NormalizationTable|
    ensures k <= r <= |NormalizationTable|
    ensures r < |NormalizationTable| ==> NormalizationTable[r].0 == c
    ensures forall j :: k <= j < r ==> NormalizationTable[j].0 != c
    decreases |NormalizationTable| - k
  {
    if k == |NormalizationTable| then k
    else if NormalizationTable[k].0 == c then k
    else KeyIndexFrom(c, k + 1)
  }

  function KeyIndex(c: char): (r: nat)
    ensures r <= |NormalizationTable|
  {
    KeyIndexFrom(c, 0)
  }

  predicate IsNormalizationKey(c: char)
  {
    || c == '\U{064A}' || c == '\U{0643}' || c == '\U{0629}' || c == '\U{06C0}' || c == '\U{0649}'
    || c == '\U{0624}' || c == '\U{0625}' || c == '\U{0623}' || c == '\U{0621}' || c == '?'
  }

  /** The keys are exactly the characters the table has an entry for. */
  lemma KeyIndexFindsKeys(c: char)
    ensures KeyIndex(c) < |NormalizationTable| <==> IsNormalizationKey(c)
  {
    if KeyIndex(c) == |NormalizationTable| {
      assert forall j :: 0 <= j < |NormalizationTable| ==> NormalizationTable[j].0 != c;
      assert NormalizationTable[0].0 != c && NormalizationTable[1].0 != c && NormalizationTable[2].0 != c;
      assert NormalizationTable[3].0 != c && NormalizationTable[4].0 != c && NormalizationTable[5].0 != c;
      assert NormalizationTable[6].0 != c && NormalizationTable[7].0 != c && NormalizationTable[8].0 != c;
      assert NormalizationTable[9].0 != c;
    }
  }

  /** No replacement text contains a key: the table cannot chain. */
  lemma ValuesAreNotKeys()
    ensures forall k, i :: 0 <= k < |NormalizationTable| && 0 <= i < |NormalizationTable[k].1| ==>
      !IsNormalizationKey(NormalizationTable[k].1[i])
  {
    forall k, i | 0 <= k < |NormalizationTable| && 0 <= i < |NormalizationTable[k].1|
      ensures !IsNormalizationKey(NormalizationTable[k].1[i])
    {
    }
  }

  /** What one character becomes under the table. */
  function NormalizeChar(c: char): (r: string)
    ensures |r| <= 1
    ensures forall i :: 0 <= i < |r| ==> !IsNormalizationKey(r[i])
  {
    ValuesAreNotKeys();
    KeyIndexFindsKeys(c);
    var k := KeyIndex(c);
    if k < |NormalizationTable| then NormalizationTable[k].1 else [c]
  }

  /** The reference meaning of normalisation: every character replaced by its image. */
  function NormalizeChars(s: string): (r: string)
    ensures |r| <= |s|
    ensures forall i :: 0 <= i < |r| ==> !IsNormalizationKey(r[i])
  {
    if s == [] then [] else NormalizeChar(s[0]) + NormalizeChars(s[1..])
  }

  /** `s.replace(key, value)` for a one-character `key`. */
  function ReplaceChar(s: string, key: char, value: string): string
  {
    if s == [] then [] else (if s[0] == key then value else [s[0]]) + ReplaceChar(s[1..], key, value)
  }

  lemma {:induction false} ReplaceCharAppend(a: string, b: string, key: char, value: string)
    ensures ReplaceChar(a + b, key, value) == ReplaceChar(a, key, value) + ReplaceChar(b, key, value)
  {
    if a == [] {
      assert a + b == b;
    } else {
      assert (a + b)[1..] == a[1..] + b;
      ReplaceCharAppend(a[1..], b, key, value);
    }
  }

  lemma {:induction false} ReplaceCharAbsent(s: string, key: char, value: string)
    requires key !in s
    ensures ReplaceChar(s, key, value) == s
  {
    if s != [] {
      ReplaceCharAbsent(s[1..], key, value);
      assert [s[0]] + s[1..] == s;
    }
  }

  /** The first `n` passes of the source's loop over the table. */
  function TableFold(s: string, n: nat): string
    requires n <= |NormalizationTable|
  {
    if n == 0 then s
    else ReplaceChar(TableFold(s, n - 1), NormalizationTable[n - 1].0, NormalizationTable[n - 1].1)
  }

  lemma {:induction false} TableFoldAppend(a: string, b: string, n: nat)
    requires n <= |NormalizationTable|
    ensures TableFold(a + b, n) == TableFold(a, n) + TableFold(b, n)
  {
    if n > 0 {
      TableFoldAppend(a, b, n - 1);
      ReplaceCharAppend(TableFold(a, n - 1), TableFold(b, n - 1), NormalizationTable[n - 1].0, NormalizationTable[n - 1].1);
    }
  }

  lemma {:induction false} TableFoldOneChar(c: char, n: nat)
    requires n <= |NormalizationTable|
    ensures TableFold([c], n) == if KeyIndex(c) < n then NormalizationTable[KeyIndex(c)].1 else [c]
  {
    if n > 0 {
      TableFoldOneChar(c, n - 1);
      var k := KeyIndex(c);
      var prev := TableFold([c], n - 1);
      var entry := NormalizationTable[n - 1];
      if k < n - 1 {
        ValuesAreNotKeys();
        KeyIndexFindsKeys(entry.0);
        assert entry.0 !in prev;
        ReplaceCharAbsent(prev, entry.0, entry.1);
      } else if k == n - 1 {
        assert ReplaceChar([c], entry.0, entry.1) == entry.1 + ReplaceChar([], entry.0, entry.1);
      } else {
        assert ReplaceChar([c], entry.0, entry.1) == [c] + ReplaceChar([], entry.0, entry.1);
      }
    }
  }

  /** Running the whole table in order is the same as mapping each character once. */
  lemma {:induction false} TableFoldIsPerChar(s: string)
    ensures TableFold(s, |NormalizationTable|) == NormalizeChars(s)
  {
    if s == [] {
      TableFoldEmpty(|NormalizationTable|);
    } else {
      assert s == [s[0]] + s[1..];
      TableFoldAppend([s[0]], s[1..], |NormalizationTable|);
      TableFoldOneChar(s[0], |NormalizationTable|);
      TableFoldIsPerChar(s[1..]);
    }
  }

  lemma {:induction false} TableFoldEmpty(n: nat)
    requires n <= |NormalizationTable|
    ensures TableFold([], n) == []
  {
    if n > 0 {
      TableFoldEmpty(n - 1);
    }
  }

  /** normalize_persian_sentence: one `replace` pass per table entry, in table order. */
  method NormalizePersianSentence(sentence: string) returns (r: string)
    ensures r == NormalizeChars(sentence)
  {
    r := sentence;
    var k := 0;
    while k < |NormalizationTable|
      invariant 0 <= k <= |NormalizationTable|
      invariant r == TableFold(sentence, k)
    {
      var (key, value) := NormalizationTable[k];
      r := ReplaceChar(r, key, value);
      k := k + 1;
    }
    TableFoldIsPerChar(sentence);
  }

  /** Text that holds no key is left as it is. */
  lemma {:induction false} NormalizeCharsFixpoint(s: string)
    requires forall i :: 0 <= i < |s| ==> !IsNormalizationKey(s[i])
    ensures NormalizeChars(s) == s
  {
    if s != [] {
      NormalizeCharsFixpoint(s[1..]);
      assert [s[0]] + s[1..] == s;
    }
  }

  /** Normalising twice is normalising once. */
  lemma NormalizeIdempotent(s: string)
    ensures NormalizeChars(NormalizeChars(s)) == NormalizeChars(s)
  {
    NormalizeCharsFixpoint(NormalizeChars(s));
  }

  function CountChar(s: string, c: char): (n: nat)
    ensures n <= |s|
  {
    if s == [] then 0 else (if s[0] == c then 1 else 0) + CountChar(s[1..], c)
  }

  /** Only the hamza disappears; every other character maps to exactly one character. */
  lemma {:induction false} NormalizeLength(s: string)
    ensures |NormalizeChars(s)| == |s| - CountChar(s, Hamza)
  {
    if s != [] {
      NormalizeLength(s[1..]);
      var k := KeyIndex(s[0]);
      if k < |NormalizationTable| {
        assert |NormalizationTable[k].1| == if k == 8 then 0 else 1;
      }
      assert s[0] == Hamza <==> k == 8;
    }
  }

  // ------------------------------------------------------------------
  // remove_extra_newlines: every run of '\n' becomes one '\n'
  // ------------------------------------------------------------------

  predicate NoDoubleNewline(s: string)
  {
    forall i :: 0 <= i < |s| - 1 ==> !(s[i] == '\n' && s[i + 1] == '\n')
  }

  function RemoveExtraNewlines(s: string): (r: string)
    ensures |r| <= |s|
    ensures |s| > 0 ==> |r| > 0 && r[0] == s[0]
    ensures NoDoubleNewline(r)
  {
    if s == [] then []
    else if |s| >= 2 && s[0] == '\n' && s[1] == '\n' then RemoveExtraNewlines(s[1..])
    else [s[0]] + RemoveExtraNewlines(s[1..])
  }

  /** A string with no newline run is its own collapse. */
  lemma {:induction false} RemoveExtraNewlinesFixpoint(s: string)
    requires NoDoubleNewline(s)
    ensures RemoveExtraNewlines(s) == s
  {
    if s != [] {
      RemoveExtraNewlinesFixpoint(s[1..]);
      assert [s[0]] + s[1..] == s;
    }
  }

  lemma RemoveExtraNewlinesIdempotent(s: string)
    ensures RemoveExtraNewlines(RemoveExtraNewlines(s)) == RemoveExtraNewlines(s)
  {
    RemoveExtraNewlinesFixpoint(RemoveExtraNewlines(s));
  }

  /** Only newlines are removed, and a newline survives wherever one was. */
  lemma {:induction false} RemoveExtraNewlinesKeepsText(s: string)
    ensures DropChar(RemoveExtraNewlines(s), '\n') == DropChar(s, '\n')
    ensures '\n' in RemoveExtraNewlines(s) <==> '\n' in s
  {
    if s != [] {
      RemoveExtraNewlinesKeepsText(s[1..]);
      var r := RemoveExtraNewlines(s);
      if |s| >= 2 && s[0] == '\n' && s[1] == '\n' {
        assert s[1] in s[1..];
      } else {
        assert r == [s[0]] + RemoveExtraNewlines(s[1..]);
        assert s == [s[0]] + s[1..];
        assert '\n' in r <==> s[0] == '\n' || '\n' in RemoveExtraNewlines(s[1..]);
        assert '\n' in s <==> s[0] == '\n' || '\n' in s[1..];
      }
    }
  }

  /** Position `i` of `s` holds a newline that another newline follows: not the last of its run. */
  predicate NewlineBeforeNewline(s: string, i: nat)
  {
    i + 1 < |s| && s[i] == '\n' && s[i + 1] == '\n'
  }

  /** The positions the collapse keeps, built like `RemoveExtraNewlines`. */
  function KeptByCollapse(s: string): (r: seq<nat>)
    ensures |r| == |RemoveExtraNewlines(s)|
  {
    if s == [] then []
    else (if NewlineBeforeNewline(s, 0) then [] else [0]) + Shifted(KeptByCollapse(s[1..]))
  }

  lemma {:induction false} KeptByCollapseIndex(s: string)
    ensures forall j :: 0 <= j < |KeptByCollapse(s)| ==>
      KeptByCollapse(s)[j] < |s| && !NewlineBeforeNewline(s, KeptByCollapse(s)[j])
      && RemoveExtraNewlines(s)[j] == s[KeptByCollapse(s)[j]]
  {
    if s != [] {
      var rest := KeptByCollapse(s[1..]);
      KeptByCollapseIndex(s[1..]);
      var shifted := Shifted(rest);
      var tail := RemoveExtraNewlines(s[1..]);
      CollapseTailIndex(s, rest);
      if NewlineBeforeNewline(s, 0) {
        assert KeptByCollapse(s) == shifted && RemoveExtraNewlines(s) == tail;
      } else {
        KeptAtFront(s, shifted, tail);
      }
    }
  }

  /** Keeping the first character puts position 0 in front of the tail's kept positions. */
  lemma KeptAtFront(s: string, shifted: seq<nat>, tail: string)
    requires s != [] && !NewlineBeforeNewline(s, 0)
    requires shifted == Shifted(KeptByCollapse(s[1..])) && tail == RemoveExtraNewlines(s[1..])
    requires forall j :: 0 <= j < |shifted| ==>
      shifted[j] < |s| && !NewlineBeforeNewline(s, shifted[j]) && tail[j] == s[shifted[j]]
    ensures forall j :: 0 <= j < |KeptByCollapse(s)| ==>
      KeptByCollapse(s)[j] < |s| && !NewlineBeforeNewline(s, KeptByCollapse(s)[j])
      && RemoveExtraNewlines(s)[j] == s[KeptByCollapse(s)[j]]
  {
    var idx, r := KeptByCollapse(s), RemoveExtraNewlines(s);
    assert idx == [0] + shifted;
    assert r == [s[0]] + tail;
    forall j | 1 <= j < |idx|
      ensures idx[j] == shifted[j - 1] && r[j] == tail[j - 1]
    {
    }
  }

  lemma {:induction false} KeptByCollapseIncreasing(s: string)
    ensures Increasing(KeptByCollapse(s))
  {
    if s != [] {
      KeptByCollapseIncreasing(s[1..]);
      ShiftedIncreasing(KeptByCollapse(s[1..]));
    }
  }

  lemma {:induction false} KeptByCollapseComplete(s: string)
    ensures forall i :: 0 <= i < |s| && !NewlineBeforeNewline(s, i) ==> i in KeptByCollapse(s)
  {
    if s != [] {
      var rest := KeptByCollapse(s[1..]);
      KeptByCollapseComplete(s[1..]);
      CollapseTailComplete(s, rest);
      var shifted := Shifted(rest);
      var idx := KeptByCollapse(s);
      if !NewlineBeforeNewline(s, 0) {
        assert idx == [0] + shifted;
        forall i | 0 < i < |s| && !NewlineBeforeNewline(s, i)
          ensures i in idx
        {
          var m :| 0 <= m < |shifted| && shifted[m] == i;
          assert idx[m + 1] == i;
        }
        assert idx[0] == 0;
      }
    }
  }

  /**
   * The collapse exactly: `idx` lists, in increasing order, every position
   * of `s` except those holding a newline another newline follows, and
   * the output is the characters at those positions. So each run of
   * newlines leaves exactly its last newline, and everything else stays.
   */
  lemma RemoveExtraNewlinesPositions(s: string) returns (idx: seq<nat>)
    ensures |idx| == |RemoveExtraNewlines(s)|
    ensures forall j :: 0 <= j < |idx| ==>
      idx[j] < |s| && !NewlineBeforeNewline(s, idx[j]) && RemoveExtraNewlines(s)[j] == s[idx[j]]
    ensures Increasing(idx)
    ensures forall i :: 0 <= i < |s| && !NewlineBeforeNewline(s, i) ==> i in idx
  {
    idx := KeptByCollapse(s);
    KeptByCollapseIndex(s);
    KeptByCollapseIncreasing(s);
    KeptByCollapseComplete(s);
  }

  /** The tail's kept positions, moved one place right, are kept positions of the whole. */
  lemma CollapseTailIndex(s: string, rest: seq<nat>)
    requires s != [] && |rest| == |RemoveExtraNewlines(s[1..])|
    requires forall j :: 0 <= j < |rest| ==>
      rest[j] < |s[1..]| && !NewlineBeforeNewline(s[1..], rest[j]) && RemoveExtraNewlines(s[1..])[j] == s[1..][rest[j]]
    ensures forall j :: 0 <= j < |rest| ==>
      Shifted(rest)[j] < |s| && !NewlineBeforeNewline(s, Shifted(rest)[j]) && RemoveExtraNewlines(s[1..])[j] == s[Shifted(rest)[j]]
  {
    forall j | 0 <= j < |rest|
      ensures !NewlineBeforeNewline(s, rest[j] + 1) && s[1..][rest[j]] == s[rest[j] + 1]
    {
      assert NewlineBeforeNewline(s[1..], rest[j]) == NewlineBeforeNewline(s, rest[j] + 1);
    }
  }

  lemma CollapseTailComplete(s: string, rest: seq<nat>)
    requires s != []
    requires forall i :: 0 <= i < |s[1..]| && !NewlineBeforeNewline(s[1..], i) ==> i in rest
    ensures forall i :: 0 < i < |s| && !NewlineBeforeNewline(s, i) ==> i in Shifted(rest)
  {
    forall i | 0 < i < |s| && !NewlineBeforeNewline(s, i)
      ensures i in Shifted(rest)
    {
      assert NewlineBeforeNewline(s[1..], i - 1) == NewlineBeforeNewline(s, i);
      var m :| 0 <= m < |rest| && rest[m] == i - 1;
      assert Shifted(rest)[m] == i;
    }
  }

  // ------------------------------------------------------------------
  // remove_empty_lines: splitlines, keep lines with a non-space, join with '\n'
  // ------------------------------------------------------------------

  /** Position of the first line boundary, or the length. */
  function LineEnd(s: string): (k: nat)
    ensures k <= |s|
    ensures forall i :: 0 <= i < k ==> !IsLineBoundary(s[i])
    ensures k < |s| ==> IsLineBoundary(s[k])
  {
    if s == [] || IsLineBoundary(s[0]) then 0 else 1 + LineEnd(s[1..])
  }

  predicate NoLineBoundary(line: string)
  {
    forall i :: 0 <= i < |line| ==> !IsLineBoundary(line[i])
  }

  /** `s.splitlines()`: "\r\n" is one boundary and a final boundary opens no new line. */
  function SplitLines(s: string): (lines: seq<string>)
    ensures forall j :: 0 <= j < |lines| ==> NoLineBoundary(lines[j])
    decreases |s|
  {
    if s == [] then []
    else
      var k := LineEnd(s);
      if k == |s| then [s]
      else
        var width := if s[k] == '\r' && k + 1 < |s| && s[k + 1] == '\n' then 2 else 1;
        [s[..k]] + SplitLines(s[k + width..])
  }

  predicate IsBlank(line: string)
  {
    forall i :: 0 <= i < |line| ==> IsSpace(line[i])
  }

  /** `line.strip()` is non-empty. */
  predicate HasText(line: string)
  {
    !IsBlank(line)
  }

  /** `[line for line in lines if line.strip()]` */
  function NonBlankLines(lines: seq<string>): (r: seq<string>)
    ensures |r| <= |lines|
    ensures forall j :: 0 <= j < |r| ==> !IsBlank(r[j]) && r[j] in lines
  {
    FilterMembers(lines, HasText);
    Filter(lines, HasText)
  }

  /**
   * The kept lines by position: `idx` lists, in increasing order, exactly
   * the positions of the lines that are not blank, and the output holds
   * those lines in that order.
   */
  lemma NonBlankLinesPositions(lines: seq<string>) returns (idx: seq<nat>)
    ensures |idx| == |NonBlankLines(lines)|
    ensures forall j :: 0 <= j < |idx| ==> idx[j] < |lines| && NonBlankLines(lines)[j] == lines[idx[j]]
    ensures Increasing(idx)
    ensures forall i :: 0 <= i < |lines| && !IsBlank(lines[i]) ==> i in idx
  {
    idx := FilterPositions(lines, HasText);
  }

  function RemoveEmptyLines(s: string): string
  {
    Join(NonBlankLines(SplitLines(s)), "\n")
  }

  /** Non-empty, boundary-free lines joined with '\n' split back into the same lines. */
  lemma {:induction false} SplitLinesJoin(lines: seq<string>)
    requires forall j :: 0 <= j < |lines| ==> |lines[j]| > 0 && NoLineBoundary(lines[j])
    ensures SplitLines(Join(lines, "\n")) == lines
  {
    if |lines| == 1 {
      LineEndOfLine(lines[0], []);
      assert lines[0] + [] == lines[0];
    } else if |lines| > 1 {
      var rest := Join(lines[1..], "\n");
      var s := Join(lines, "\n");
      var k := |lines[0]|;
      assert s == lines[0] + ("\n" + rest);
      LineEndOfLine(lines[0], "\n" + rest);
      assert s[..k] == lines[0] && s[k] == '\n' && s[k + 1..] == rest;
      SplitLinesAtNewline(s, k);
      SplitLinesJoin(lines[1..]);
      assert [lines[0]] + lines[1..] == lines;
    }
  }

  /** A line ended by a lone '\n' is split off, and the rest is split on its own. */
  lemma SplitLinesAtNewline(s: string, k: nat)
    requires k < |s| && LineEnd(s) == k && s[k] == '\n'
    ensures SplitLines(s) == [s[..k]] + SplitLines(s[k + 1..])
  {
  }

  lemma {:induction false} LineEndOfLine(line: string, t: string)
    requires NoLineBoundary(line)
    requires t == [] || IsLineBoundary(t[0])
    ensures LineEnd(line + t) == |line|
  {
    if line != [] {
      assert (line + t)[1..] == line[1..] + t;
      LineEndOfLine(line[1..], t);
    } else {
      assert line + t == t;
    }
  }

  lemma NonBlankLinesFixpoint(lines: seq<string>)
    requires forall j :: 0 <= j < |lines| ==> !IsBlank(lines[j])
    ensures NonBlankLines(lines) == lines
  {
    FilterAll(lines, HasText);
  }

  /**
   * The output's lines are exactly the input's non-blank lines, in order;
   * so every output line holds a non-space character, and the output neither
   * starts nor ends with a line break. Removing empty lines again changes nothing.
   */
  lemma RemoveEmptyLinesShape(s: string)
    ensures SplitLines(RemoveEmptyLines(s)) == NonBlankLines(SplitLines(s))
    ensures var r := RemoveEmptyLines(s); r == [] || (!IsLineBoundary(r[0]) && !IsLineBoundary(r[|r| - 1]))
    ensures RemoveEmptyLines(RemoveEmptyLines(s)) == RemoveEmptyLines(s)
  {
    var lines := NonBlankLines(SplitLines(s));
    var idx := NonBlankLinesPositions(SplitLines(s));
    forall j | 0 <= j < |lines|
      ensures |lines[j]| > 0 && NoLineBoundary(lines[j])
    {
      assert lines[j] == SplitLines(s)[idx[j]];
    }
    SplitLinesJoin(lines);
    JoinEnds(lines);
    NonBlankLinesFixpoint(lines);
  }

  lemma {:induction false} JoinEnds(lines: seq<string>)
    requires forall j :: 0 <= j < |lines| ==> |lines[j]| > 0 && NoLineBoundary(lines[j])
    ensures var r := Join(lines, "\n"); r == [] || (!IsLineBoundary(r[0]) && !IsLineBoundary(r[|r| - 1]))
  {
    if |lines| > 1 {
      JoinEnds(lines[1..]);
      var rest := Join(lines[1..], "\n");
      assert Join(lines, "\n") == lines[0] + "\n" + rest;
    }
  }

  // ------------------------------------------------------------------
  // find_first_digit
  // ------------------------------------------------------------------

  /** Position of the earliest digit, or the length when there is none. */
  function FirstDigitIndex(s: string): (k: nat)
    ensures k <= |s|
    ensures k < |s| ==> IsDigit(s[k])
    ensures forall j :: 0 <= j < k ==> !IsDigit(s[j])
  {
    if s == [] || IsDigit(s[0]) then 0 else 1 + FirstDigitIndex(s[1..])
  }

  method FindFirstDigit(s: string) returns (r: Option<char>)
    ensures r.None? <==> forall j :: 0 <= j < |s| ==> !IsDigit(s[j])
    ensures r.Some? ==> r == Some(s[FirstDigitIndex(s)])
  {
    var i := 0;
    while i < |s|
      invariant 0 <= i <= |s|
      invariant forall j :: 0 <= j < i ==> !IsDigit(s[j])
    {
      if IsDigit(s[i]) {
        return Some(s[i]);
      }
      i := i + 1;
    }
    return None;
  }

  // ------------------------------------------------------------------
  // count_persian_letters
  // ------------------------------------------------------------------

  /** The 32 letters of the Persian alphabet. */
  const PersianLetters: string :=
    "\U{0627}\U{0628}\U{067E}\U{062A}\U{062B}\U{062C}\U{0686}\U{062D}\U{062E}\U{062F}\U{0630}\U{0631}\U{0632}\U{0698}\U{0633}\U{0634}"
    + "\U{0635}\U{0636}\U{0637}\U{0638}\U{0639}\U{063A}\U{0641}\U{0642}\U{06A9}\U{06AF}\U{0644}\U{0645}\U{0646}\U{0648}\U{0647}\U{06CC}"

  function PersianLetterCount(s: string): (n: nat)
    ensures n <= |s|
  {
    if s == [] then 0
    else PersianLetterCount(s[..|s| - 1]) + (if s[|s| - 1] in PersianLetters then 1 else 0)
  }

  /** The count of a concatenation is the sum of the counts. */
  lemma {:induction false} PersianLetterCountAppend(a: string, b: string)
    ensures PersianLetterCount(a + b) == PersianLetterCount(a) + PersianLetterCount(b)
    decreases |b|
  {
    if b == [] {
      assert a + b == a;
    } else {
      var n := |b| - 1;
      assert (a + b)[..|a + b| - 1] == a + b[..n];
      PersianLetterCountAppend(a, b[..n]);
    }
  }

  method CountPersianLetters(text: string) returns (count: nat)
    ensures count == PersianLetterCount(text)
  {
    count := 0;
    var i := 0;
    while i < |text|
      invariant 0 <= i <= |text|
      invariant count == PersianLetterCount(text[..i])
    {
      assert text[..i + 1][..i] == text[..i];
      if text[i] in PersianLetters {
        count := count + 1;
      }
      i := i + 1;
    }
    assert text[..i] == text;
  }

  // ------------------------------------------------------------------
  // add_whitespace_around_holly_abbrev: `\([^\n]{1,2}\)` gets a space on each side
  // ------------------------------------------------------------------

  /** Length of the (greedy) match of `\([^\n]{1,2}\)` at the start of `s`, or 0. */
  function AbbrevMatchLen(s: string): (k: nat)
    ensures k == 0 || k == 3 || k == 4
    ensures k <= |s|
    ensures k > 0 ==> s[0] == '(' && s[k - 1] == ')'
  {
    if |s| >= 4 && s[0] == '(' && s[1] != '\n' && s[2] != '\n' && s[3] == ')' then 4
    else if |s| >= 3 && s[0] == '(' && s[1] != '\n' && s[2] == ')' then 3
    else 0
  }

  function PadAbbrev(s: string): (r: string)
    ensures |r| >= |s|
    decreases |s|
  {
    if s == [] then []
    else
      var k := AbbrevMatchLen(s);
      if k > 0 then " " + s[..k] + " " + PadAbbrev(s[k..])
      else [s[0]] + PadAbbrev(s[1..])
  }

  /** Only spaces are inserted: the other characters stay, in order. */
  lemma {:induction false} PadAbbrevKeepsText(s: string)
    ensures DropChar(PadAbbrev(s), ' ') == DropChar(s, ' ')
    decreases |s|
  {
    if s != [] {
      var k := AbbrevMatchLen(s);
      if k > 0 {
        PadAbbrevKeepsText(s[k..]);
        assert PadAbbrev(s) == " " + s[..k] + " " + PadAbbrev(s[k..]);
        DropCharSurround(s[..k], PadAbbrev(s[k..]), ' ');
        DropCharAppend(s[..k], s[k..], ' ');
        assert s[..k] + s[k..] == s;
      } else {
        PadAbbrevKeepsText(s[1..]);
        DropCharAppend([s[0]], PadAbbrev(s[1..]), ' ');
        DropCharAppend([s[0]], s[1..], ' ');
        assert [s[0]] + s[1..] == s;
      }
    }
  }

  /** A piece of the scan: one matched abbreviation (three or four characters) or one other character. */
  predicate IsAbbrevPiece(piece: string)
  {
    |piece| > 1
  }

  /** A matched abbreviation gets a space on each side; any other piece is copied. */
  function PadPiece(piece: string): string
  {
    if IsAbbrevPiece(piece) then " " + piece + " " else piece
  }

  function PadPieces(pieces: seq<string>): string
  {
    if pieces == [] then [] else PadPiece(pieces[0]) + PadPieces(pieces[1..])
  }

  /** Where piece `j` starts in the text the pieces make up. */
  function PieceStart(pieces: seq<string>, j: nat): nat
    requires j <= |pieces|
  {
    if j == 0 then 0 else |pieces[0]| + PieceStart(pieces[1..], j - 1)
  }

  lemma PieceStartCons(piece: string, rest: seq<string>, j: nat)
    requires j <= |rest|
    ensures PieceStart([piece] + rest, j + 1) == |piece| + PieceStart(rest, j)
  {
    assert ([piece] + rest)[1..] == rest;
  }

  /** At `start` the pattern matches exactly `piece`, or, for a one-character piece, not at all. */
  predicate ScanPieceAt(s: string, piece: string, start: nat)
  {
    && piece != []
    && start < |s|
    && AbbrevMatchLen(s[start..]) == if IsAbbrevPiece(piece) then |piece| else 0
  }

  /**
   * The scan of `add_whitespace_around_holly_abbrev`, left to right: `s` is
   * cut into pieces; at the start of each piece the pattern matches exactly
   * that piece, or (a one-character piece) does not match at all; the output
   * is the pieces in order, every match with a space on each side. So the
   * output is longer than the input by two spaces per match.
   */
  lemma PadAbbrevPieces(s: string) returns (pieces: seq<string>)
    ensures Concat(pieces) == s
    ensures forall j :: 0 <= j < |pieces| ==> ScanPieceAt(s, pieces[j], PieceStart(pieces, j))
    ensures PadAbbrev(s) == PadPieces(pieces)
    ensures |PadAbbrev(s)| == |s| + 2 * |Filter(pieces, IsAbbrevPiece)|
  {
    pieces := AbbrevScan(s);
    AbbrevScanConcat(s);
    AbbrevScanPieces(s);
    AbbrevScanPads(s);
  }

  /** The pieces of the scan, built like `PadAbbrev`. */
  function AbbrevScan(s: string): seq<string>
    decreases |s|
  {
    if s == [] then [] else var n := FirstPieceLen(s); [s[..n]] + AbbrevScan(s[n..])
  }

  lemma {:induction false} AbbrevScanConcat(s: string)
    ensures Concat(AbbrevScan(s)) == s
    decreases |s|
  {
    if s != [] {
      var n := FirstPieceLen(s);
      var pieces := AbbrevScan(s);
      AbbrevScanConcat(s[n..]);
      assert pieces[0] == s[..n] && pieces[1..] == AbbrevScan(s[n..]);
      assert s[..n] + s[n..] == s;
    }
  }

  lemma {:induction false} AbbrevScanPieces(s: string)
    ensures forall j :: 0 <= j < |AbbrevScan(s)| ==> ScanPieceAt(s, AbbrevScan(s)[j], PieceStart(AbbrevScan(s), j))
    decreases |s|
  {
    if s != [] {
      var n := FirstPieceLen(s);
      AbbrevScanPieces(s[n..]);
      PadAbbrevStep(s);
      ScanPiecesCons(s, n, AbbrevScan(s[n..]));
    }
  }

  lemma {:induction false} AbbrevScanPads(s: string)
    ensures PadAbbrev(s) == PadPieces(AbbrevScan(s))
    ensures |PadAbbrev(s)| == |s| + 2 * |Filter(AbbrevScan(s), IsAbbrevPiece)|
    decreases |s|
  {
    if s != [] {
      var n := FirstPieceLen(s);
      var pieces := AbbrevScan(s);
      AbbrevScanPads(s[n..]);
      PadAbbrevStep(s);
      assert pieces[0] == s[..n] && pieces[1..] == AbbrevScan(s[n..]);
    }
  }

  /** The scan's first piece followed by the scan of the rest is a scan of the whole. */
  lemma ScanPiecesCons(s: string, n: nat, rest: seq<string>)
    requires 1 <= n <= |s| && ScanPieceAt(s, s[..n], 0)
    requires forall j :: 0 <= j < |rest| ==> ScanPieceAt(s[n..], rest[j], PieceStart(rest, j))
    ensures var pieces := [s[..n]] + rest;
      forall j :: 0 <= j < |pieces| ==> ScanPieceAt(s, pieces[j], PieceStart(pieces, j))
  {
    var pieces := [s[..n]] + rest;
    forall j | 1 <= j < |pieces|
      ensures ScanPieceAt(s, pieces[j], PieceStart(pieces, j))
    {
      assert pieces[j] == rest[j - 1];
      ScanPieceShift(s, n, rest, j - 1);
      PieceStartCons(s[..n], rest, j - 1);
    }
  }

  /** The length of the scan's next piece: the match, or one character. */
  function FirstPieceLen(s: string): (n: nat)
    requires s != []
    ensures 1 <= n <= |s|
  {
    var k := AbbrevMatchLen(s);
    if k > 0 then k else 1
  }

  lemma PadAbbrevStep(s: string)
    requires s != []
    ensures var n := FirstPieceLen(s);
      && PadAbbrev(s) == PadPiece(s[..n]) + PadAbbrev(s[n..])
      && ScanPieceAt(s, s[..n], 0)
  {
    assert s[0..] == s;
  }

  lemma ScanPieceShift(s: string, n: nat, rest: seq<string>, j: nat)
    requires n <= |s| && j < |rest|
    requires ScanPieceAt(s[n..], rest[j], PieceStart(rest, j))
    ensures ScanPieceAt(s, rest[j], n + PieceStart(rest, j))
  {
    var p := PieceStart(rest, j);
    assert s[n + p..] == s[n..][p..];
  }

  /** Text without an opening parenthesis is unchanged. */
  lemma {:induction false} PadAbbrevNoParen(s: string)
    requires '(' !in s
    ensures PadAbbrev(s) == s
  {
    if s != [] {
      PadAbbrevNoParen(s[1..]);
      assert [s[0]] + s[1..] == s;
    }
  }

  lemma PadAbbrevExample()
    ensures PadAbbrev("a(s)b") == "a (s) b"
  {
    assert AbbrevMatchLen("(s)b") == 3;
    assert "(s)b"[3..] == "b";
    assert "(s)b"[..3] == "(s)";
    assert "a(s)b"[1..] == "(s)b";
  }

  // ------------------------------------------------------------------
  // add_whitespace_around_numbers: `(\d+\.\d+|\d+)` gets a space on each side, then strip()
  // ------------------------------------------------------------------

  /** Length of the maximal run of decimal digits at the start of `s`. */
  function DigitRun(s: string): (k: nat)
    ensures k <= |s|
    ensures forall i :: 0 <= i < k ==> IsDecimalDigit(s[i])
    ensures k < |s| ==> !IsDecimalDigit(s[k])
  {
    if s == [] || !IsDecimalDigit(s[0]) then 0 else 1 + DigitRun(s[1..])
  }

  /** Length of the match of `\d+\.\d+|\d+` at the start of `s`, or 0. */
  function NumberMatchLen(s: string): (k: nat)
    ensures k <= |s|
    ensures k > 0 <==> |s| > 0 && IsDecimalDigit(s[0])
  {
    var j := DigitRun(s);
    if j == 0 then 0
    else if j + 1 < |s| && s[j] == '.' && IsDecimalDigit(s[j + 1]) then j + 1 + DigitRun(s[j + 1..])
    else j
  }

  predicate IsPersianDigit(c: char) { '\U{06F0}' <= c <= '\U{06F9}' }

  /**
   * The pattern's second alternative, `(?<!\S)([۰-۹]+(٫[۰-۹]+)?)`, matches
   * at the start of `s`: `afterSpace` is its look-behind, and a match needs
   * a Persian digit first. It is only tried where the first alternative fails.
   */
  predicate PersianNumberStartsAt(s: string, afterSpace: bool)
  {
    afterSpace && s != [] && IsPersianDigit(s[0])
  }

  /** Every Persian digit is a `\d`, so the second alternative can never be the one that matches. */
  lemma PersianAlternativeUnreachable(s: string, afterSpace: bool)
    ensures PersianNumberStartsAt(s, afterSpace) ==> NumberMatchLen(s) > 0
  {
  }

  function PadNumbers(s: string): (r: string)
    ensures |r| >= |s|
    decreases |s|
  {
    if s == [] then []
    else
      var k := NumberMatchLen(s);
      if k > 0 then " " + s[..k] + " " + PadNumbers(s[k..])
      else [s[0]] + PadNumbers(s[1..])
  }

  lemma {:induction false} PadNumbersKeepsText(s: string)
    ensures DropSpaces(PadNumbers(s)) == DropSpaces(s)
    decreases |s|
  {
    if s != [] {
      var k := NumberMatchLen(s);
      if k > 0 {
        PadNumbersKeepsText(s[k..]);
        assert PadNumbers(s) == " " + s[..k] + " " + PadNumbers(s[k..]);
        assert s[..k] + s[k..] == s;
        PaddedPieceKeepsText(s[..k], s[k..], PadNumbers(s[k..]));
      } else {
        PadNumbersKeepsText(s[1..]);
        assert PadNumbers(s) == [s[0]] + PadNumbers(s[1..]);
        assert [s[0]] + s[1..] == s;
        KeptPieceKeepsText([s[0]], s[1..], PadNumbers(s[1..]));
      }
    }
  }

  /** A piece of the number scan is a match exactly when it starts with a digit; any other piece is one non-digit character. */
  predicate IsNumberPiece(piece: string)
  {
    piece != [] && IsDecimalDigit(piece[0])
  }

  /** A matched number gets a space on each side; any other piece is copied. */
  function PadNumberPiece(piece: string): string
  {
    if IsNumberPiece(piece) then " " + piece + " " else piece
  }

  function PadNumberPieces(pieces: seq<string>): string
  {
    if pieces == [] then [] else PadNumberPiece(pieces[0]) + PadNumberPieces(pieces[1..])
  }

  /** At `start` the pattern matches exactly `piece`, or, for a one-character piece, not at all. */
  predicate NumberPieceAt(s: string, piece: string, start: nat)
  {
    && piece != []
    && start < |s|
    && (IsNumberPiece(piece) || |piece| == 1)
    && NumberMatchLen(s[start..]) == if IsNumberPiece(piece) then |piece| else 0
  }

  /**
   * The scan of `add_whitespace_around_numbers` before its strip(), left to
   * right: `s` is cut into pieces; at the start of each piece `\d+\.\d+|\d+`
   * matches exactly that piece, or (a one-character piece) does not match at
   * all; the output is the pieces in order, every match with a space on each
   * side. So the output is longer than the input by two spaces per match.
   */
  lemma PadNumbersPieces(s: string) returns (pieces: seq<string>)
    ensures Concat(pieces) == s
    ensures forall j :: 0 <= j < |pieces| ==> NumberPieceAt(s, pieces[j], PieceStart(pieces, j))
    ensures PadNumbers(s) == PadNumberPieces(pieces)
    ensures |PadNumbers(s)| == |s| + 2 * |Filter(pieces, IsNumberPiece)|
  {
    pieces := NumberScan(s);
    NumberScanConcat(s);
    NumberScanPieces(s);
    NumberScanPads(s);
  }

  /** The pieces of the number scan, built like `PadNumbers`. */
  function NumberScan(s: string): seq<string>
    decreases |s|
  {
    if s == [] then [] else var n := FirstNumberPieceLen(s); [s[..n]] + NumberScan(s[n..])
  }

  /** The length of the number scan's next piece: the match, or one character. */
  function FirstNumberPieceLen(s: string): (n: nat)
    requires s != []
    ensures 1 <= n <= |s|
  {
    var k := NumberMatchLen(s);
    if k > 0 then k else 1
  }

  lemma {:induction false} NumberScanConcat(s: string)
    ensures Concat(NumberScan(s)) == s
    decreases |s|
  {
    if s != [] {
      var n := FirstNumberPieceLen(s);
      var pieces := NumberScan(s);
      NumberScanConcat(s[n..]);
      assert pieces[0] == s[..n] && pieces[1..] == NumberScan(s[n..]);
      assert s[..n] + s[n..] == s;
    }
  }

  lemma {:induction false} NumberScanPieces(s: string)
    ensures forall j :: 0 <= j < |NumberScan(s)| ==> NumberPieceAt(s, NumberScan(s)[j], PieceStart(NumberScan(s), j))
    decreases |s|
  {
    if s != [] {
      var n := FirstNumberPieceLen(s);
      NumberScanPieces(s[n..]);
      PadNumbersStep(s);
      NumberPiecesCons(s, n, NumberScan(s[n..]));
    }
  }

  lemma {:induction false} NumberScanPads(s: string)
    ensures PadNumbers(s) == PadNumberPieces(NumberScan(s))
    ensures |PadNumbers(s)| == |s| + 2 * |Filter(NumberScan(s), IsNumberPiece)|
    decreases |s|
  {
    if s != [] {
      var n := FirstNumberPieceLen(s);
      var pieces := NumberScan(s);
      NumberScanPads(s[n..]);
      PadNumbersStep(s);
      assert pieces[0] == s[..n] && pieces[1..] == NumberScan(s[n..]);
    }
  }

  /** The scan's first piece followed by the scan of the rest is a scan of the whole. */
  lemma NumberPiecesCons(s: string, n: nat, rest: seq<string>)
    requires 1 <= n <= |s| && NumberPieceAt(s, s[..n], 0)
    requires forall j :: 0 <= j < |rest| ==> NumberPieceAt(s[n..], rest[j], PieceStart(rest, j))
    ensures var pieces := [s[..n]] + rest;
      forall j :: 0 <= j < |pieces| ==> NumberPieceAt(s, pieces[j], PieceStart(pieces, j))
  {
    var pieces := [s[..n]] + rest;
    forall j | 0 <= j < |pieces|
      ensures NumberPieceAt(s, pieces[j], PieceStart(pieces, j))
    {
      if j == 0 {
        assert pieces[0] == s[..n];
      } else {
        NumberPieceConsAt(s, n, rest, j - 1);
      }
    }
  }

  lemma NumberPieceConsAt(s: string, n: nat, rest: seq<string>, j: nat)
    requires 1 <= n <= |s| && j < |rest|
    requires NumberPieceAt(s[n..], rest[j], PieceStart(rest, j))
    ensures NumberPieceAt(s, ([s[..n]] + rest)[j + 1], PieceStart([s[..n]] + rest, j + 1))
  {
    assert ([s[..n]] + rest)[j + 1] == rest[j];
    NumberPieceShift(s, n, rest, j);
    PieceStartCons(s[..n], rest, j);
  }

  lemma PadNumbersStep(s: string)
    requires s != []
    ensures var n := FirstNumberPieceLen(s);
      && PadNumbers(s) == PadNumberPiece(s[..n]) + PadNumbers(s[n..])
      && NumberPieceAt(s, s[..n], 0)
  {
    var n := FirstNumberPieceLen(s);
    assert s[..n][0] == s[0];
    assert s[0..] == s;
  }

  lemma NumberPieceShift(s: string, n: nat, rest: seq<string>, j: nat)
    requires n <= |s| && j < |rest|
    requires NumberPieceAt(s[n..], rest[j], PieceStart(rest, j))
    ensures NumberPieceAt(s, rest[j], n + PieceStart(rest, j))
  {
    var p := PieceStart(rest, j);
    assert s[n + p..] == s[n..][p..];
  }


  /** `s.lstrip()` */
  function LStrip(s: string): (r: string)
    ensures |r| <= |s|
    ensures r == [] || !IsSpace(r[0])
  {
    if s == [] || !IsSpace(s[0]) then s else LStrip(s[1..])
  }

  /** What `lstrip` leaves is a suffix. */
  lemma {:induction false} LStripSuffix(s: string)
    ensures LStrip(s) == s[|s| - |LStrip(s)|..]
  {
    if s != [] && IsSpace(s[0]) {
      LStripSuffix(s[1..]);
    }
  }

  /** `s.rstrip()` */
  function RStrip(s: string): (r: string)
    ensures |r| <= |s|
    ensures r == [] || !IsSpace(r[|r| - 1])
  {
    if s == [] || !IsSpace(s[|s| - 1]) then s else RStrip(s[..|s| - 1])
  }

  /** What `rstrip` leaves is a prefix. */
  lemma {:induction false} RStripPrefix(s: string)
    ensures RStrip(s) == s[..|RStrip(s)|]
  {
    if s != [] && IsSpace(s[|s| - 1]) {
      RStripPrefix(s[..|s| - 1]);
    }
  }

  /** Neither end of `s` is whitespace. */
  predicate Stripped(s: string)
  {
    s == [] || (!IsSpace(s[0]) && !IsSpace(s[|s| - 1]))
  }

  /** `s.strip()`: no whitespace at either end. */
  function Strip(s: string): (r: string)
    ensures Stripped(r)
    ensures |r| <= |s|
  {
    var t := RStrip(s);
    var r := LStrip(t);
    LStripSuffix(t);
    assert r == [] || r[|r| - 1] == t[|t| - 1];
    r
  }

  /** What `strip` leaves is a slice. */
  lemma StripSlice(s: string)
    ensures |Strip(s)| <= |RStrip(s)|
    ensures Strip(s) == s[|RStrip(s)| - |Strip(s)|..|RStrip(s)|]
  {
    RStripPrefix(s);
    LStripSuffix(RStrip(s));
  }

  lemma {:induction false} LStripKeepsText(s: string)
    ensures DropSpaces(LStrip(s)) == DropSpaces(s)
  {
    if s != [] && IsSpace(s[0]) {
      LStripKeepsText(s[1..]);
    }
  }

  lemma {:induction false} RStripKeepsText(s: string)
    ensures DropSpaces(RStrip(s)) == DropSpaces(s)
    decreases |s|
  {
    if s != [] && IsSpace(s[|s| - 1]) {
      var n := |s| - 1;
      RStripKeepsText(s[..n]);
      assert s == s[..n] + [s[n]];
      DropSpacesAppend(s[..n], [s[n]]);
    }
  }

  /** Strip removes whitespace only. */
  lemma StripKeepsText(s: string)
    ensures DropSpaces(Strip(s)) == DropSpaces(s)
  {
    RStripKeepsText(s);
    LStripKeepsText(RStrip(s));
  }

  /**
   * add_whitespace_around_numbers: the result has no whitespace at either
   * end, and apart from whitespace it is the input, in order.
   */
  function AddWhitespaceAroundNumbers(s: string): (r: string)
    ensures Stripped(r)
    ensures DropSpaces(r) == DropSpaces(s)
  {
    PadNumbersKeepsText(s);
    StripKeepsText(PadNumbers(s));
    Strip(PadNumbers(s))
  }

  lemma PersianDecimalPadded(d: char, e: char)
    requires IsPersianDigit(d) && IsPersianDigit(e)
    ensures PadNumbers([d, '\U{066B}', e]) == [' ', d, ' ', '\U{066B}', ' ', e, ' ']
  {
    var s := [d, '\U{066B}', e];
    assert DigitRun(s[1..]) == 0;
    assert NumberMatchLen(s) == 1;
    assert s[1..][1..] == s[2..] == [e];
    assert NumberMatchLen([e]) == 1;
    assert PadNumbers([e][1..]) == [];
    assert PadNumbers(s[2..]) == [' ', e, ' '];
    assert PadNumbers(s[1..]) == ['\U{066B}'] + [' ', e, ' '];
  }

  lemma StripOneSpaceEachSide(s: string)
    requires |s| >= 3 && s[0] == ' ' && s[|s| - 1] == ' '
    requires !IsSpace(s[1]) && !IsSpace(s[|s| - 2])
    ensures Strip(s) == s[1..|s| - 1]
  {
    var t := s[..|s| - 1];
    assert RStrip(t) == t;
    assert RStrip(s) == t;
    assert LStrip(t[1..]) == t[1..];
    assert t[1..] == s[1..|s| - 1];
  }

  /**
   * A Persian decimal such as "۱٫۵" is split at its separator: only the
   * first alternative ever matches, and the Persian separator is not `.`.
   */
  lemma PersianDecimalIsSplit(d: char, e: char)
    requires IsPersianDigit(d) && IsPersianDigit(e)
    ensures AddWhitespaceAroundNumbers([d, '\U{066B}', e]) == [d, ' ', '\U{066B}', ' ', e]
  {
    var padded := [' ', d, ' ', '\U{066B}', ' ', e, ' '];
    PersianDecimalPadded(d, e);
    StripOneSpaceEachSide(padded);
    assert padded[1..|padded| - 1] == [d, ' ', '\U{066B}', ' ', e];
  }

  // ------------------------------------------------------------------
  // preprocess_persian_sentence
  // ------------------------------------------------------------------

  predicate KeyFree(s: string)
  {
    forall i :: 0 <= i < |s| ==> !IsNormalizationKey(s[i])
  }

  lemma {:induction false} PadAbbrevKeyFree(s: string)
    requires KeyFree(s)
    ensures KeyFree(PadAbbrev(s))
    decreases |s|
  {
    if s != [] {
      var k := AbbrevMatchLen(s);
      if k > 0 {
        SliceKeyFree(s, k, |s|);
        PadAbbrevKeyFree(s[k..]);
        SliceKeyFree(s, 0, k);
        PaddedKeyFree(s[..k], PadAbbrev(s[k..]));
      } else {
        SliceKeyFree(s, 1, |s|);
        PadAbbrevKeyFree(s[1..]);
        KeyFreeConcat([s[0]], PadAbbrev(s[1..]));
      }
    }
  }

  lemma {:induction false} PadNumbersKeyFree(s: string)
    requires KeyFree(s)
    ensures KeyFree(PadNumbers(s))
    decreases |s|
  {
    if s != [] {
      var k := NumberMatchLen(s);
      if k > 0 {
        SliceKeyFree(s, k, |s|);
        PadNumbersKeyFree(s[k..]);
        SliceKeyFree(s, 0, k);
        PaddedKeyFree(s[..k], PadNumbers(s[k..]));
      } else {
        SliceKeyFree(s, 1, |s|);
        PadNumbersKeyFree(s[1..]);
        KeyFreeConcat([s[0]], PadNumbers(s[1..]));
      }
    }
  }

  lemma KeyFreeConcat(a: string, b: string)
    requires KeyFree(a) && KeyFree(b)
    ensures KeyFree(a + b)
  {
    forall k | 0 <= k < |a + b|
      ensures !IsNormalizationKey((a + b)[k])
    {
      if k >= |a| {
        assert (a + b)[k] == b[k - |a|];
      }
    }
  }

  /** A key-free piece padded with spaces, followed by a key-free rest, is key-free. */
  lemma PaddedKeyFree(piece: string, rest: string)
    requires KeyFree(piece) && KeyFree(rest)
    ensures KeyFree(" " + piece + " " + rest)
  {
    KeyFreeConcat(" ", piece);
    KeyFreeConcat(" " + piece, " ");
    KeyFreeConcat(" " + piece + " ", rest);
  }

  lemma SliceKeyFree(s: string, i: nat, j: nat)
    requires i <= j <= |s| && KeyFree(s)
    ensures KeyFree(s[i..j])
  {
    forall k | 0 <= k < j - i
      ensures !IsNormalizationKey(s[i..j][k])
    {
      assert s[i..j][k] == s[i + k];
    }
  }

  lemma StripKeyFree(s: string)
    requires KeyFree(s)
    ensures KeyFree(Strip(s))
  {
    var e := |RStrip(s)|;
    StripSlice(s);
    SliceKeyFree(s, e - |Strip(s)|, e);
  }

  /** No normalisation key survives preprocessing. */
  lemma PreprocessKeyFree(sentence: string)
    ensures KeyFree(AddWhitespaceAroundNumbers(PadAbbrev(NormalizeChars(sentence))))
  {
    var normalized := NormalizeChars(sentence);
    var padded := PadAbbrev(normalized);
    PadAbbrevKeyFree(normalized);
    PadNumbersKeyFree(padded);
    StripKeyFree(PadNumbers(padded));
  }

  /** Normalise, pad abbreviations, pad numbers and strip. */
  method PreprocessPersianSentence(sentence: string) returns (r: string)
    ensures r == AddWhitespaceAroundNumbers(PadAbbrev(NormalizeChars(sentence)))
    ensures Stripped(r)
    ensures KeyFree(r)
  {
    var normalized := NormalizePersianSentence(sentence);
    var padded := PadAbbrev(normalized);
    r := AddWhitespaceAroundNumbers(padded);
    PreprocessKeyFree(sentence);
  }
}
